=== FILE: README.md ===
# A verified model of the Pinboard / Linkding bookmarking client core

This project models, in Dafny, the pure core of an Android bookmarking
client that keeps bookmarks of a Pinboard or a Linkding account in a
local database and lets the user browse, search, tag and edit them,
online or offline. The model covers the following parts:

- **The `Either` result type** of the functional core (`Either`,
  `Result`, `catching`, `map`, `mapCatching`, `getOrThrow`, …). A Kotlin
  block that may throw is an `Outcome` value: it returned or it threw.
- **The screen state** (`Content`): every screen remembers the screen it
  was opened from. Around it sit three state reducers:
  - navigation (`NavigationActionHandler`);
  - the post list and editor (`PostActionHandler`);
  - search (`SearchActionHandler`).
- **The endless-scroll pager** (`PagingRecyclerView.PagingHandler`), with
  Kotlin's 32-bit `Int` arithmetic written out.
- **Local storage:**
  - the two database mappers, Pinboard `PostDto` and Linkding
    `BookmarkLocal`, including the URL preparation before decoding;
  - the Linkding SQL query builders, with and without the full-text table;
  - the full-text term and tag sanitisers of the Linkding `BookmarksDao`;
  - the offline add, delete and save paths of the Pinboard repository,
    with its paging flag and tag suggestions.
- **Tags:**
  - the tag list: counting, the remote list, the cache, renaming;
  - the tag screen: sorting and filtering;
  - the tag editor of the bookmark form.
- **The typed user preferences** over a key-value store.
- **The quick-action menu** offered for a bookmark.

Each Dafny module follows one source file. Its functions compute what
the Kotlin code computes. Their contracts, and the lemmas beside them,
state the promises the code makes:

- round trips through storage;
- invariants every action preserves;
- reference definitions the operations agree with;
- the error paths.

Shared helpers cover the parts of the Kotlin standard library the core
relies on:

- `Text`: `trim`, `split`, `joinToString`, `replace`, string order;
- `Lists`: `filterNot`, `minus`, `distinct`, `take`;
- `Ordering`: a stable `sortedBy`, with its permutation and stability proofs;
- `Names`: `sorted()` on strings.

## Model

| member | source | states |
|---|---|---|
| Either.ExactlyOneSide | core/src/main/java/com/fibelatti/core/functional/Either.kt:18-19 | every value is a Left or a Right, never both |
| Either.LeftOrNull | core/src/main/java/com/fibelatti/core/functional/Either.kt:39-42 | non-null exactly on a Left, and then it is that Left's value |
| Either.RightOrNull | core/src/main/java/com/fibelatti/core/functional/Either.kt:47-50 | non-null exactly on a Right, and then it is that Right's value |
| Either.LeftOrRightNotBoth | core/src/main/java/com/fibelatti/core/functional/Either.kt:39-50 | for non-null value types, `leftOrNull` and `rightOrNull` are never both null and never both set |
| Either.Dispatch | core/src/main/java/com/fibelatti/core/functional/Either.kt:29-34 | `either` calls the left callback exactly on a Left and the right one on a Right, with the held value |
| Either.ThrowOnFailure | core/src/main/java/com/fibelatti/core/functional/Either.kt:107-109 | throws exactly on a Failure, and throws its error |
| Either.GetOrThrow | core/src/main/java/com/fibelatti/core/functional/Either.kt:115-118 | a Success yields its value, a Failure raises its error |
| Either.GetOrElse | core/src/main/java/com/fibelatti/core/functional/Either.kt:127-130 | the Success value, or the fallback applied to the Failure's error |
| Either.GetOrDefault | core/src/main/java/com/fibelatti/core/functional/Either.kt:139-142 | the Success value, or the default on a Failure |
| Either.OnFailureReturn | core/src/main/java/com/fibelatti/core/functional/Either.kt:151-154 | always a Success; a Success is kept and a Failure becomes the given value |
| Either.Fold | core/src/main/java/com/fibelatti/core/functional/Either.kt:164-167 | the success branch of the value or the failure branch of the error |
| Either.Map | core/src/main/java/com/fibelatti/core/functional/Either.kt:176-179 | a Failure passes through unchanged; a Success becomes what the function returns |
| Either.Catching | core/src/main/java/com/fibelatti/core/functional/Either.kt:200-204 | a block that returns gives a Success of its value, one that throws a Failure of its exception |
| Either.MapCatching | core/src/main/java/com/fibelatti/core/functional/Either.kt:189-192 | like `map`, with an exception thrown by the function turned into a Failure |
| Either.OnFailure | core/src/main/java/com/fibelatti/core/functional/Either.kt:213-215 | returns the receiver; the action runs exactly on a Failure, with its error |
| Either.OnSuccess | core/src/main/java/com/fibelatti/core/functional/Either.kt:224-226 | for a non-null value type: returns the receiver; the action runs exactly on a Success, with its value |
| Either.OnSuccessOfNullable | core/src/main/java/com/fibelatti/core/functional/Either.kt:224-226 | for a nullable value type: returns the receiver; the action runs exactly on a Success holding a non-null value |
| Either.OnSuccessOfNullableAgrees | core/src/main/java/com/fibelatti/core/functional/Either.kt:221-226 | the nullable reading agrees with `onSuccess` except on `Success(null)`, where the action does not run |
| Either.GetOrDefaultIsOnFailureReturn | core/src/main/java/com/fibelatti/core/functional/Either.kt:139-154 | `getOrDefault(d)` is the value held by `onFailureReturn(d)` |
| Either.GetOrElseAgreesWithGetOrThrow | core/src/main/java/com/fibelatti/core/functional/Either.kt:115-130 | `getOrElse` gives what `getOrThrow` returns, and the fallback of what it throws |
| Either.FoldIdentityIsGetOrElse | core/src/main/java/com/fibelatti/core/functional/Either.kt:127-167 | `fold` with the identity on success is `getOrElse` |
| Either.MapSuccessIsIdentity | core/src/main/java/com/fibelatti/core/functional/Either.kt:176-179 | mapping with `Success` changes nothing |
| Either.MapAssociative | core/src/main/java/com/fibelatti/core/functional/Either.kt:176-179 | two maps in a row are one map of the composed step |
| Either.MapCatchingIsMapOfCatching | core/src/main/java/com/fibelatti/core/functional/Either.kt:189-204 | `mapCatching(fn)` is `map` over a `catching` block running `fn` |
| Either.CatchingRoundTrip | core/src/main/java/com/fibelatti/core/functional/Either.kt:115-204 | `getOrThrow` undoes `catching`: it returns or throws exactly what the block did |
| Paging.Minus | core/src/main/java/com/fibelatti/core/android/recyclerview/PagingRecyclerView.kt:116 | Kotlin `Int` subtraction: the true difference when it fits, otherwise wrapped by 2^32 |
| Paging.Rem | core/src/main/java/com/fibelatti/core/android/recyclerview/PagingRecyclerView.kt:115 | Kotlin `%` by a positive divisor: zero exactly when divisible, taking the dividend's sign |
| Paging.SetRequestingNextPage | core/src/main/java/com/fibelatti/core/android/recyclerview/PagingRecyclerView.kt:95-97 | sets the in-flight flag and nothing else |
| Paging.SetPageSize | core/src/main/java/com/fibelatti/core/android/recyclerview/PagingRecyclerView.kt:99-103 | a positive size is stored, any other is ignored; the invariant is kept |
| Paging.SetMinDistanceToLastItem | core/src/main/java/com/fibelatti/core/android/recyclerview/PagingRecyclerView.kt:105-109 | a positive distance is stored, any other is ignored; the invariant is kept |
| Paging.RunKeepsValid | core/src/main/java/com/fibelatti/core/android/recyclerview/PagingRecyclerView.kt:91-109 | no sequence of setter calls makes either bound negative |
| Paging.ReachableHandlersAreValid | core/src/main/java/com/fibelatti/core/android/recyclerview/PagingRecyclerView.kt:89-109 | every handler reachable from a fresh one has non-negative bounds |
| Paging.ShouldHandlePaging | core/src/main/java/com/fibelatti/core/android/recyclerview/PagingRecyclerView.kt:111-118 | for a non-negative count and a first visible position that is non-negative, or -1 (no position) without 32-bit wrap-around: page exactly when both bounds are set, the list is a non-empty whole number of pages, the end is within the distance, and no request is in flight |
| Paging.FreshHandlerNeverPages | core/src/main/java/com/fibelatti/core/android/recyclerview/PagingRecyclerView.kt:89-118 | a fresh handler never asks for a page |
| Paging.RequestingFlagGatesPaging | core/src/main/java/com/fibelatti/core/android/recyclerview/PagingRecyclerView.kt:95-117 | a request in flight blocks paging, and clearing the flag restores the previous answer |
| Paging.WrapAroundAtLargestCount | core/src/main/java/com/fibelatti/core/android/recyclerview/PagingRecyclerView.kt:116 | at the largest count with no visible item the 32-bit difference wraps negative and passes the distance test |
| AppContent.Previous | bookmarking/src/commonMain/kotlin/com/fibelatti/bookmarking/features/appstate/Content.kt:11-14 | the previous screen is strictly shallower, and is `External` exactly at depth one |
| AppContent.History | bookmarking/src/commonMain/kotlin/com/fibelatti/bookmarking/features/appstate/Content.kt:11-14 | the chain of screens starts at the current one and has one entry per level |
| AppContent.HistoryEndsAtExternal | bookmarking/src/commonMain/kotlin/com/fibelatti/bookmarking/features/appstate/Content.kt:27-141 | every history ends at `External`, and `External` appears nowhere else |
| AppContent.Find | bookmarking/src/commonMain/kotlin/com/fibelatti/bookmarking/features/appstate/Content.kt:58-62 | `find<T>()` returns a screen of the kind asked for; the current screen wins, and a screen without history yields nothing otherwise |
| AppContent.FindIsFirstInHistory | bookmarking/src/commonMain/kotlin/com/fibelatti/bookmarking/features/appstate/Content.kt:55-62 | `find` returns the first screen of the kind in the history, and nothing exactly when there is none |
| SearchReducer.RefreshTags | app/src/main/kotlin/com/fibelatti/pinboard/features/appstate/SearchActionHandler.kt:23-27 | the search screen is asked to reload its tags; any other screen is unchanged |
| SearchReducer.SetSearchTerm | app/src/main/kotlin/com/fibelatti/pinboard/features/appstate/SearchActionHandler.kt:29-33 | only the search term changes, and only on the search screen |
| SearchReducer.SetTags | app/src/main/kotlin/com/fibelatti/pinboard/features/appstate/SearchActionHandler.kt:35-43 | stores the known tags and offers exactly those not selected |
| SearchReducer.AddTag | app/src/main/kotlin/com/fibelatti/pinboard/features/appstate/SearchActionHandler.kt:45-62 | a tag is selected only below the maximum and if not yet selected; the offered tags follow |
| SearchReducer.RemoveTag | app/src/main/kotlin/com/fibelatti/pinboard/features/appstate/SearchActionHandler.kt:64-75 | the tag leaves the selection and the offered tags follow |
| SearchReducer.RunSearch | app/src/main/kotlin/com/fibelatti/pinboard/features/appstate/SearchActionHandler.kt:77-86 | returns to the post list with the search applied, newest first, loading the first page |
| SearchReducer.Cleared | app/src/main/kotlin/com/fibelatti/pinboard/features/appstate/SearchActionHandler.kt:89-94 | the list loses its search and reloads from the first page, and nothing else changes |
| SearchReducer.ClearSearchParameters | app/src/main/kotlin/com/fibelatti/pinboard/features/appstate/SearchActionHandler.kt:88-105 | clears the search on a list, on a bookmark's details over a list and from the search screen; other screens are unchanged |
| SearchReducer.ApplySavedFilter | app/src/main/kotlin/com/fibelatti/pinboard/features/appstate/SearchActionHandler.kt:107-119 | from the saved filters, the post list filtered by the chosen term and tags, showing everything newest first from its first page; posts, description setting, connection and force-sync flags carry over |
| SearchReducer.OtherScreensUnchanged | app/src/main/kotlin/com/fibelatti/pinboard/features/appstate/SearchActionHandler.kt:10-21 | the search-screen actions leave every other screen alone |
| SearchReducer.ClearSearchIgnoresOtherScreens | app/src/main/kotlin/com/fibelatti/pinboard/features/appstate/SearchActionHandler.kt:96-104 | clearing the search leaves the screens it does not handle alone |
| SearchReducer.ClearSearchResetsNearestList | app/src/main/kotlin/com/fibelatti/pinboard/features/appstate/SearchActionHandler.kt:88-105 | afterwards the nearest post list has no search and reloads from its first page |
| SearchReducer.ActionsKeepOfferedTagsConsistent | app/src/main/kotlin/com/fibelatti/pinboard/features/appstate/SearchActionHandler.kt:35-75 | every search action keeps "offered = known minus selected" |
| SearchReducer.ActionsKeepSelectionWithinLimit | app/src/main/kotlin/com/fibelatti/pinboard/features/appstate/SearchActionHandler.kt:45-75 | every search action keeps the selection within the maximum and free of repeats |
| SearchReducer.AddThenRemoveRestores | app/src/main/kotlin/com/fibelatti/pinboard/features/appstate/SearchActionHandler.kt:45-75 | selecting a tag and removing it gives back the same search screen |
| NavigationReducer.MarkAsRead | app/src/main/kotlin/com/fibelatti/pinboard/features/appstate/NavigationActionHandler.kt:122-137 | a read-later bookmark opened while mark-as-read is on is written back as read and the list reloads; otherwise nothing is written |
| NavigationReducer.OpenOverList | app/src/main/kotlin/com/fibelatti/pinboard/features/appstate/NavigationActionHandler.kt:148-151 | the body applies to the list on screen or under a bookmark's details; other screens are unchanged |
| NavigationReducer.Back | app/src/main/kotlin/com/fibelatti/pinboard/features/appstate/NavigationActionHandler.kt:39-49 | back goes to the previous screen; leaving the preferences re-reads the description setting; `External` stays |
| NavigationReducer.Category | app/src/main/kotlin/com/fibelatti/pinboard/features/appstate/NavigationActionHandler.kt:51-62 | a category opens a fresh unfiltered list, newest first, from its first page, keeping the posts on screen |
| NavigationReducer.OpenPost | app/src/main/kotlin/com/fibelatti/pinboard/features/appstate/NavigationActionHandler.kt:64-120 | where a bookmark opens from each screen, by the preferred details view |
| NavigationReducer.OpenPostWriteBack | app/src/main/kotlin/com/fibelatti/pinboard/features/appstate/NavigationActionHandler.kt:68-99 | a bookmark is written back as read only when opened from the post list, and then as `markAsRead` says |
| NavigationReducer.OpenNote | app/src/main/kotlin/com/fibelatti/pinboard/features/appstate/NavigationActionHandler.kt:210-227 | a note opens over the note list, or replaces the note in its details screen |
| NavigationReducer.BackShortensHistory | app/src/main/kotlin/com/fibelatti/pinboard/features/appstate/NavigationActionHandler.kt:39-49 | going back always makes the history shorter |
| NavigationReducer.BackUndoesOpenOverList | app/src/main/kotlin/com/fibelatti/pinboard/features/appstate/NavigationActionHandler.kt:139-252 | back after opening a screen over a list returns to that list |
| NavigationReducer.OpenOverListIgnoresOtherScreens | app/src/main/kotlin/com/fibelatti/pinboard/features/appstate/NavigationActionHandler.kt:139-252 | screens not on a post list ignore those actions |
| NavigationReducer.ListsLoadOnlyWhenConnected | app/src/main/kotlin/com/fibelatti/pinboard/features/appstate/NavigationActionHandler.kt:168-242 | the tag list, the note list and popular posts load exactly when connected |
| NavigationReducer.BackFromNoteReturnsToNotes | app/src/main/kotlin/com/fibelatti/pinboard/features/appstate/NavigationActionHandler.kt:210-227 | back from any note's details lands on the note list |
| NavigationReducer.ReloadIffWriteBack | app/src/main/kotlin/com/fibelatti/pinboard/features/appstate/NavigationActionHandler.kt:68-81 | the list under an opened bookmark reloads exactly when the bookmark is written back |
| NavigationReducer.CategoryResetsList | app/src/main/kotlin/com/fibelatti/pinboard/features/appstate/NavigationActionHandler.kt:51-62 | a category always starts unfiltered, newest first, from its first page |
| PostReducer.OnListOrDetail | bookmarking/src/commonMain/kotlin/com/fibelatti/bookmarking/features/appstate/PostActionHandler.kt:39-43 | a list update reaches the list on screen or under a bookmark's details, keeps the kind of screen, and nothing else |
| PostReducer.RefreshedList | bookmarking/src/commonMain/kotlin/com/fibelatti/bookmarking/features/appstate/PostActionHandler.kt:26-37 | offline nothing loads; online a forced refresh force-loads and a plain one loads the first page; nothing else changes |
| PostReducer.WithPosts | bookmarking/src/commonMain/kotlin/com/fibelatti/bookmarking/features/appstate/PostActionHandler.kt:46-58 | an empty result clears the posts; the list is loaded or still syncing by the up-to-date flag |
| PostReducer.RequestNextPage | bookmarking/src/commonMain/kotlin/com/fibelatti/bookmarking/features/appstate/PostActionHandler.kt:69-76 | the next page is asked from the number of posts loaded; nothing happens without posts |
| PostReducer.AppendPage | bookmarking/src/commonMain/kotlin/com/fibelatti/bookmarking/features/appstate/PostActionHandler.kt:86-100 | a page is added after the loaded posts, without repeating any |
| PostReducer.Sorted | bookmarking/src/commonMain/kotlin/com/fibelatti/bookmarking/features/appstate/PostActionHandler.kt:111-121 | online the list re-sorts and reloads; offline only the connection flag changes |
| PostReducer.Edit | bookmarking/src/commonMain/kotlin/com/fibelatti/bookmarking/features/appstate/PostActionHandler.kt:132-141 | the editor opens over a list or a bookmark's details only |
| PostReducer.Saved | bookmarking/src/commonMain/kotlin/com/fibelatti/bookmarking/features/appstate/PostActionHandler.kt:150-212 | where the app goes after a save, screen by screen, and which list reloads |
| PostReducer.Deleted | bookmarking/src/commonMain/kotlin/com/fibelatti/bookmarking/features/appstate/PostActionHandler.kt:214-233 | a list reloads; any other screen closes and the list it returns to reloads |
| PostReducer.ListActionsTouchOnlyLists | bookmarking/src/commonMain/kotlin/com/fibelatti/bookmarking/features/appstate/PostActionHandler.kt:26-130 | refresh, new posts and next page leave screens without a list alone |
| PostReducer.OfflineRefreshLoadsNothing | bookmarking/src/commonMain/kotlin/com/fibelatti/bookmarking/features/appstate/PostActionHandler.kt:26-44 | offline, no refresh asks to load |
| PostReducer.RefreshIdempotent | bookmarking/src/commonMain/kotlin/com/fibelatti/bookmarking/features/appstate/PostActionHandler.kt:26-44 | refreshing twice is refreshing once |
| PostReducer.NextPageStartsAfterLoadedPosts | bookmarking/src/commonMain/kotlin/com/fibelatti/bookmarking/features/appstate/PostActionHandler.kt:69-84 | the page asked for next starts right after the posts already loaded |
| PostReducer.AppendPageTwiceIsOnce | bookmarking/src/commonMain/kotlin/com/fibelatti/bookmarking/features/appstate/PostActionHandler.kt:86-100 | delivering the same page twice adds nothing the second time |
| PostReducer.DeletedFromDetailReloadsList | bookmarking/src/commonMain/kotlin/com/fibelatti/bookmarking/features/appstate/PostActionHandler.kt:214-224 | deleting from a bookmark's details returns to the list under it, reloading |
| PostReducer.DeletedNeverDeepens | bookmarking/src/commonMain/kotlin/com/fibelatti/bookmarking/features/appstate/PostActionHandler.kt:214-233 | a deletion never makes the history longer |
| LinkdingQueries.TermWords | app/src/main/kotlin/com/fibelatti/pinboard/features/linkding/data/BookmarksDao.kt:127-129 | the term's words, each non-empty and free of `\s`; there are none exactly when the term is blank |
| LinkdingQueries.TermWordsOfJoin | app/src/main/kotlin/com/fibelatti/pinboard/features/linkding/data/BookmarksDao.kt:127-129 | words without whitespace joined by single spaces come back as the same words, in order |
| LinkdingQueries.Operator | app/src/main/kotlin/com/fibelatti/pinboard/features/linkding/data/BookmarksDao.kt:130 | "and" exactly when all words must match, "or" otherwise |
| LinkdingQueries.SelectedTags | app/src/main/kotlin/com/fibelatti/pinboard/features/linkding/data/BookmarksDao.kt:146-147 | at most three non-blank tags, none when untagged only, and every non-blank tag otherwise |
| LinkdingQueries.SelectedTagsInOrder | app/src/main/kotlin/com/fibelatti/pinboard/features/linkding/data/BookmarksDao.kt:146-147 | unless untagged only, each non-blank tag is selected as often as it is given and blank ones never, in the order tag1, tag2, tag3 |
| LinkdingQueries.FormatTagArgument | app/src/main/kotlin/com/fibelatti/pinboard/features/linkding/data/BookmarksDao.kt:227-230 | the tag without double quotes, wrapped in `*` unless matched exactly |
| LinkdingQueries.OrderClause | app/src/main/kotlin/com/fibelatti/pinboard/features/linkding/data/BookmarksDao.kt:178-185 | sort codes 0 to 5 add an order and any other code none; no placeholder |
| LinkdingQueries.LimitClause | app/src/main/kotlin/com/fibelatti/pinboard/features/linkding/data/BookmarksDao.kt:187 | the limit clause binds two placeholders, offset and limit |
| LinkdingQueries.FtsSql | app/src/main/kotlin/com/fibelatti/pinboard/features/linkding/data/BookmarksDao.kt:157-192 | the full-text SQL holds one `?` per term argument, per selected tag, and two for paging |
| LinkdingQueries.FtsArgs | app/src/main/kotlin/com/fibelatti/pinboard/features/linkding/data/BookmarksDao.kt:193-215 | how many arguments: none for a blank term, otherwise one per word and one more; every selected tag formatted; then offset and limit (their order is stated by FtsArgsInOrder) |
| LinkdingQueries.FtsQuery | app/src/main/kotlin/com/fibelatti/pinboard/features/linkding/data/BookmarksDao.kt:111-218 | the SQL holds exactly one `?` per bound argument, and the last two arguments are offset and limit |
| LinkdingQueries.CountFtsQuery | app/src/main/kotlin/com/fibelatti/pinboard/features/linkding/data/BookmarksDao.kt:52-78 | placeholders match arguments; offset 0 and the limit are bound last |
| LinkdingQueries.AllFtsQuery | app/src/main/kotlin/com/fibelatti/pinboard/features/linkding/data/BookmarksDao.kt:80-109 | placeholders match arguments; offset and limit are bound last |
| LinkdingQueries.NoFtsQuery | app/src/main/kotlin/com/fibelatti/pinboard/features/linkding/data/BookmarksDao.kt:293-401 | one `?` per argument: seven per word, one per selected tag, then offset and limit |
| LinkdingQueries.NoFtsSql | app/src/main/kotlin/com/fibelatti/pinboard/features/linkding/data/BookmarksDao.kt:343-378 | the LIKE SQL holds one `?` per searched column and word, per selected tag, and two for paging |
| LinkdingQueries.NoFtsArgs | app/src/main/kotlin/com/fibelatti/pinboard/features/linkding/data/BookmarksDao.kt:379-398 | how many arguments: seven per word, one per selected tag, then offset and limit (their positions are stated by NoFtsArgsTermAt and NoFtsArgsTagsInOrder) |
| LinkdingQueries.CountNoFtsQuery | app/src/main/kotlin/com/fibelatti/pinboard/features/linkding/data/BookmarksDao.kt:234-260 | placeholders match arguments; offset 0 and the limit are bound last |
| LinkdingQueries.AllNoFtsQuery | app/src/main/kotlin/com/fibelatti/pinboard/features/linkding/data/BookmarksDao.kt:262-291 | placeholders match arguments; offset and limit are bound last |
| LinkdingQueries.UntaggedIgnoresTagsFts | app/src/main/kotlin/com/fibelatti/pinboard/features/linkding/data/BookmarksDao.kt:146-211 | with untagged only, the FTS query is the one built with no tags and binds no tag |
| LinkdingQueries.UntaggedIgnoresTagsNoFts | app/src/main/kotlin/com/fibelatti/pinboard/features/linkding/data/BookmarksDao.kt:332-394 | with untagged only, the LIKE query has no tag condition and binds no tag |
| LinkdingQueries.FtsArgsInOrder | app/src/main/kotlin/com/fibelatti/pinboard/features/linkding/data/BookmarksDao.kt:193-211 | the term arguments come first: the `match` argument joining the words, then one `%word%` (or bare word when matched exactly) per word in order; then the formatted tags in tag1, tag2, tag3 order |
| LinkdingQueries.NoFtsArgsTermAt | app/src/main/kotlin/com/fibelatti/pinboard/features/linkding/data/BookmarksDao.kt:379-388 | for each of the seven searched columns k and each word i, the argument at k times the word count plus i is that word's `%word%` pattern (or the bare word when matched exactly) |
| LinkdingQueries.NoFtsArgsTagsInOrder | app/src/main/kotlin/com/fibelatti/pinboard/features/linkding/data/BookmarksDao.kt:390-394 | right after the word patterns come the selected tags, unformatted, in tag1, tag2, tag3 order |
| LinkdingQueries.UntaggedConditionFts | app/src/main/kotlin/com/fibelatti/pinboard/features/linkding/data/BookmarksDao.kt:160-166 | the FTS SQL is the select and filter clause, then `and tagNames = ''` exactly when untagged only and nothing otherwise, then a rest that does not depend on the flag |
| LinkdingQueries.UntaggedConditionNoFts | app/src/main/kotlin/com/fibelatti/pinboard/features/linkding/data/BookmarksDao.kt:346-352 | the same for the LIKE SQL |
| LinkdingQueries.TagsAreBound | app/src/main/kotlin/com/fibelatti/pinboard/features/linkding/data/BookmarksDao.kt:207-211 | otherwise every non-blank tag is bound, formatted, in both query families |
| LinkdingQueries.TailClosing | app/src/main/kotlin/com/fibelatti/pinboard/features/linkding/data/BookmarksDao.kt:187-191 | closing the sub-select only appends `)` |
| LinkdingQueries.CountFtsWrapsListing | app/src/main/kotlin/com/fibelatti/pinboard/features/linkding/data/BookmarksDao.kt:52-109 | the counting query is the listing query behind the counting select, closed by `)`, with the same arguments |
| LinkdingQueries.CountNoFtsWrapsListing | app/src/main/kotlin/com/fibelatti/pinboard/features/linkding/data/BookmarksDao.kt:234-291 | the same for the LIKE family, whose count has no order clause |
| LinkdingQueries.ExistingTagFtsQuery | app/src/main/kotlin/com/fibelatti/pinboard/features/linkding/data/BookmarksDao.kt:220-225 | binds the tag as a quote-free prefix-and-suffix match, one placeholder for one argument |
| LinkdingQueries.ExistingTagNoFtsQuery | app/src/main/kotlin/com/fibelatti/pinboard/features/linkding/data/BookmarksDao.kt:403-408 | binds `%tag%`, one placeholder for one argument |
| FtsFormat.KeepAllowed | bookmarking/src/commonMain/kotlin/com/fibelatti/bookmarking/linkding/data/BookmarksDao.kt:122 | only allowed characters survive, each as often as in the input; a single character is kept exactly when allowed |
| FtsFormat.KeepAllowedAppend | bookmarking/src/commonMain/kotlin/com/fibelatti/bookmarking/linkding/data/BookmarksDao.kt:122 | the sanitised concatenation is the concatenation of the sanitised parts, so the kept characters stay in order |
| FtsFormat.PreFormatTerm | bookmarking/src/commonMain/kotlin/com/fibelatti/bookmarking/linkding/data/BookmarksDao.kt:121-127 | empty exactly for a blank sanitised term; otherwise one `*` per space-separated word, and only allowed characters and `*` |
| FtsFormat.PreFormatTermOfWords | bookmarking/src/commonMain/kotlin/com/fibelatti/bookmarking/linkding/data/BookmarksDao.kt:121-127 | words of allowed characters joined by single spaces come out as the same words, in order, each with a `*` suffix and joined by ` NEAR ` |
| FtsFormat.KeepAllowedOfAllowed | bookmarking/src/commonMain/kotlin/com/fibelatti/bookmarking/linkding/data/BookmarksDao.kt:122 | a term made only of allowed characters passes the sanitiser unchanged |
| FtsFormat.NearJoinStars | bookmarking/src/commonMain/kotlin/com/fibelatti/bookmarking/linkding/data/BookmarksDao.kt:125-126 | joining with NEAR yields one `*` per space-separated word |
| FtsFormat.NearJoinChars | bookmarking/src/commonMain/kotlin/com/fibelatti/bookmarking/linkding/data/BookmarksDao.kt:121-126 | the joined term holds only allowed characters and `*` |
| FtsFormat.PreFormatTag | bookmarking/src/commonMain/kotlin/com/fibelatti/bookmarking/linkding/data/BookmarksDao.kt:129-130 | the tag's non-quote characters as one quoted prefix phrase, with exactly two quotes |
| StoredPost.FromDto | bookmarking/src/commonMain/kotlin/com/fibelatti/bookmarking/linkding/data/BookmarkLocal.kt:62-67 | a stored pending change is read back as absent exactly when it is absent |
| StoredPost.ToDto | bookmarking/src/commonMain/kotlin/com/fibelatti/bookmarking/linkding/data/BookmarkLocal.kt:85-90 | a pending change is stored as absent exactly when it is absent |
| StoredPost.PendingSyncRoundTrips | bookmarking/src/commonMain/kotlin/com/fibelatti/bookmarking/linkding/data/BookmarkLocal.kt:62-90 | the two pending-change conversions are inverse bijections |
| StoredPost.SplitTags | bookmarking/src/commonMain/kotlin/com/fibelatti/bookmarking/pinboard/data/PostDto.kt:60-63 | the space-separated pieces, sorted by name, with no counts |
| StoredPost.ParseTags | bookmarking/src/commonMain/kotlin/com/fibelatti/bookmarking/pinboard/data/PostDto.kt:57-64 | no tags exactly for a blank string, otherwise its sorted pieces |
| StoredPost.FormatTags | bookmarking/src/commonMain/kotlin/com/fibelatti/bookmarking/linkding/data/BookmarkLocal.kt:83 | empty for no tags, the name itself for one |
| StoredPost.ParseFormatTags | bookmarking/src/commonMain/kotlin/com/fibelatti/bookmarking/linkding/data/BookmarkLocal.kt:57-83 | reading back a written tag list in stored form gives it back |
| BookmarkLocalMapping.ReadTagNames | bookmarking/src/commonMain/kotlin/com/fibelatti/bookmarking/linkding/data/BookmarkLocal.kt:57 | no tags exactly when the column is null or blank |
| BookmarkLocalMapping.Map | bookmarking/src/commonMain/kotlin/com/fibelatti/bookmarking/linkding/data/BookmarkLocal.kt:47-69 | field by field, including private = not shared and readLater = unread |
| BookmarkLocalMapping.MapReverse | bookmarking/src/commonMain/kotlin/com/fibelatti/bookmarking/linkding/data/BookmarkLocal.kt:71-92 | each field carries over; shared is the negation of private, and present tags are stored in their space-separated form (absent ones as null) |
| BookmarkLocalMapping.MapAfterMapReverse | bookmarking/src/commonMain/kotlin/com/fibelatti/bookmarking/linkding/data/BookmarkLocal.kt:47-92 | storing a normalised bookmark and reading it back gives it back |
| BookmarkLocalMapping.MapReverseAfterMap | bookmarking/src/commonMain/kotlin/com/fibelatti/bookmarking/linkding/data/BookmarkLocal.kt:47-92 | reading a row with both flags and stored-form tags and writing it again gives it back |
| PostDtoMapping.PreparePercent | bookmarking/src/commonMain/kotlin/com/fibelatti/bookmarking/pinboard/data/PostDto.kt:74-77 | never shortens the text, and empty stays empty |
| PostDtoMapping.PreparePercentWellFormed | bookmarking/src/commonMain/kotlin/com/fibelatti/bookmarking/pinboard/data/PostDto.kt:74-77 | afterwards every `%` starts a two-digit hex escape |
| PostDtoMapping.PreparePercentKeepsWellFormed | bookmarking/src/commonMain/kotlin/com/fibelatti/bookmarking/pinboard/data/PostDto.kt:74-77 | a well-formed text passes unchanged |
| PostDtoMapping.PreparePlus | bookmarking/src/commonMain/kotlin/com/fibelatti/bookmarking/pinboard/data/PostDto.kt:79-82 | no `+` is left |
| PostDtoMapping.PreparePlusKeepsWellFormed | bookmarking/src/commonMain/kotlin/com/fibelatti/bookmarking/pinboard/data/PostDto.kt:79-82 | escaping `+` keeps every `%` an escape |
| PostDtoMapping.PreparePlusKeepsPlusFree | bookmarking/src/commonMain/kotlin/com/fibelatti/bookmarking/pinboard/data/PostDto.kt:79-82 | a text without `+` passes unchanged |
| PostDtoMapping.PrepareUrl | bookmarking/src/commonMain/kotlin/com/fibelatti/bookmarking/pinboard/data/PostDto.kt:43-46 | the href reaches the decoder with well-formed escapes and no `+` |
| PostDtoMapping.PrepareUrlKeepsEncoded | bookmarking/src/commonMain/kotlin/com/fibelatti/bookmarking/pinboard/data/PostDto.kt:43-46 | an already encoded href reaches the decoder unchanged |
| PostDtoMapping.Map | bookmarking/src/commonMain/kotlin/com/fibelatti/bookmarking/pinboard/data/PostDto.kt:42-72 | field by field: private means "no", read-later means "yes", blank tags mean none |
| PostDtoMapping.MapReverse | bookmarking/src/commonMain/kotlin/com/fibelatti/bookmarking/pinboard/data/PostDto.kt:84-101 | the flags are written as "yes"/"no" by their truth; present tags are stored in their space-separated form, absent ones as "" |
| PostDtoMapping.MapAfterMapReverse | bookmarking/src/commonMain/kotlin/com/fibelatti/bookmarking/pinboard/data/PostDto.kt:42-101 | storing a normalised bookmark and reading it back gives it back, when the URL codec round-trips |
| PostDtoMapping.FlagsSurviveStorage | bookmarking/src/commonMain/kotlin/com/fibelatti/bookmarking/pinboard/data/PostDto.kt:42-101 | for any bookmark, flags, pending change, title, description, key and time survive a store and reload |
| PinboardPosts.FindByUrl | app/src/main/kotlin/com/fibelatti/pinboard/features/posts/data/PostsDao.kt:59-60 | a row with that URL, and none exactly when no row holds it |
| PinboardPosts.WithoutHash | app/src/main/kotlin/com/fibelatti/pinboard/features/posts/data/PostsDao.kt:22-23 | exactly the rows with another key, keeping keys unique |
| PinboardPosts.Upsert | app/src/main/kotlin/com/fibelatti/pinboard/features/posts/data/PostsDao.kt:22-23 | the row replaces any row with the same key and the key stays unique |
| PinboardPosts.UpsertAll | app/src/main/kotlin/com/fibelatti/pinboard/features/posts/data/PostsDao.kt:22-23 | only old or new rows remain, the last row written is present, and keys stay unique |
| PinboardPosts.UpsertAllKeepsLastOfKey | app/src/main/kotlin/com/fibelatti/pinboard/features/posts/data/PostsDao.kt:22-23 | a row of the list stays unless a later row of the list has its key |
| PinboardPosts.UpsertAllKeepsOthers | app/src/main/kotlin/com/fibelatti/pinboard/features/posts/data/PostsDao.kt:22-23 | a stored row stays unless some row of the list has its key |
| PinboardPosts.LocalRow | app/src/main/kotlin/com/fibelatti/pinboard/features/posts/data/PostsDataSourcePinboardApi.kt:158-168 | a new URL is marked as an addition; a stored row keeps its URL, key, time and mark, or is marked as an update |
| PinboardPosts.AddPostLocal | app/src/main/kotlin/com/fibelatti/pinboard/features/posts/data/PostsDataSourcePinboardApi.kt:155-173 | a throw of either DAO call is the Failure and leaves the table alone; otherwise the row is saved and returned as read back through the mapper, the other keys' rows stay, nothing else is added, and keys stay unique |
| PinboardPosts.AddThenFind | app/src/main/kotlin/com/fibelatti/pinboard/features/posts/data/PostsDataSourcePinboardApi.kt:155-173 | after an offline add, the URL finds the row just written |
| PinboardPosts.AddTwiceStaysAdded | app/src/main/kotlin/com/fibelatti/pinboard/features/posts/data/PostsDataSourcePinboardApi.kt:155-173 | adding a new URL twice offline keeps it marked as an addition |
| PinboardPosts.DeletePostLocal | app/src/main/kotlin/com/fibelatti/pinboard/features/posts/data/PostsDataSourcePinboardApi.kt:191-196 | a throw of either DAO call is the Failure and leaves the table alone; an unknown URL fails with an illegal-state error; a stored one is marked for deletion |
| PinboardPosts.DeleteThenFind | app/src/main/kotlin/com/fibelatti/pinboard/features/posts/data/PostsDataSourcePinboardApi.kt:191-196 | after an offline delete, the URL finds the row marked for deletion |
| PinboardPosts.DeleteThenAddStaysDeleted | app/src/main/kotlin/com/fibelatti/pinboard/features/posts/data/PostsDataSourcePinboardApi.kt:155-196 | a bookmark deleted and then saved again offline stays marked for deletion |
| PinboardPosts.NoEncodedSpaceLeft | app/src/main/kotlin/com/fibelatti/pinboard/features/posts/data/PostsDataSourcePinboardApi.kt:296 | decoding `%20` leaves no `%20` behind |
| PinboardPosts.DecodeSpacesOfPlain | app/src/main/kotlin/com/fibelatti/pinboard/features/posts/data/PostsDataSourcePinboardApi.kt:296 | a URL without `%20` is unchanged |
| PinboardPosts.PrepareRow | app/src/main/kotlin/com/fibelatti/pinboard/features/posts/data/PostsDataSourcePinboardApi.kt:293-302 | a row with entities or encoded spaces has its tags replaced and its spaces decoded; any other row is kept |
| PinboardPosts.PrepareRowIdempotent | app/src/main/kotlin/com/fibelatti/pinboard/features/posts/data/PostsDataSourcePinboardApi.kt:293-302 | a prepared row without entities left is prepared to itself |
| PinboardPosts.SavePosts | app/src/main/kotlin/com/fibelatti/pinboard/features/posts/data/PostsDataSourcePinboardApi.kt:289-304 | an empty list changes nothing; otherwise the last prepared row is stored, no new row holds `%20`, and keys stay unique |
| PinboardPosts.SavePostsKeepsLastOfKey | app/src/main/kotlin/com/fibelatti/pinboard/features/posts/data/PostsDataSourcePinboardApi.kt:289-304 | the prepared form of a row stays unless a later row of the list has its key |
| PinboardPosts.SavePostsKeepsOthers | app/src/main/kotlin/com/fibelatti/pinboard/features/posts/data/PostsDataSourcePinboardApi.kt:289-304 | a stored row stays unless some row of the list has its key |
| PinboardPosts.Window | app/src/main/kotlin/com/fibelatti/pinboard/features/posts/data/PostsDao.kt:40 | a contiguous run after the offset, at most the limit, all the rest when the limit is negative or large |
| PinboardPosts.GetLocalData | app/src/main/kotlin/com/fibelatti/pinboard/features/posts/data/PostsDataSourcePinboardApi.kt:341-388 | fails exactly when the count query throws, or the count is positive and the page query throws; otherwise the page is read only when the count is positive, and more pages may follow exactly when it is full |
| PinboardPosts.NoPaginationMeansExhausted | app/src/main/kotlin/com/fibelatti/pinboard/features/posts/data/PostsDataSourcePinboardApi.kt:382-387 | when no further page is offered, the page holds every remaining row |
| PinboardPosts.TagsStartingWith | app/src/main/kotlin/com/fibelatti/pinboard/features/posts/data/PostsDataSourcePinboardApi.kt:406-411 | every stored tag that starts with the query ignoring case and is not on the bookmark, once each, sorted |
| PinboardPosts.RankedNames | app/src/main/kotlin/com/fibelatti/pinboard/features/posts/data/PostsDataSourcePinboardApi.kt:413-419 | every stored tag once, most used first |
| PinboardPosts.TopTags | app/src/main/kotlin/com/fibelatti/pinboard/features/posts/data/PostsDataSourcePinboardApi.kt:412-422 | at most 20 of the most used tags not on the bookmark; a tag is left out only when 20 at least as used are shown |
| PinboardPosts.TakeKeepsRanking | app/src/main/kotlin/com/fibelatti/pinboard/features/posts/data/PostsDataSourcePinboardApi.kt:420-421 | the first n of a ranked list stay ranked, and nothing left out outranks them |
| PinboardPosts.SearchExistingPostTag | app/src/main/kotlin/com/fibelatti/pinboard/features/posts/data/PostsDataSourcePinboardApi.kt:400-424 | the DAO's failure, or the suggestions of the branch taken; never a tag already on the bookmark, never twice |
| TagsData.Tokens | bookmarking/src/commonMain/kotlin/com/fibelatti/bookmarking/features/tags/data/TagsDataSource.kt:45 | every token is free of spaces |
| TagsData.Grouped | bookmarking/src/commonMain/kotlin/com/fibelatti/bookmarking/features/tags/data/TagsDataSource.kt:46-47 | one tag per key, in the keys' order, with the number of tokens equal to it |
| TagsData.LocalTags | bookmarking/src/commonMain/kotlin/com/fibelatti/bookmarking/features/tags/data/TagsDataSource.kt:43-49 | one tag per distinct token, counting its occurrences, sorted by name; the counts add up to the tokens |
| TagsData.CountingExample | app/src/test/kotlin/com/fibelatti/pinboard/features/tags/data/TagsDataSourcePinboardApiTest.kt:116-137 | the counting test case, as a worked example: "tag1 tag2", "tag1", "tag2", "tag3" count as tag1:2, tag2:2, tag3:1 |
| TagsData.GetLocalTags | bookmarking/src/commonMain/kotlin/com/fibelatti/bookmarking/features/tags/data/TagsDataSource.kt:42-49 | the cache if present, else the DAO's failure, else exactly `LocalTags` of the DAO's strings: sorted by name, one tag per distinct token, with its count |
| TagsData.EntryTags | bookmarking/src/commonMain/kotlin/com/fibelatti/bookmarking/features/tags/data/TagsDataSource.kt:55 | one tag per API entry, with its name and count |
| TagsData.RemoteTags | bookmarking/src/commonMain/kotlin/com/fibelatti/bookmarking/features/tags/data/TagsDataSource.kt:53-57 | the API's entries as tags, sorted by name |
| TagsData.RemoteTagsIgnoreEntryOrder | bookmarking/src/commonMain/kotlin/com/fibelatti/bookmarking/features/tags/data/TagsDataSource.kt:53-57 | the order in which the API's map yields its entries does not matter |
| TagsData.GetRemoteTags | bookmarking/src/commonMain/kotlin/com/fibelatti/bookmarking/features/tags/data/TagsDataSource.kt:51-57 | a network failure passes through; otherwise the API's tags, sorted by name (`RemoteTags`) |
| TagsData.GetAllTags | bookmarking/src/commonMain/kotlin/com/fibelatti/bookmarking/features/tags/data/TagsDataSource.kt:35-40 | local first, remote only in Pinboard mode while connected; the cache holds the last successful list |
| TagsData.Remembered | bookmarking/src/commonMain/kotlin/com/fibelatti/bookmarking/features/tags/data/TagsDataSource.kt:40 | the cache is set exactly when it was or some emission succeeded, and holds the last one if it succeeded |
| TagsData.RenameLocal | bookmarking/src/commonMain/kotlin/com/fibelatti/bookmarking/features/tags/data/TagsDataSource.kt:66 | tags with the old name get the new one, counts and order kept, others untouched |
| TagsData.RenameBack | bookmarking/src/commonMain/kotlin/com/fibelatti/bookmarking/features/tags/data/TagsDataSource.kt:66 | renaming to an unused name and back restores the list |
| TagsData.RenameTag | bookmarking/src/commonMain/kotlin/com/fibelatti/bookmarking/features/tags/data/TagsDataSource.kt:59-71 | a network failure passes through; a non-DONE code is an API error; on DONE the cache is renamed, or the remote list fetched |
| TagsData.RenameKeepsCounts | bookmarking/src/commonMain/kotlin/com/fibelatti/bookmarking/features/tags/data/TagsDataSource.kt:66 | renaming keeps the total count |
| TagsViewModel.OrderIsTotal | bookmarking/src/commonMain/kotlin/com/fibelatti/bookmarking/features/tags/presentation/TagsViewModel.kt:53-57 | each sorting compares every pair of tags consistently |
| TagsViewModel.SortedTags | bookmarking/src/commonMain/kotlin/com/fibelatti/bookmarking/features/tags/presentation/TagsViewModel.kt:53-57 | a stable sort: same tags, in order, with ties kept in their original order |
| TagsViewModel.SortTags | bookmarking/src/commonMain/kotlin/com/fibelatti/bookmarking/features/tags/presentation/TagsViewModel.kt:47-66 | the sorted tags, sorting and query are stored and loading ends |
| TagsViewModel.ResortIsIdempotent | bookmarking/src/commonMain/kotlin/com/fibelatti/bookmarking/features/tags/presentation/TagsViewModel.kt:47-66 | sorting again with the stored defaults changes nothing |
| TagsViewModel.SearchTags | bookmarking/src/commonMain/kotlin/com/fibelatti/bookmarking/features/tags/presentation/TagsViewModel.kt:68-70 | only the query changes |
| TagsViewModel.FilteredTags | bookmarking/src/commonMain/kotlin/com/fibelatti/bookmarking/features/tags/presentation/TagsViewModel.kt:97-101 | all tags for a blank query, otherwise exactly those whose name starts with it ignoring case, each as often as stored and in the stored order |
| TagsViewModel.TagsMatching | bookmarking/src/commonMain/kotlin/com/fibelatti/bookmarking/features/tags/presentation/TagsViewModel.kt:100 | exactly the tags that match the query, never more |
| TagsViewModel.TagsMatchingCounts | bookmarking/src/commonMain/kotlin/com/fibelatti/bookmarking/features/tags/presentation/TagsViewModel.kt:100 | each matching tag is kept as often as the list holds it, every other tag is dropped |
| TagsViewModel.TagsMatchingInOrder | bookmarking/src/commonMain/kotlin/com/fibelatti/bookmarking/features/tags/presentation/TagsViewModel.kt:100 | the kept tags are in the list's order |
| TagsViewModel.FilteringKeepsOrder | bookmarking/src/commonMain/kotlin/com/fibelatti/bookmarking/features/tags/presentation/TagsViewModel.kt:97-101 | filtering a list sorted under any ordering keeps it sorted |
| TagsViewModel.FilteredTagsAreSorted | bookmarking/src/commonMain/kotlin/com/fibelatti/bookmarking/features/tags/presentation/TagsViewModel.kt:47-101 | after sorting, the filtered list is in the chosen order too |
| TagsViewModel.SearchKeepsTags | bookmarking/src/commonMain/kotlin/com/fibelatti/bookmarking/features/tags/presentation/TagsViewModel.kt:68-101 | a new query changes which tags show, never the tags; restoring the query restores the state |
| TagManager.TypedWords | app/src/main/kotlin/com/fibelatti/pinboard/features/tags/data/TagManagerDataSource.kt:69-70 | at least one word, none holding a space, and joining them with spaces gives back the trimmed input |
| TagManager.AddTag | app/src/main/kotlin/com/fibelatti/pinboard/features/tags/data/TagManagerDataSource.kt:67-80 | typed words not yet tags are appended after the existing tags, each as often as typed (so "x x" adds two), with no posts; the query clears; no editor, no change |
| TagManager.AddTagKeepsTypedOrder | app/src/main/kotlin/com/fibelatti/pinboard/features/tags/data/TagManagerDataSource.kt:67-80 | the appended tags are in the order their names were typed |
| TagManager.AddingPresentTagsKeepsTags | app/src/main/kotlin/com/fibelatti/pinboard/features/tags/data/TagManagerDataSource.kt:67-80 | typing only existing tag names changes nothing but the query |
| TagManager.BlankInputAddsEmptyName | app/src/main/kotlin/com/fibelatti/pinboard/features/tags/data/TagManagerDataSource.kt:67-80 | a blank input adds one tag with an empty name |
| TagManager.RemoveTag | app/src/main/kotlin/com/fibelatti/pinboard/features/tags/data/TagManagerDataSource.kt:82-84 | one occurrence of the tag goes and everything else stays |
| TagManager.SetTagSearchQuery | app/src/main/kotlin/com/fibelatti/pinboard/features/tags/data/TagManagerDataSource.kt:86-88 | only the query changes |
| TagManager.RemoveUndoesAdd | app/src/main/kotlin/com/fibelatti/pinboard/features/tags/data/TagManagerDataSource.kt:67-84 | removing a tag just added by name undoes the addition, up to the cleared query |
| Preferences.Open | bookmarking/src/commonMain/kotlin/com/fibelatti/bookmarking/core/persistence/UserSharedPreferences.kt:9-11 | a fresh instance starts with empty in-memory fallbacks |
| Preferences.PreferenceAtSlot | bookmarking/src/commonMain/kotlin/com/fibelatti/bookmarking/core/persistence/UserSharedPreferences.kt:100-115 | every setting is found again under its own key |
| Preferences.SlotsAreDistinct | bookmarking/src/commonMain/kotlin/com/fibelatti/bookmarking/core/persistence/UserSharedPreferences.kt:13-115 | no two settings share a key |
| Preferences.ReadTags | bookmarking/src/commonMain/kotlin/com/fibelatti/bookmarking/core/persistence/UserSharedPreferences.kt:94-95 | no tags exactly for a blank string, and no tag holds a comma |
| Preferences.Get | bookmarking/src/commonMain/kotlin/com/fibelatti/bookmarking/core/persistence/UserSharedPreferences.kt:13-96 | each getter's type and default; the post defaults are true or nothing |
| Preferences.Set | bookmarking/src/commonMain/kotlin/com/fibelatti/bookmarking/core/persistence/UserSharedPreferences.kt:13-96 | a setting reads back what was set; a post default reads back true or nothing |
| Preferences.SetKeepsOthers | bookmarking/src/commonMain/kotlin/com/fibelatti/bookmarking/core/persistence/UserSharedPreferences.kt:13-115 | a setter changes no other setting |
| Preferences.DefaultTagsRoundTrip | bookmarking/src/commonMain/kotlin/com/fibelatti/bookmarking/core/persistence/UserSharedPreferences.kt:93-96 | default tags read back as written, when none holds a comma and the list is not blank |
| Preferences.ReadJoinedTags | bookmarking/src/commonMain/kotlin/com/fibelatti/bookmarking/core/persistence/UserSharedPreferences.kt:93-96 | splitting a comma-joined list of comma-free tags gives the list back |
| Preferences.SessionValueOutlivesEntry | bookmarking/src/commonMain/kotlin/com/fibelatti/bookmarking/core/persistence/UserSharedPreferences.kt:17-27 | a session setting still reads back after its entry is lost |
| QuickActions.TitleOf | app/src/main/kotlin/com/fibelatti/pinboard/features/posts/presentation/PostQuickActions.kt:17-29 | the read-later toggle says "remove" exactly when the bookmark is marked read later |
| QuickActions.NameGivesRank | app/src/main/kotlin/com/fibelatti/pinboard/features/posts/presentation/PostQuickActions.kt:28-130 | the serialized name identifies the kind of action |
| QuickActions.SerializedNamesDistinct | app/src/main/kotlin/com/fibelatti/pinboard/features/posts/presentation/PostQuickActions.kt:28-130 | two kinds of action never share a serialized name |
| QuickActions.Leading | app/src/main/kotlin/com/fibelatti/pinboard/features/posts/presentation/PostQuickActions.kt:139-147 | the read-later toggle first; copy tags exactly when the bookmark has tags, paste exactly when the clipboard has some |
| QuickActions.Fixed | app/src/main/kotlin/com/fibelatti/pinboard/features/posts/presentation/PostQuickActions.kt:149-154 | the six actions every bookmark offers, in their order |
| QuickActions.Trailing | app/src/main/kotlin/com/fibelatti/pinboard/features/posts/presentation/PostQuickActions.kt:156-160 | the browser last, preceded by the description action exactly when the description is not blank |
| QuickActions.AllOptions | app/src/main/kotlin/com/fibelatti/pinboard/features/posts/presentation/PostQuickActions.kt:135-161 | the toggle first, the browser last, each kind at most once in a fixed order |
| QuickActions.CopyTagsOffered | app/src/main/kotlin/com/fibelatti/pinboard/features/posts/presentation/PostQuickActions.kt:141-143 | copying tags is offered exactly when the bookmark has tags |
| QuickActions.PasteTagsOffered | app/src/main/kotlin/com/fibelatti/pinboard/features/posts/presentation/PostQuickActions.kt:145-147 | pasting tags is offered exactly when the clipboard holds tags |
| QuickActions.DescriptionActionOffered | app/src/main/kotlin/com/fibelatti/pinboard/features/posts/presentation/PostQuickActions.kt:156-158 | expanding the description is offered exactly when it is not blank |
| QuickActions.FixedActionsOffered | app/src/main/kotlin/com/fibelatti/pinboard/features/posts/presentation/PostQuickActions.kt:149-154 | edit, delete, copy URL, share and both Wayback actions are always offered |
| QuickActions.AllOptionsNamesDistinct | app/src/main/kotlin/com/fibelatti/pinboard/features/posts/presentation/PostQuickActions.kt:135-161 | no two offered actions share a serialized name |

## Left out

**External effects and foreign code**
- Coroutines, flows and `launch` are left out. Each operation is the state change that one emission or one `update` makes.
- The network, the clipboard, Android resources and drawables are left out. Action titles are an enumeration.
- `resultFrom` is not part of this model. It is taken to turn any exception its block throws into a Failure. DAO failures are modelled where a DAO call runs inside it: `addPostLocal`, `deletePostLocal` and `getLocalData` take one failure parameter per DAO call, and `searchExistingPostTag` and `getLocalTags` take the DAO's `Outcome`.
- `savePosts` has no failure path of its own. A throw of the DAO's insert reaches callers outside the modelled files.
- These become function parameters rather than models:
  - URL decoding and encoding;
  - HTML-entity detection and replacement;
  - the date formatter;
  - `Post.displayDescription`;
  - connectivity and the app mode.
- The DAO full-text `match` queries are not evaluated. The rows they select, in their order, are the parameter `matching` of `GetLocalData`, and the tag strings they return are the parameter `dao` of `SearchExistingPostTag`.
- The name of the Linkding full-text table is a parameter, because it is defined outside the modelled files.
- `markAsRead` returns the bookmark to write back instead of launching the write.

**Constants assumed from outside the modelled files**
- The maximum number of search tags is 3.
- The Pinboard literals are "yes" and "no", and the tag separator is a space.
- `PinboardApiResultCode.DONE` is "done".

**Number widths and text**
- Kotlin `Int` and `Long` widths are only modelled in the pager, where the 32-bit wrap-around is written out. Counts, offsets and limits elsewhere are unbounded integers.
- Case-insensitive comparison folds ASCII letters only.
- Kotlin's `isWhitespace` (used by `trim` and `isBlank`) and the regex `\s` are separate predicates. Neither covers every Unicode space character.
- Text.LexLe and Names.NameOrder: compare strings by Unicode scalar values, while Kotlin's `String.compareTo` compares UTF-16 code units. The two orders agree except when a character above U+FFFF meets one in U+E000 to U+FFFF, so tag names with such pairs may sort differently.
- The key-value store is three typed maps. The store's own type coercions are not modelled.

**Weaker than the source**
- PostReducer.RefreshIdempotent: about the state only; the refresh is not re-run.
- Paging.WrapAroundAtLargestCount: records the 32-bit wrap-around as behaviour of the code, not as an error.
- PinboardPosts.DeleteThenAddStaysDeleted: records that an offline save after an offline delete keeps the deletion mark. This is a consequence of `existingPost.pendingSync ?: UPDATE`.
- PinboardPosts.GetLocalData: the mapping of each row to a `Post` is the mapper's own contract. Only the failure paths, the counts and the paging flag are stated here.
- Either.LeftOrRightNotBoth: holds for non-null value types only. In Kotlin, `Right(null)` gives null from both `leftOrNull` and `rightOrNull`. The model's `Option` keeps a Right's null apart from an absent value.
- Either.OnSuccess: holds for non-null value types only. `Success(null)` does not run the action in Kotlin, because `getOrNull()?.let` skips null. Either.OnSuccessOfNullable models that case.

=== FILE: bookmark_local.dfy ===
/**
 * `BookmarkLocal` and `BookmarkLocalMapper` of
 * bookmarking/.../linkding/data/BookmarkLocal.kt: the Linkding bookmark as
 * stored locally, and its conversion to and from `Post`. The date formatter
 * is a parameter.
 */
module BookmarkLocalMapping {
  import opened Nullable
  import opened Domain
  import opened Text
  import opened StoredPost

  const TABLE_NAME: string := "LinkdingBookmarks"

  datatype BookmarkLocal = BookmarkLocal(
    id: string,
    url: string,
    title: string,
    description: string,
    notes: Option<string>,
    websiteTitle: Option<string>,
    websiteDescription: Option<string>,
    isArchived: Option<bool>,
    unread: Option<bool>,
    shared: Option<bool>,
    tagNames: Option<string>,
    dateModified: string,
    pendingSync: Option<PendingSyncDto>)

  /** `tagNames?.ifBlank { null }?.split(" ")?.sorted()?.map(::Tag)`. */
  function ReadTagNames(tagNames: Option<string>): (tags: Option<seq<Tag>>)
    ensures tags.None? <==> tagNames.None? || IsBlank(tagNames.value)
    ensures tags.Some? ==> tags == ParseTags(tagNames.value)
  {
    if tagNames.None? then None else ParseTags(tagNames.value)
  }

  /** `BookmarkLocalMapper.map`. */
  function Map(b: BookmarkLocal, formatTime: string -> string): (p: Post)
    ensures p.url == b.url && p.title == b.title && p.description == b.description && p.id == b.id
    ensures p.time == b.dateModified && p.formattedTime == formatTime(b.dateModified)
    ensures p.private == Some(b.shared == Some(false))
    ensures p.readLater == Some(IsTrue(b.unread))
    ensures p.tags == ReadTagNames(b.tagNames)
    ensures p.notes == b.notes && p.websiteTitle == b.websiteTitle
    ensures p.websiteDescription == b.websiteDescription && p.isArchived == b.isArchived
    ensures p.pendingSync == FromDto(b.pendingSync)
  {
    Post(
      b.url,
      b.title,
      b.description,
      b.id,
      b.dateModified,
      formatTime(b.dateModified),
      Some(b.shared == Some(false)),
      Some(IsTrue(b.unread)),
      ReadTagNames(b.tagNames),
      b.notes,
      b.websiteTitle,
      b.websiteDescription,
      b.isArchived,
      FromDto(b.pendingSync))
  }

  /** `BookmarkLocalMapper.mapReverse`. */
  function MapReverse(p: Post): (b: BookmarkLocal)
    ensures b.id == p.id && b.url == p.url && b.title == p.title && b.description == p.description
    ensures b.unread == p.readLater
    ensures b.shared == Some(!IsTrue(p.private))
    ensures b.tagNames.None? <==> p.tags.None?
    ensures p.tags.Some? ==> b.tagNames == Some(FormatTags(p.tags.value))
    ensures b.dateModified == p.time
    ensures b.notes == p.notes && b.websiteTitle == p.websiteTitle
    ensures b.websiteDescription == p.websiteDescription && b.isArchived == p.isArchived
    ensures b.pendingSync == ToDto(p.pendingSync)
  {
    BookmarkLocal(
      p.id,
      p.url,
      p.title,
      p.description,
      p.notes,
      p.websiteTitle,
      p.websiteDescription,
      p.isArchived,
      p.readLater,
      Some(!IsTrue(p.private)),
      if p.tags.Some? then Some(FormatTags(p.tags.value)) else None,
      p.time,
      ToDto(p.pendingSync))
  }

  /** A bookmark as `map` produces it: both flags present, tags in stored form and not blank. */
  ghost predicate Normalised(p: Post, formatTime: string -> string) {
    && p.private.Some? && p.readLater.Some?
    && p.formattedTime == formatTime(p.time)
    && (p.tags.Some? ==> StoredForm(p.tags.value) && !IsBlank(FormatTags(p.tags.value)))
  }

  /** Storing a normalised bookmark and reading it back gives it back. */
  lemma MapAfterMapReverse(p: Post, formatTime: string -> string)
    requires Normalised(p, formatTime)
    ensures Map(MapReverse(p), formatTime) == p
  {
    PendingSyncRoundTrips(p.pendingSync, None);
    if p.tags.Some? {
      ParseFormatTags(p.tags.value);
    }
    if p.private.Some? && !p.private.value {
      assert !IsTrue(p.private);
    }
    if p.readLater.Some? && !p.readLater.value {
      assert !IsTrue(p.readLater);
    }
  }

  /**
   * Reading a row and storing it again gives it back, when its flags are
   * present and its tag string is absent or already in stored form.
   */
  lemma MapReverseAfterMap(b: BookmarkLocal, formatTime: string -> string)
    requires b.unread.Some? && b.shared.Some?
    requires b.tagNames.Some? ==>
      && !IsBlank(b.tagNames.value)
      && FormatTags(SplitTags(b.tagNames.value)) == b.tagNames.value
    ensures MapReverse(Map(b, formatTime)) == b
  {
    PendingSyncRoundTrips(None, b.pendingSync);
    if !b.unread.value {
      assert !IsTrue(b.unread);
    }
    var r := MapReverse(Map(b, formatTime));
    if b.shared.value {
      assert Map(b, formatTime).private == Some(false);
      assert !IsTrue(Some(false));
    }
    assert r.shared == b.shared;
    assert r.tagNames == b.tagNames;
  }
}

=== FILE: content.dfy ===
/**
 * The screen-state hierarchy of bookmarking/.../appstate/Content.kt.
 *
 * Every screen but `External` remembers the screen it was opened from
 * (`previousContent`), so a state is a chain of screens that ends at
 * `External`. Where Kotlin types the previous screen more precisely
 * (a post list, a note list, a popular-posts list), the model keeps that
 * precise record.
 */
module AppContent {
  import opened Nullable
  import opened Either
  import opened Domain

  /** `PostListContent`, the root of most histories. */
  datatype PostListContent = PostListContent(
    category: ViewCategory,
    posts: Option<PostList>,
    showDescription: bool,
    sortType: SortType,
    searchParameters: SearchParameters,
    shouldLoad: ShouldLoad,
    canForceSync: bool,
    isConnected: bool)
  {
    /** `totalCount`: the total reported with the loaded posts, zero when none are loaded. */
    function TotalCount(): (n: int)
      ensures posts.None? ==> n == 0
      ensures posts.Some? ==> n == posts.value.totalCount
    {
      if posts.Some? then posts.value.totalCount else 0
    }

    /** `currentList`: the loaded posts, empty when none are loaded. */
    function CurrentList(): (l: seq<Post>)
      ensures posts.None? ==> l == []
      ensures posts.Some? ==> l == posts.value.list
    {
      if posts.Some? then posts.value.list else []
    }

    /** `currentCount`: how many posts are loaded. */
    function CurrentCount(): (n: nat)
      ensures n == |CurrentList()|
      ensures posts.None? ==> n == 0
    {
      if posts.Some? then |posts.value.list| else 0
    }
  }

  datatype NoteListContent = NoteListContent(
    notes: seq<Note>,
    shouldLoad: bool,
    previousList: PostListContent,
    isConnected: bool)

  datatype PopularPostsContent = PopularPostsContent(
    posts: seq<Post>,
    shouldLoad: bool,
    previousList: PostListContent,
    isConnected: bool)

  datatype Content =
    | Login(isUnauthorized: bool)
    | PostListScreen(list: PostListContent)
    | PostDetail(post: Post, previousList: PostListContent, isConnected: bool)
    | ExternalBrowser(post: Post, previousContent: Content)
    | SearchScreen(
        searchParameters: SearchParameters,
        availableTags: seq<Tag>,
        allTags: seq<Tag>,
        shouldLoadTags: bool,
        previousList: PostListContent)
    | AddPostScreen(
        defaultPrivate: bool,
        defaultReadLater: bool,
        defaultTags: seq<Tag>,
        previousList: PostListContent)
    | EditPostScreen(post: Post, previousContent: Content)
    | TagList(tags: seq<Tag>, shouldLoad: bool, previousList: PostListContent, isConnected: bool)
    | SavedFilters(previousList: PostListContent)
    | NoteListScreen(noteList: NoteListContent)
    | NoteDetail(id: string, note: Either<bool, Note>, previousNotes: NoteListContent, isConnected: bool)
    | PopularPostsScreen(popular: PopularPostsContent)
    | PopularPostDetail(post: Post, previousPopular: PopularPostsContent, isConnected: bool)
    | UserPreferences(previousList: PostListContent)
    | External

  /** The class of a screen, the argument of Kotlin's `find<T>()`. */
  datatype Kind =
    | LoginKind | PostListKind | PostDetailKind | ExternalBrowserKind | SearchKind
    | AddPostKind | EditPostKind | TagListKind | SavedFiltersKind | NoteListKind
    | NoteDetailKind | PopularPostsKind | PopularPostDetailKind | UserPreferencesKind
    | ExternalKind

  function KindOf(c: Content): Kind {
    match c
    case Login(_) => LoginKind
    case PostListScreen(_) => PostListKind
    case PostDetail(_, _, _) => PostDetailKind
    case ExternalBrowser(_, _) => ExternalBrowserKind
    case SearchScreen(_, _, _, _, _) => SearchKind
    case AddPostScreen(_, _, _, _) => AddPostKind
    case EditPostScreen(_, _) => EditPostKind
    case TagList(_, _, _, _) => TagListKind
    case SavedFilters(_) => SavedFiltersKind
    case NoteListScreen(_) => NoteListKind
    case NoteDetail(_, _, _, _) => NoteDetailKind
    case PopularPostsScreen(_) => PopularPostsKind
    case PopularPostDetail(_, _, _) => PopularPostDetailKind
    case UserPreferences(_) => UserPreferencesKind
    case External => ExternalKind
  }

  /** `is ContentWithHistory`: every screen but `External` has a previous one. */
  predicate HasHistory(c: Content) {
    !c.External?
  }

  /** The number of screens below `c` in its history. */
  function Depth(c: Content): nat {
    match c
    case External => 0
    case Login(_) => 1
    case PostListScreen(_) => 1
    case NoteDetail(_, _, _, _) => 3
    case PopularPostDetail(_, _, _) => 3
    case ExternalBrowser(_, prev) => 1 + Depth(prev)
    case EditPostScreen(_, prev) => 1 + Depth(prev)
    case _ => 2
  }

  /** `previousContent` of a screen with history. */
  function Previous(c: Content): (p: Content)
    requires HasHistory(c)
    ensures Depth(p) < Depth(c)
    ensures Depth(c) == 1 <==> p == External
  {
    match c
    case Login(_) => External
    case PostListScreen(_) => External
    case PostDetail(_, l, _) => PostListScreen(l)
    case ExternalBrowser(_, prev) => prev
    case SearchScreen(_, _, _, _, l) => PostListScreen(l)
    case AddPostScreen(_, _, _, l) => PostListScreen(l)
    case EditPostScreen(_, prev) => prev
    case TagList(_, _, l, _) => PostListScreen(l)
    case SavedFilters(l) => PostListScreen(l)
    case NoteListScreen(n) => PostListScreen(n.previousList)
    case NoteDetail(_, _, n, _) => NoteListScreen(n)
    case PopularPostsScreen(p) => PostListScreen(p.previousList)
    case PopularPostDetail(_, p, _) => PopularPostsScreen(p)
    case UserPreferences(l) => PostListScreen(l)
  }

  /** The history of `c`: `c`, the screen it was opened from, and so on. */
  function History(c: Content): (h: seq<Content>)
    ensures |h| == Depth(c) + 1
    ensures h[0] == c
    decreases Depth(c)
  {
    if c.External? then [c] else [c] + History(Previous(c))
  }

  /** Every history ends at `External`, and only there. */
  lemma {:induction false} HistoryEndsAtExternal(c: Content)
    ensures History(c)[|History(c)| - 1] == External
    ensures forall i | 0 <= i < |History(c)| - 1 :: History(c)[i] != External
    decreases Depth(c)
  {
    if !c.External? {
      HistoryEndsAtExternal(Previous(c));
    }
  }

  /** `find<T>()`: the nearest screen of the given kind in the history. */
  function Find(c: Content, kind: Kind): (r: Option<Content>)
    ensures KindOf(c) == kind ==> r == Some(c)
    ensures r.Some? ==> KindOf(r.value) == kind
    ensures KindOf(c) != kind && !HasHistory(c) ==> r == None
    decreases Depth(c)
  {
    if KindOf(c) == kind then Some(c)
    else if !HasHistory(c) then None
    else Find(Previous(c), kind)
  }

  /** `h[i]` is the first screen of the kind in `h`. */
  predicate FirstOfKindAt(h: seq<Content>, i: int, kind: Kind) {
    && 0 <= i < |h|
    && KindOf(h[i]) == kind
    && forall j | 0 <= j < i :: KindOf(h[j]) != kind
  }

  /**
   * `find` against its reference: it returns the first screen of the kind
   * in the history, and nothing exactly when the history holds none.
   */
  lemma {:induction false} FindIsFirstInHistory(c: Content, kind: Kind)
    ensures Find(c, kind).None? <==> forall i | 0 <= i < |History(c)| :: KindOf(History(c)[i]) != kind
    ensures Find(c, kind).Some? ==> exists i :: FirstOfKindAt(History(c), i, kind) && History(c)[i] == Find(c, kind).value
    decreases Depth(c)
  {
    var h := History(c);
    if KindOf(c) == kind {
      assert FirstOfKindAt(h, 0, kind) && h[0] == Find(c, kind).value;
    } else if c.External? {
      assert |h| == 1;
    } else {
      var p := Previous(c);
      FindIsFirstInHistory(p, kind);
      var hp := History(p);
      assert Find(p, kind).None? <==> forall i | 0 <= i < |History(p)| :: KindOf(History(p)[i]) != kind;
      assert Find(c, kind) == Find(p, kind);
      assert h == [c] + hp;
      assert forall i | 1 <= i < |h| :: h[i] == hp[i - 1];
      if Find(c, kind).Some? {
        var k :| FirstOfKindAt(hp, k, kind) && hp[k] == Find(p, kind).value;
        assert h[k + 1] == hp[k];
        assert FirstOfKindAt(h, k + 1, kind);
        assert KindOf(History(c)[k + 1]) == kind;
        assert 0 <= k + 1 < |History(c)|;
        assert !(forall i | 0 <= i < |History(c)| :: KindOf(History(c)[i]) != kind);
      } else {
        forall i | 0 <= i < |h| ensures KindOf(h[i]) != kind {
          if i > 0 {
            assert h[i] == hp[i - 1];
          }
        }
      }
    }
  }

  /** The post list a screen acts on: the list itself, or the list under a post's details. */
  function ListOf(c: Content): (l: Option<PostListContent>)
    ensures l.Some? <==> c.PostListScreen? || c.PostDetail?
    ensures c.PostListScreen? ==> l == Some(c.list)
    ensures c.PostDetail? ==> l == Some(c.previousList)
  {
    if c.PostListScreen? then Some(c.list)
    else if c.PostDetail? then Some(c.previousList)
    else None
  }
}

=== FILE: either.dfy ===
/**
 * The `Either`/`Result` algebra of core/functional/Either.kt.
 *
 * `Left` is the failure side and `Right` the success side; `Result<T>` is
 * `Either<Throwable, T>`. Kotlin code that may throw is modelled by an
 * `Outcome`: the value the block returned, or the exception it threw.
 * Callbacks that only have side effects (`onSuccess`, `onFailure`, `either`)
 * are modelled by reporting which callback ran and with which argument.
 */
module Either {
  import opened Nullable

  /** The exceptions the modelled code raises, catches or propagates. */
  datatype Throwable =
    | IllegalState(message: string)
    | ApiError(resultCode: string)
    | InvalidRequest
    | IoError(message: string)

  datatype Either<+L, +R> = Left(left: L) | Right(right: R)

  type Result<T> = Either<Throwable, T>

  /** What a Kotlin block did when it was run: it returned a value or threw. */
  datatype Outcome<+T> = Returned(value: T) | Threw(error: Throwable)

  /** Which of the two callbacks of `either` ran, and with what argument. */
  datatype Invoked<+L, +R> = InvokedLeft(l: L) | InvokedRight(r: R)

  predicate IsRight<L, R>(e: Either<L, R>) {
    e.Right?
  }

  predicate IsLeft<L, R>(e: Either<L, R>) {
    e.Left?
  }

  /** Exactly one of the two sides holds. */
  lemma ExactlyOneSide<L, R>(e: Either<L, R>)
    ensures IsRight(e) != IsLeft(e)
  {
  }

  function LeftOrNull<L, R>(e: Either<L, R>): (o: Option<L>)
    ensures o.Some? <==> IsLeft(e)
    ensures o.Some? ==> e == Left(o.value)
  {
    match e
    case Left(v) => Some(v)
    case Right(_) => None
  }

  function RightOrNull<L, R>(e: Either<L, R>): (o: Option<R>)
    ensures o.Some? <==> IsRight(e)
    ensures o.Some? ==> e == Right(o.value)
  {
    match e
    case Left(_) => None
    case Right(v) => Some(v)
  }

  /** `leftOrNull` and `rightOrNull` are never both non-null, and never both null. */
  lemma LeftOrRightNotBoth<L, R>(e: Either<L, R>)
    ensures LeftOrNull(e).Some? != RightOrNull(e).Some?
  {
    ExactlyOneSide(e);
  }

  /** `either`: runs `fnL` on a Left and `fnR` on a Right. */
  function Dispatch<L, R>(e: Either<L, R>): (call: Invoked<L, R>)
    ensures call.InvokedLeft? <==> IsLeft(e)
    ensures call.InvokedLeft? ==> e == Left(call.l)
    ensures call.InvokedRight? ==> e == Right(call.r)
  {
    match e
    case Left(v) => InvokedLeft(v)
    case Right(v) => InvokedRight(v)
  }

  function GetOrNull<T>(r: Result<T>): (o: Option<T>)
    ensures o == RightOrNull(r)
  {
    RightOrNull(r)
  }

  function ExceptionOrNull<T>(r: Result<T>): (o: Option<Throwable>)
    ensures o == LeftOrNull(r)
  {
    LeftOrNull(r)
  }

  /** `throwOnFailure`: throws the held error of a Failure, returns otherwise. */
  function ThrowOnFailure<T>(r: Result<T>): (o: Outcome<()>)
    ensures o.Threw? <==> r.Left?
    ensures o.Threw? ==> o.error == r.left
  {
    match r
    case Left(e) => Threw(e)
    case Right(_) => Returned(())
  }

  /** `getOrThrow`: the value of a Success; a Failure raises its error. */
  function GetOrThrow<T>(r: Result<T>): (o: Outcome<T>)
    ensures r.Right? ==> o == Returned(r.right)
    ensures r.Left? ==> o == Threw(r.left)
  {
    match r
    case Left(e) => Threw(e)
    case Right(v) => Returned(v)
  }

  /** `getOrElse`: the value of a Success, else `onFailure` applied to the error. */
  function GetOrElse<T>(r: Result<T>, onFailure: Throwable -> T): (v: T)
    ensures r.Right? ==> v == r.right
    ensures r.Left? ==> v == onFailure(r.left)
  {
    match r
    case Left(e) => onFailure(e)
    case Right(v) => v
  }

  /** `getOrDefault`: the value of a Success, else the default. */
  function GetOrDefault<T>(r: Result<T>, default: T): (v: T)
    ensures r.Right? ==> v == r.right
    ensures r.Left? ==> v == default
  {
    match r
    case Left(_) => default
    case Right(v) => v
  }

  /** `onFailureReturn`: a Failure becomes `Success(value)`; a Success is kept. */
  function OnFailureReturn<T>(r: Result<T>, value: T): (s: Result<T>)
    ensures s.Right?
    ensures r.Right? ==> s == r
    ensures r.Left? ==> s.right == value
  {
    match r
    case Left(_) => Right(value)
    case Right(_) => r
  }

  /** `fold`: `onSuccess` of the value or `onFailure` of the error. */
  function Fold<T>(r: Result<T>, onSuccess: T -> T, onFailure: Throwable -> T): (v: T)
    ensures r.Right? ==> v == onSuccess(r.right)
    ensures r.Left? ==> v == onFailure(r.left)
  {
    match r
    case Left(e) => onFailure(e)
    case Right(v) => onSuccess(v)
  }

  /**
   * `map`: feeds a Success value into `onSuccess`; a Failure is passed on
   * unchanged (and `onSuccess` is never called for it).
   */
  function Map<T, U>(r: Result<T>, onSuccess: T -> Result<U>): (s: Result<U>)
    ensures r.Left? ==> s == Left(r.left)
    ensures r.Right? ==> s == onSuccess(r.right)
  {
    match r
    case Left(e) => Left(e)
    case Right(v) => onSuccess(v)
  }

  /** `catching`: runs the block; its value becomes a Success, its exception a Failure. */
  function Catching<T>(block: () -> Outcome<T>): (r: Result<T>)
    ensures block().Returned? ==> r == Right(block().value)
    ensures block().Threw? ==> r == Left(block().error)
  {
    match block()
    case Returned(v) => Right(v)
    case Threw(e) => Left(e)
  }

  /** `mapCatching`: like `map`, but an exception thrown by `fn` becomes a Failure. */
  function MapCatching<T, U>(r: Result<T>, fn: T -> Outcome<U>): (s: Result<U>)
    ensures r.Left? ==> s == Left(r.left)
    ensures r.Right? && fn(r.right).Returned? ==> s == Right(fn(r.right).value)
    ensures r.Right? && fn(r.right).Threw? ==> s == Left(fn(r.right).error)
  {
    match r
    case Left(e) => Left(e)
    case Right(v) => Catching(() => fn(v))
  }

  /** `onFailure`: returns the receiver; the action runs with the error of a Failure only. */
  function OnFailure<T>(r: Result<T>): (res: (Result<T>, Option<Throwable>))
    ensures res.0 == r
    ensures res.1.Some? <==> r.Left?
    ensures res.1.Some? ==> res.1.value == r.left
  {
    (r, ExceptionOrNull(r))
  }

  /** `onSuccess`: returns the receiver; the action runs with the value of a Success only. */
  function OnSuccess<T>(r: Result<T>): (res: (Result<T>, Option<T>))
    ensures res.0 == r
    ensures res.1.Some? <==> r.Right?
    ensures res.1.Some? ==> res.1.value == r.right
  {
    (r, GetOrNull(r))
  }

  /**
   * `onSuccess` on a Result whose value type is nullable: `getOrNull()?.let`
   * skips the action for `Success(null)` as it does for a Failure.
   */
  function OnSuccessOfNullable<T>(r: Result<Option<T>>): (res: (Result<Option<T>>, Option<T>))
    ensures res.0 == r
    ensures res.1.Some? <==> r.Right? && r.right.Some?
    ensures res.1.Some? ==> r == Right(Some(res.1.value))
  {
    (r, match r case Right(Some(v)) => Some(v) case _ => None)
  }

  /**
   * For a non-null value the nullable reading agrees with `OnSuccess`;
   * `Success(null)` is the one input where the action does not run.
   */
  lemma OnSuccessOfNullableAgrees<T>(r: Result<Option<T>>)
    ensures r != Right(None) ==> OnSuccessOfNullable(r).1.Some? == OnSuccess(r).1.Some?
    ensures var nothing: Result<Option<T>> := Right(None);
      OnSuccessOfNullable(nothing).1.None? && OnSuccess(nothing).1.Some?
  {
  }

  // Laws relating the operations to one another.

  /** `getOrDefault(d)` is the value of `onFailureReturn(d)`. */
  lemma GetOrDefaultIsOnFailureReturn<T>(r: Result<T>, d: T)
    ensures GetOrDefault(r, d) == OnFailureReturn(r, d).right
  {
  }

  /** `getOrElse` agrees with `getOrThrow` whenever no exception is thrown. */
  lemma GetOrElseAgreesWithGetOrThrow<T>(r: Result<T>, onFailure: Throwable -> T)
    ensures GetOrThrow(r).Returned? ==> GetOrElse(r, onFailure) == GetOrThrow(r).value
    ensures GetOrThrow(r).Threw? ==> GetOrElse(r, onFailure) == onFailure(GetOrThrow(r).error)
  {
  }

  /** `fold` with the identity on success is `getOrElse`. */
  lemma FoldIdentityIsGetOrElse<T>(r: Result<T>, onFailure: Throwable -> T)
    ensures Fold(r, x => x, onFailure) == GetOrElse(r, onFailure)
  {
  }

  /** Left identity: mapping with `Success` changes nothing. */
  lemma MapSuccessIsIdentity<T>(r: Result<T>)
    ensures Map(r, (x: T) => Right(x)) == r
  {
  }

  /** Associativity of `map` (the monad law). */
  lemma MapAssociative<T, U, V>(r: Result<T>, f: T -> Result<U>, g: U -> Result<V>)
    ensures Map(Map(r, f), g) == Map(r, x => Map(f(x), g))
  {
  }

  /** `mapCatching(fn)` is `map` over a `catching` block. */
  lemma MapCatchingIsMapOfCatching<T, U>(r: Result<T>, fn: T -> Outcome<U>)
    ensures MapCatching(r, fn) == Map(r, x => Catching(() => fn(x)))
  {
  }

  /** `catching` undone by `getOrThrow` gives back what the block did. */
  lemma CatchingRoundTrip<T>(block: () -> Outcome<T>)
    ensures GetOrThrow(Catching(block)) == block()
  {
  }
}

=== FILE: fts_format.dfy ===
/**
 * `preFormatTerm` and `preFormatTag` of the Linkding `BookmarksDao`
 * (bookmarking/.../linkding/data/BookmarksDao.kt): the sanitisers that turn
 * a search term or a tag into an SQLite full-text `match` argument.
 */
module FtsFormat {
  import opened Text

  /** The characters `preFormatTerm` keeps: the class `[A-Za-z0-9 ._\-=#@&]`. */
  predicate AllowedInTerm(c: char) {
    || ('A' <= c <= 'Z') || ('a' <= c <= 'z') || ('0' <= c <= '9')
    || c == ' ' || c == '.' || c == '_' || c == '-' || c == '=' || c == '#' || c == '@' || c == '&'
  }

  /**
   * `replace("[^A-Za-z0-9 ._\\-=#@&]".toRegex(), "")`: the allowed characters,
   * each as often as in the input, in their order. Order is the pair of
   * facts a one-character input keeps or drops its character, and the
   * result of a concatenation is the concatenation of the results
   * (`KeepAllowedAppend`).
   */
  function KeepAllowed(s: string): (r: string)
    ensures |r| <= |s|
    ensures forall i | 0 <= i < |r| :: AllowedInTerm(r[i])
    ensures forall i | 0 <= i < |s| && AllowedInTerm(s[i]) :: s[i] in r
    ensures forall c :: Count(r, c) == (if AllowedInTerm(c) then Count(s, c) else 0)
    ensures |s| == 1 ==> r == (if AllowedInTerm(s[0]) then s else "")
    decreases |s|
  {
    if |s| == 0 then ""
    else
      var rest := KeepAllowed(s[1..]);
      assert forall i | 1 <= i < |s| :: s[i] == s[1..][i - 1];
      var r := if AllowedInTerm(s[0]) then [s[0]] + rest else rest;
      assert forall c :: Count(r, c) == (if AllowedInTerm(c) then Count(s, c) else 0) by {
        forall c ensures Count(r, c) == (if AllowedInTerm(c) then Count(s, c) else 0) {
          if AllowedInTerm(s[0]) {
            CountAppend([s[0]], rest, c);
          }
        }
      }
      r
  }

  /** Sanitising a concatenation sanitises each part, keeping them in order. */
  lemma {:induction false} KeepAllowedAppend(s: string, t: string)
    ensures KeepAllowed(s + t) == KeepAllowed(s) + KeepAllowed(t)
    decreases |s|
  {
    if |s| > 0 {
      assert (s + t)[1..] == s[1..] + t;
      KeepAllowedAppend(s[1..], t);
    } else {
      assert s + t == t;
    }
  }

  /** `{ "$it*" }`: every word marked as a prefix. */
  function Starred(words: seq<string>): (r: seq<string>)
    ensures |r| == |words|
    ensures forall i | 0 <= i < |r| :: r[i] == words[i] + "*"
  {
    seq(|words|, i requires 0 <= i < |words| => words[i] + "*")
  }

  const NEAR: string := " NEAR "

  /** `split(" ").joinToString(" NEAR ") { "$it*" }`. */
  function NearJoin(t: string): string {
    Join(Starred(Split(t, ' ')), NEAR)
  }

  /**
   * `preFormatTerm`: the allowed characters of the term, trimmed; empty if
   * nothing is left, otherwise each space-separated word (empty words
   * included) with a `*` suffix, joined by ` NEAR `.
   */
  function PreFormatTerm(term: string): (r: string)
    ensures r == "" <==> IsBlank(KeepAllowed(term))
    ensures r != "" ==> Count(r, '*') == Count(Trim(KeepAllowed(term)), ' ') + 1
    ensures forall i | 0 <= i < |r| :: AllowedInTerm(r[i]) || r[i] == '*'
  {
    var t := Trim(KeepAllowed(term));
    if |t| == 0 then ""
    else
      assert forall c | c in t :: AllowedInTerm(c);
      NearJoinStars(t);
      NearJoinChars(t);
      NearJoin(t)
  }

  /**
   * The partner of `PreFormatTerm`: words of allowed characters without
   * spaces, joined by single spaces and with no empty word at either end,
   * come out each starred and joined by ` NEAR `, in order.
   */
  lemma PreFormatTermOfWords(ws: seq<string>)
    requires |ws| > 0 && |ws[0]| > 0 && |ws[|ws| - 1]| > 0
    requires forall i, j | 0 <= i < |ws| && 0 <= j < |ws[i]| :: AllowedInTerm(ws[i][j]) && ws[i][j] != ' '
    ensures PreFormatTerm(Join(ws, " ")) == Join(Starred(ws), NEAR)
  {
    var s := Join(ws, " ");
    forall c | c in s ensures AllowedInTerm(c) {
      JoinChars(ws, " ", c);
    }
    KeepAllowedOfAllowed(s);
    JoinEnds(ws, " ");
    AllowedWordCharIsNotWhitespace(ws[0][0]);
    AllowedWordCharIsNotWhitespace(ws[|ws| - 1][|ws[|ws| - 1]| - 1]);
    TrimKeepsTrimmed(s);
    assert " " == [' '];
    SplitJoin(ws, ' ');
  }

  /** Sanitising a text of allowed characters leaves it as it is. */
  lemma {:induction false} KeepAllowedOfAllowed(s: string)
    requires forall c | c in s :: AllowedInTerm(c)
    ensures KeepAllowed(s) == s
    decreases |s|
  {
    if |s| > 0 {
      assert forall c | c in s[1..] :: c in s;
      KeepAllowedOfAllowed(s[1..]);
      assert [s[0]] + s[1..] == s;
    }
  }

  /** No allowed character but the space is whitespace, so trimming stops at it. */
  lemma AllowedWordCharIsNotWhitespace(c: char)
    requires AllowedInTerm(c) && c != ' '
    ensures !IsWhitespace(c)
  {
  }

  /** One `*` per word: the words of an allowed text hold none of their own. */
  lemma NearJoinStars(t: string)
    requires forall c | c in t :: AllowedInTerm(c)
    ensures Count(NearJoin(t), '*') == Count(t, ' ') + 1
  {
    var words := Split(t, ' ');
    var parts := Starred(words);
    assert !AllowedInTerm('*');
    forall i | 0 <= i < |parts| ensures Count(parts[i], '*') == 1 {
      SplitPiecesFromText(t, ' ', i);
      assert '*' !in words[i];
      CountAppend(words[i], "*", '*');
    }
    assert '*' !in NEAR;
    CountJoinUniform(parts, NEAR, '*', 1);
    SplitCount(t, ' ');
  }

  /** The formatted term is made of allowed characters and the `*` markers. */
  lemma NearJoinChars(t: string)
    requires forall c | c in t :: AllowedInTerm(c)
    ensures forall i | 0 <= i < |NearJoin(t)| :: AllowedInTerm(NearJoin(t)[i]) || NearJoin(t)[i] == '*'
  {
    var words := Split(t, ' ');
    var parts := Starred(words);
    var r := NearJoin(t);
    forall i | 0 <= i < |r| ensures AllowedInTerm(r[i]) || r[i] == '*' {
      JoinChars(parts, NEAR, r[i]);
      if r[i] !in NEAR {
        var k :| 0 <= k < |parts| && r[i] in parts[k];
        SplitPiecesFromText(t, ' ', k);
      }
    }
  }

  /** Every character of a piece of a split occurs in the split string. */
  lemma {:induction false} SplitPiecesFromText(s: string, sep: char, k: nat)
    requires k < |Split(s, sep)|
    ensures forall c | c in Split(s, sep)[k] :: c in s
    decreases |s|
  {
    if |s| > 0 {
      var rest := Split(s[1..], sep);
      assert forall c | c in s[1..] :: c in s;
      if s[0] == sep {
        if k > 0 {
          SplitPiecesFromText(s[1..], sep, k - 1);
        }
      } else if k == 0 {
        SplitPiecesFromText(s[1..], sep, 0);
      } else {
        SplitPiecesFromText(s[1..], sep, k);
      }
    }
  }

  /** `preFormatTag`: the tag without its double quotes, as a quoted prefix phrase. */
  function PreFormatTag(tag: string): (r: string)
    ensures |r| == |Filter(tag, '"')| + 3
    ensures r[0] == '"' && r[|r| - 2..] == "*\""
    ensures r[1..|r| - 2] == Filter(tag, '"')
    ensures Count(r, '"') == 2
  {
    RemoveCharKeepsOthers(tag, '"');
    var inner := ReplaceAll(tag, "\"", "");
    var r := "\"" + inner + "*\"";
    CountAppend("\"", inner, '"');
    CountAppend("\"" + inner, "*\"", '"');
    assert r[1..|r| - 2] == inner;
    r
  }
}

=== FILE: linkding_queries.dfy ===
/**
 * The query builders in the companion of the app's Linkding `BookmarksDao`
 * (app/.../linkding/data/BookmarksDao.kt): the SQL text and the bind
 * arguments of the bookmark listing and counting queries, with and without
 * the full-text-search table, and of the tag-suggestion queries.
 *
 * The name of the full-text table (`BookmarkLocalFts.TABLE_NAME`) is not
 * part of this model; it is the parameter `fts` of every FTS builder.
 */
module LinkdingQueries {
  import opened Text
  import opened Lists
  import BookmarkLocalMapping

  const TABLE: string := BookmarkLocalMapping.TABLE_NAME

  /** `PostVisibility`; `AnyVisibility` is `PostVisibility.None`. */
  datatype PostVisibility = Public | Private | AnyVisibility

  /** An element of `bindArgs`: the builders bind strings and `Int`s. */
  datatype BindArg = TextArg(text: string) | IntArg(number: int)

  /** `SimpleSQLiteQuery(query, bindArgs)`. */
  datatype SqlQuery = SqlQuery(sql: string, args: seq<BindArg>)

  /** The search parameters shared by every listing and counting builder. */
  datatype SearchFilter = SearchFilter(
    term: string,
    tag1: string,
    tag2: string,
    tag3: string,
    matchAll: bool,
    exactMatch: bool,
    untaggedOnly: bool,
    visibility: PostVisibility,
    readLaterOnly: bool)

  /** Which `selectStatement` a public builder passes; counting also closes the sub-select. */
  datatype Selection = CountRows | ListRows

  const COUNT_SELECT: string := "select count(*) from (select id from " + TABLE + " where 1=1"
  const LIST_SELECT: string := "select " + TABLE + ".* from " + TABLE + " where 1=1"

  function SelectSql(sel: Selection): (s: string)
    ensures '?' !in s
  {
    match sel
    case CountRows => COUNT_SELECT
    case ListRows => LIST_SELECT
  }

  /** `term.trim().split("\\s+".toRegex()).filterNot { it.isEmpty() }`. */
  function TermWords(term: string): (ws: seq<string>)
    ensures |ws| == 0 <==> IsBlank(term)
    ensures forall i | 0 <= i < |ws| :: |ws[i]| > 0
    ensures forall i, j | 0 <= i < |ws| && 0 <= j < |ws[i]| :: !IsRegexSpace(ws[i][j])
  {
    var t := Trim(term);
    if |t| > 0 then
      RegexSpaceIsWhitespace(t[0]);
      Words(t)
    else Words(t)
  }

  /** Words joined by single spaces are the words of the joined term. */
  lemma TermWordsOfJoin(ws: seq<string>)
    requires forall i | 0 <= i < |ws| :: |ws[i]| > 0
    requires forall i, j | 0 <= i < |ws| && 0 <= j < |ws[i]| :: !IsWhitespace(ws[i][j])
    ensures TermWords(Join(ws, " ")) == ws
  {
    var s := Join(ws, " ");
    if |ws| > 0 {
      JoinEnds(ws, " ");
    }
    TrimKeepsTrimmed(s);
    forall i, j | 0 <= i < |ws| && 0 <= j < |ws[i]| ensures !IsRegexSpace(ws[i][j]) {
      RegexSpaceIsWhitespace(ws[i][j]);
    }
    WordsOfJoin(ws);
  }

  /** `if (matchAll) "and" else "or"`. */
  function Operator(matchAll: bool): (op: string)
    ensures op == "and" <==> matchAll
    ensures op == "or" <==> !matchAll
  {
    if matchAll then "and" else "or"
  }

  /** `" $logicalOperator "`, the separator of the joined conditions. */
  function Connective(matchAll: bool): (sep: string)
    ensures '?' !in sep
  {
    " " + Operator(matchAll) + " "
  }

  /** The blank-free subsequence of `ts`, in order. */
  function NonBlank(ts: seq<string>): (r: seq<string>)
    ensures |r| <= |ts|
    ensures forall i | 0 <= i < |r| :: !IsBlank(r[i]) && r[i] in ts
    ensures forall t | t in ts && !IsBlank(t) :: t in r
  {
    if |ts| == 0 then []
    else if IsBlank(ts[0]) then NonBlank(ts[1..])
    else [ts[0]] + NonBlank(ts[1..])
  }

  /** Each non-blank string stays as often as `ts` holds it, in the order of `ts`. */
  lemma {:induction false} NonBlankInOrder(ts: seq<string>)
    ensures forall t :: multiset(NonBlank(ts))[t] == if IsBlank(t) then 0 else multiset(ts)[t]
    ensures IsSubsequence(NonBlank(ts), ts)
    decreases |ts|
  {
    if |ts| > 0 {
      NonBlankInOrder(ts[1..]);
      assert ts == [ts[0]] + ts[1..];
      ConsSubsequence(ts[0], NonBlank(ts[1..]), ts);
    }
  }

  /** `listOf(tag1, tag2, tag3).filter { it.isNotBlank() && !untaggedOnly }`. */
  function SelectedTags(f: SearchFilter): (tags: seq<string>)
    ensures |tags| <= 3
    ensures f.untaggedOnly ==> tags == []
    ensures forall i | 0 <= i < |tags| :: !IsBlank(tags[i])
    ensures !f.untaggedOnly ==> forall t | t in [f.tag1, f.tag2, f.tag3] && !IsBlank(t) :: t in tags
  {
    if f.untaggedOnly then [] else NonBlank([f.tag1, f.tag2, f.tag3])
  }

  /** Unless untagged only, the selected tags are the non-blank ones, each as often as given, in the order given. */
  lemma SelectedTagsInOrder(f: SearchFilter)
    ensures !f.untaggedOnly ==> forall t :: multiset(SelectedTags(f))[t] == if IsBlank(t) then 0 else multiset([f.tag1, f.tag2, f.tag3])[t]
    ensures IsSubsequence(SelectedTags(f), [f.tag1, f.tag2, f.tag3])
  {
    NonBlankInOrder([f.tag1, f.tag2, f.tag3]);
  }

  /** `n` copies of one statement, as `joinToString { statement }` maps each element. */
  function Repeat(s: string, n: nat): (r: seq<string>)
    ensures |r| == n
    ensures forall i | 0 <= i < n :: r[i] == s
  {
    seq(n, _ => s)
  }

  /** `formatTagArgument`: the tag without double quotes, wrapped in `*` unless matched exactly. */
  function FormatTagArgument(tag: string, exactMatch: bool): (r: string)
    ensures '"' !in r
    ensures exactMatch ==> r == Filter(tag, '"')
    ensures !exactMatch ==> |r| >= 2 && r[0] == '*' && r[|r| - 1] == '*' && r[1..|r| - 1] == Filter(tag, '"')
  {
    RemoveCharKeepsOthers(tag, '"');
    var sanitized := ReplaceAll(tag, "\"", "");
    if exactMatch then sanitized
    else
      var r := "*" + sanitized + "*";
      assert r[1..|r| - 1] == sanitized;
      r
  }

  // ---------------------------------------------------------------------
  // SQL fragments, each with the number of `?` placeholders it holds
  // ---------------------------------------------------------------------

  lemma TableHasNoMark()
    ensures '?' !in TABLE
  {
    assert '?' !in "LinkdingBookmarks";
  }

  /** A text with exactly one `?`, between two texts free of it. */
  lemma OneMark(before: string, after: string)
    requires '?' !in before && '?' !in after
    ensures Count(before + "?" + after, '?') == 1
  {
    var mark := "?";
    assert Count(mark, '?') == 1;
    CountPrefixFree(before, mark, '?');
    CountSuffixFree(before + mark, after, '?');
  }

  /** `" and ($filterSubquery)"` when the filter is not empty. */
  function FilterClause(filter: string): (s: string)
    ensures Count(s, '?') == Count(filter, '?')
    ensures s == "" <==> filter == ""
  {
    if filter == "" then ""
    else
      assert '?' !in " and (" && '?' !in ")";
      CountPrefixFree(" and (", filter, '?');
      CountSuffixFree(" and (" + filter, ")", '?');
      " and (" + filter + ")"
  }

  const UNTAGGED_CONDITION: string := " and tagNames = ''"
  const READ_LATER_CONDITION: string := " and unread = 1"

  /** A fixed condition that applies only when its flag is set (untagged only, read later only). */
  function FlagClause(flag: bool, condition: string): (s: string)
    requires '?' !in condition && condition != ""
    ensures '?' !in s
    ensures s != "" <==> flag
  {
    if flag then condition else ""
  }

  function VisibilityClause(v: PostVisibility): (s: string)
    ensures '?' !in s
    ensures s == "" <==> v == AnyVisibility
  {
    match v
    case Public =>
      assert '?' !in " and shared = 1";
      " and shared = 1"
    case Private =>
      assert '?' !in " and shared = 0";
      " and shared = 0"
    case AnyVisibility => ""
  }

  /** The `when (sortType)`: codes 0 to 5 pick an order, any other code none. */
  function OrderClause(sortType: int): (s: string)
    ensures '?' !in s
    ensures s == "" <==> !(0 <= sortType <= 5)
  {
    if sortType == 0 then assert '?' !in " order by dateAdded DESC"; " order by dateAdded DESC"
    else if sortType == 1 then assert '?' !in " order by dateAdded ASC"; " order by dateAdded ASC"
    else if sortType == 2 then assert '?' !in " order by dateModified DESC"; " order by dateModified DESC"
    else if sortType == 3 then assert '?' !in " order by dateModified ASC"; " order by dateModified ASC"
    else if sortType == 4 then assert '?' !in " order by title ASC"; " order by title ASC"
    else if sortType == 5 then assert '?' !in " order by title DESC"; " order by title DESC"
    else ""
  }

  /** `" limit ?, ?"`: the placeholders of the offset and of the limit. */
  function LimitClause(): (s: string)
    ensures Count(s, '?') == 2
  {
    assert '?' !in " limit " && '?' !in ", ";
    OneMark(" limit ", ", ");
    var mark := "?";
    assert Count(mark, '?') == 1;
    CountAppend(" limit " + "?" + ", ", mark, '?');
    " limit " + "?" + ", " + mark
  }

  /** The `)` that closes the counting sub-select. */
  function Closing(trailing: bool): (s: string)
    ensures '?' !in s
    ensures trailing <==> s == ")"
  {
    if trailing then ")" else ""
  }

  /** The conditions after `where 1=1`: filter, untagged, visibility, read-later. */
  function Conditions(filter: string, untaggedOnly: bool, visibility: PostVisibility, readLaterOnly: bool): (s: string)
    ensures Count(s, '?') == Count(filter, '?')
  {
    var a := FilterClause(filter);
    assert '?' !in UNTAGGED_CONDITION && '?' !in READ_LATER_CONDITION;
    var b := FlagClause(untaggedOnly, UNTAGGED_CONDITION);
    var c := VisibilityClause(visibility);
    var d := FlagClause(readLaterOnly, READ_LATER_CONDITION);
    CountSuffixFree(a, b, '?');
    CountSuffixFree(a + b, c, '?');
    CountSuffixFree(a + b + c, d, '?');
    a + b + c + d
  }

  /** Order, limit and the optional closing parenthesis. */
  function Ending(sortType: int, trailing: bool): (s: string)
    ensures Count(s, '?') == 2
  {
    var o := OrderClause(sortType);
    var l := LimitClause();
    var z := Closing(trailing);
    CountPrefixFree(o, l, '?');
    CountSuffixFree(o + l, z, '?');
    o + l + z
  }

  /** The `sql` `buildString` of both private builders, after the select statement. */
  function Tail(filter: string, f: SearchFilter, sortType: int, trailing: bool): (s: string)
    ensures Count(s, '?') == Count(filter, '?') + 2
  {
    var c := Conditions(filter, f.untaggedOnly, f.visibility, f.readLaterOnly);
    var e := Ending(sortType, trailing);
    CountAppend(c, e, '?');
    c + e
  }

  /** `"$column like ?"`. */
  function LikeStatement(column: string): (s: string)
    ensures '?' !in column ==> Count(s, '?') == 1
  {
    assert '?' !in " like ";
    assert '?' !in column ==> Count(column + " like " + "?" + "", '?') == 1 by {
      if '?' !in column {
        OneMark(column + " like ", "");
      }
    }
    assert column + " like " + "?" + "" == column + " like " + "?";
    column + " like " + "?"
  }

  /** `joinToString(separator) { statement }` over `n` elements. */
  function Joined(stmt: string, n: nat, sep: string): (s: string)
    ensures Count(stmt, '?') == 1 && '?' !in sep ==> Count(s, '?') == n
  {
    assert Count(stmt, '?') == 1 && '?' !in sep ==> Count(Join(Repeat(stmt, n), sep), '?') == n by {
      if Count(stmt, '?') == 1 && '?' !in sep {
        CountJoinUniform(Repeat(stmt, n), sep, '?', 1);
      }
    }
    Join(Repeat(stmt, n), sep)
  }

  /** The two halves of a `filterSubquery`, with the operator between them only when both are there. */
  function Combine(term: string, tags: string, sep: string): (s: string)
    ensures '?' !in sep ==> Count(s, '?') == Count(term, '?') + Count(tags, '?')
    ensures s == "" <==> term == "" && tags == ""
  {
    var mid := if term != "" && tags != "" then sep else "";
    assert '?' !in sep ==> Count(term + mid + tags, '?') == Count(term, '?') + Count(tags, '?') by {
      CountAppend(term, mid, '?');
      CountAppend(term + mid, tags, '?');
    }
    term + mid + tags
  }

  // ---------------------------------------------------------------------
  // Full-text-search family
  // ---------------------------------------------------------------------

  /** `"$TABLE_NAME.rowid in (select rowid from $FTS_TABLE_NAME where <column> match ?)"`. */
  function RowidMatch(fts: string, column: string): (s: string)
    ensures '?' !in fts && '?' !in column ==> Count(s, '?') == 1
  {
    var before := TABLE + ".rowid in (select rowid from " + fts + " where " + column + " match ";
    assert '?' !in fts && '?' !in column ==> Count(before + "?" + ")", '?') == 1 by {
      if '?' !in fts && '?' !in column {
        TableHasNoMark();
        assert '?' !in ".rowid in (select rowid from " && '?' !in " where " && '?' !in " match ";
        OneMark(before, ")");
      }
    }
    before + "?" + ")"
  }

  /** `"($TABLE_NAME.rowid in (… match ?) or (<one url like ? per word>))"`, or nothing without words. */
  function FtsTermStatement(words: seq<string>, fts: string, sep: string): (s: string)
    ensures '?' !in fts && '?' !in sep ==> Count(s, '?') == (if |words| == 0 then 0 else |words| + 1)
    ensures s == "" <==> |words| == 0
  {
    if |words| == 0 then ""
    else
      TableHasNoMark();
      var m := RowidMatch(fts, fts);
      var likes := Joined(LikeStatement(TABLE + ".url"), |words|, sep);
      assert '?' !in fts && '?' !in sep ==> Count("(" + m + " or (" + likes + "))", '?') == |words| + 1 by {
        assert '?' !in "(" && '?' !in " or (" && '?' !in "))" && '?' !in ".url";
        CountPrefixFree("(", m, '?');
        CountSuffixFree("(" + m, " or (", '?');
        CountAppend("(" + m + " or (", likes, '?');
        CountSuffixFree("(" + m + " or (" + likes, "))", '?');
      }
      "(" + m + " or (" + likes + "))"
  }

  /** The `filterSubquery` of `bookmarksFtsQuery`. */
  function FtsFilter(f: SearchFilter, fts: string): (s: string)
    ensures '?' !in fts ==>
      Count(s, '?') == (if |TermWords(f.term)| == 0 then 0 else |TermWords(f.term)| + 1) + |SelectedTags(f)|
  {
    var sep := Connective(f.matchAll);
    var words := TermWords(f.term);
    var selected := SelectedTags(f);
    var term := FtsTermStatement(words, fts, sep);
    assert '?' !in "tagNames";
    var stmt := RowidMatch(fts, "tagNames");
    var tags := Joined(stmt, |selected|, sep);
    assert '?' !in fts ==> Count(term, '?') == (if |words| == 0 then 0 else |words| + 1);
    assert '?' !in fts ==> Count(tags, '?') == |selected|;
    Combine(term, tags, sep)
  }

  /** The term's argument for the full-text `match`: the words, `*`-wrapped unless exact, joined by the operator. */
  function MatchArgument(words: seq<string>, exactMatch: bool, sep: string): string {
    Join(seq(|words|, i requires 0 <= i < |words| => if exactMatch then words[i] else "*" + words[i] + "*"), sep)
  }

  /** `words.map { if (exactMatch) word else "%$word%" }`. */
  function LikeArgs(words: seq<string>, exactMatch: bool): (r: seq<BindArg>)
    ensures |r| == |words|
    ensures forall i | 0 <= i < |r| :: r[i] == TextArg(if exactMatch then words[i] else "%" + words[i] + "%")
  {
    seq(|words|, i requires 0 <= i < |words| => TextArg(if exactMatch then words[i] else "%" + words[i] + "%"))
  }

  /** The term's arguments of `bookmarksFtsQuery`: the `match` argument, then one `like` argument per word. */
  function FtsTermArgs(words: seq<string>, exactMatch: bool, sep: string): (r: seq<BindArg>)
    ensures |r| == (if |words| == 0 then 0 else |words| + 1)
    ensures |words| > 0 ==> r[0] == TextArg(MatchArgument(words, exactMatch, sep)) && r[1..] == LikeArgs(words, exactMatch)
  {
    if |words| == 0 then []
    else [TextArg(MatchArgument(words, exactMatch, sep))] + LikeArgs(words, exactMatch)
  }

  /** `if (tagN.isNotBlank()) add(formatTagArgument(tagN))`, for the selected tags. */
  function FtsTagArgs(tags: seq<string>): (r: seq<BindArg>)
    ensures |r| == |tags|
    ensures forall i | 0 <= i < |r| :: r[i] == TextArg(FormatTagArgument(tags[i], true))
    ensures forall t | t in tags :: TextArg(FormatTagArgument(t, true)) in r
  {
    var r := seq(|tags|, i requires 0 <= i < |tags| => TextArg(FormatTagArgument(tags[i], true)));
    assert forall i | 0 <= i < |tags| :: r[i] in r;
    r
  }

  /** The `args` `buildList` of `bookmarksFtsQuery`. */
  function FtsArgs(f: SearchFilter, offset: int, limit: int): (args: seq<BindArg>)
    ensures |args| == (if |TermWords(f.term)| == 0 then 0 else |TermWords(f.term)| + 1) + |SelectedTags(f)| + 2
    ensures args[|args| - 2..] == [IntArg(offset), IntArg(limit)]
    ensures forall t | t in SelectedTags(f) :: TextArg(FormatTagArgument(t, true)) in args
  {
    var termArgs := FtsTermArgs(TermWords(f.term), f.exactMatch, Connective(f.matchAll));
    var tagArgs := FtsTagArgs(SelectedTags(f));
    Layout(termArgs, tagArgs, offset, limit)
  }

  /** An argument list `term + tags + [offset, limit]`: the term's arguments first, offset and limit last. */
  function Layout(termArgs: seq<BindArg>, tagArgs: seq<BindArg>, offset: int, limit: int): (args: seq<BindArg>)
    ensures |args| == |termArgs| + |tagArgs| + 2
    ensures args[|args| - 2..] == [IntArg(offset), IntArg(limit)]
    ensures args[..|termArgs|] == termArgs
    ensures args[|termArgs|..|termArgs| + |tagArgs|] == tagArgs
    ensures forall a | a in tagArgs :: a in args
  {
    termArgs + tagArgs + [IntArg(offset), IntArg(limit)]
  }

  /**
   * Where `bookmarksFtsQuery` binds what: the term's arguments first (the
   * `match` argument, then one `like` pattern per word, as `FtsTermArgs`
   * states), then the formatted tags in the order tag1, tag2, tag3.
   */
  lemma FtsArgsInOrder(f: SearchFilter, offset: int, limit: int)
    ensures var ws := TermWords(f.term);
      var args := FtsArgs(f, offset, limit);
      var n := if |ws| == 0 then 0 else |ws| + 1;
      && args[..n] == FtsTermArgs(ws, f.exactMatch, Connective(f.matchAll))
      && args[n..n + |SelectedTags(f)|] == FtsTagArgs(SelectedTags(f))
  {
  }

  /** The `sql` `buildString` of `bookmarksFtsQuery`, for the statement and trailing parenthesis of `sel`. */
  function FtsSql(sel: Selection, f: SearchFilter, fts: string, sortType: int): (sql: string)
    ensures '?' !in fts ==>
      Count(sql, '?') == (if |TermWords(f.term)| == 0 then 0 else |TermWords(f.term)| + 1) + |SelectedTags(f)| + 2
  {
    var select := SelectSql(sel);
    var tail := Tail(FtsFilter(f, fts), f, sortType, sel == CountRows);
    CountPrefixFree(select, tail, '?');
    select + tail
  }

  /**
   * `bookmarksFtsQuery`: whatever the filter, the SQL holds exactly one `?`
   * per bound argument, and the last two arguments are the offset and the
   * limit.
   */
  function FtsQuery(sel: Selection, f: SearchFilter, fts: string, sortType: int, offset: int, limit: int): (q: SqlQuery)
    ensures '?' !in fts ==> Count(q.sql, '?') == |q.args|
    ensures |q.args| >= 2 && q.args[|q.args| - 2..] == [IntArg(offset), IntArg(limit)]
  {
    SqlQuery(FtsSql(sel, f, fts, sortType), FtsArgs(f, offset, limit))
  }

  /** `bookmarksCountFtsQuery`: sort code and offset keep their defaults, 0 and 0. */
  function CountFtsQuery(f: SearchFilter, fts: string, limit: int): (q: SqlQuery)
    ensures '?' !in fts ==> Count(q.sql, '?') == |q.args|
    ensures |q.args| >= 2 && q.args[|q.args| - 2..] == [IntArg(0), IntArg(limit)]
  {
    FtsQuery(CountRows, f, fts, 0, 0, limit)
  }

  /** `allBookmarksFtsQuery`. */
  function AllFtsQuery(f: SearchFilter, fts: string, sortType: int, offset: int, limit: int): (q: SqlQuery)
    ensures '?' !in fts ==> Count(q.sql, '?') == |q.args|
    ensures |q.args| >= 2 && q.args[|q.args| - 2..] == [IntArg(offset), IntArg(limit)]
  {
    FtsQuery(ListRows, f, fts, sortType, offset, limit)
  }

  // ---------------------------------------------------------------------
  // LIKE family (no full-text table)
  // ---------------------------------------------------------------------

  /** The names of `termColumns`, the seven columns a term is looked for in. */
  const TERM_COLUMN_NAMES: seq<string> :=
    ["url", "title", "description", "notes", "websiteTitle", "websiteDescription", "tagNames"]

  lemma ColumnNamesHaveNoMark()
    ensures forall i | 0 <= i < |TERM_COLUMN_NAMES| :: '?' !in TERM_COLUMN_NAMES[i]
  {
    assert '?' !in "url" && '?' !in "title" && '?' !in "description" && '?' !in "notes";
    assert '?' !in "websiteTitle" && '?' !in "websiteDescription" && '?' !in "tagNames";
  }

  /** `"$TABLE_NAME.<name>"`. */
  function Column(name: string): (s: string)
    ensures '?' !in name ==> '?' !in s
  {
    TableHasNoMark();
    assert '?' !in ".";
    TABLE + "." + name
  }

  /** `"(" + words.joinToString(" $logicalOperator ") { "$columnName like ?" } + ")"`. */
  function ColumnCondition(name: string, n: nat, sep: string): (s: string)
    ensures '?' !in name && '?' !in sep ==> Count(s, '?') == n
  {
    var likes := Joined(LikeStatement(Column(name)), n, sep);
    assert '?' !in "(" && '?' !in ")";
    CountPrefixFree("(", likes, '?');
    CountSuffixFree("(" + likes, ")", '?');
    "(" + likes + ")"
  }

  /** `"(" + termColumns.joinToString(" or ") { <its column condition> } + ")"`, or nothing without words. */
  function NoFtsTermStatement(n: nat, sep: string): (s: string)
    ensures '?' !in sep ==> Count(s, '?') == |TERM_COLUMN_NAMES| * n
    ensures s == "" <==> n == 0
  {
    if n == 0 then ""
    else
      var columns := seq(|TERM_COLUMN_NAMES|, i requires 0 <= i < |TERM_COLUMN_NAMES| =>
        ColumnCondition(TERM_COLUMN_NAMES[i], n, sep));
      var joined := Join(columns, " or ");
      assert '?' !in sep ==> Count(joined, '?') == |TERM_COLUMN_NAMES| * n by {
        if '?' !in sep {
          ColumnNamesHaveNoMark();
          assert '?' !in " or ";
          CountJoinUniform(columns, " or ", '?', n);
        }
      }
      assert '?' !in "(" && '?' !in ")";
      CountPrefixFree("(", joined, '?');
      CountSuffixFree("(" + joined, ")", '?');
      "(" + joined + ")"
  }

  /** The `filterSubquery` of `bookmarksNoFtsQuery`. */
  function NoFtsFilter(f: SearchFilter): (s: string)
    ensures Count(s, '?') == |TERM_COLUMN_NAMES| * |TermWords(f.term)| + |SelectedTags(f)|
  {
    NoFtsFilterOf(|TermWords(f.term)|, |SelectedTags(f)|, Connective(f.matchAll))
  }

  /** The filter for `words` term words and `tags` selected tags, joined by `sep`. */
  function NoFtsFilterOf(words: nat, tags: nat, sep: string): (s: string)
    ensures '?' !in sep ==> Count(s, '?') == |TERM_COLUMN_NAMES| * words + tags
  {
    Combine(NoFtsTermStatement(words, sep), NoFtsTagStatement(tags, sep), sep)
  }

  /** The tags' half of the filter: `tagNames like ?` once per selected tag. */
  function NoFtsTagStatement(n: nat, sep: string): (s: string)
    ensures '?' !in sep ==> Count(s, '?') == n
  {
    assert '?' !in "tagNames";
    Joined(LikeStatement(Column("tagNames")), n, sep)
  }

  /** `repeat(times) { addAll(a) }`. */
  function Repeated(a: seq<BindArg>, times: nat): (r: seq<BindArg>)
    ensures |r| == times * |a|
    ensures forall x | x in r :: x in a
  {
    if times == 0 then []
    else
      SuccessorTimes(times - 1, |a|);
      a + Repeated(a, times - 1)
  }

  /** Copy `k` of `a` in a repetition sits at offset `k * |a|`. */
  lemma {:induction false} RepeatedAt(a: seq<BindArg>, times: nat, k: nat, i: nat, j: nat)
    requires k < times && i < |a| && j == k * |a| + i
    ensures j < |Repeated(a, times)| && Repeated(a, times)[j] == a[i]
    decreases times
  {
    var r := Repeated(a, times);
    assert r == a + Repeated(a, times - 1);
    if k > 0 {
      SuccessorTimes(k - 1, |a|);
      RepeatedAt(a, times - 1, k - 1, i, j - |a|);
    }
  }

  /** `if (tagN.isNotBlank()) add(tagN)`, for the selected tags. */
  function NoFtsTagArgs(tags: seq<string>): (r: seq<BindArg>)
    ensures |r| == |tags|
    ensures forall i | 0 <= i < |r| :: r[i] == TextArg(tags[i])
    ensures forall t | t in tags :: TextArg(t) in r
  {
    var r := seq(|tags|, i requires 0 <= i < |tags| => TextArg(tags[i]));
    assert forall i | 0 <= i < |tags| :: r[i] in r;
    r
  }

  /** The `args` `buildList` of `bookmarksNoFtsQuery`: the tags are bound as they are, just before offset and limit. */
  function NoFtsArgs(f: SearchFilter, offset: int, limit: int): (args: seq<BindArg>)
    ensures |args| == |TERM_COLUMN_NAMES| * |TermWords(f.term)| + |SelectedTags(f)| + 2
    ensures args[|args| - 2..] == [IntArg(offset), IntArg(limit)]
    ensures forall t | t in SelectedTags(f) :: TextArg(t) in args
  {
    var words := TermWords(f.term);
    var termArgs := if |words| == 0 then [] else Repeated(LikeArgs(words, f.exactMatch), |TERM_COLUMN_NAMES|);
    var tagArgs := NoFtsTagArgs(SelectedTags(f));
    Layout(termArgs, tagArgs, offset, limit)
  }

  /**
   * Where `bookmarksNoFtsQuery` binds what: for each of the searched
   * columns in turn, one `like` pattern per word in the words' order, so
   * argument `k * |words| + i` is the pattern of word `i`.
   */
  lemma NoFtsArgsTermAt(f: SearchFilter, offset: int, limit: int, k: nat, i: nat, j: nat)
    requires k < |TERM_COLUMN_NAMES| && i < |TermWords(f.term)| && j == k * |TermWords(f.term)| + i
    ensures var ws := TermWords(f.term);
      var args := NoFtsArgs(f, offset, limit);
      j < |args| && args[j] == TextArg(if f.exactMatch then ws[i] else "%" + ws[i] + "%")
  {
    var ws := TermWords(f.term);
    var likes := LikeArgs(ws, f.exactMatch);
    var termArgs := Repeated(likes, |TERM_COLUMN_NAMES|);
    var args := NoFtsArgs(f, offset, limit);
    assert args == Layout(termArgs, NoFtsTagArgs(SelectedTags(f)), offset, limit);
    RepeatedAt(likes, |TERM_COLUMN_NAMES|, k, i, j);
    assert args[..|termArgs|][j] == termArgs[j];
  }

  /** After the word patterns, `bookmarksNoFtsQuery` binds the selected tags as they are, in the order tag1, tag2, tag3. */
  lemma NoFtsArgsTagsInOrder(f: SearchFilter, offset: int, limit: int)
    ensures var n := |TERM_COLUMN_NAMES| * |TermWords(f.term)|;
      var args := NoFtsArgs(f, offset, limit);
      args[n..n + |SelectedTags(f)|] == NoFtsTagArgs(SelectedTags(f))
  {
  }

  /** The `sql` `buildString` of `bookmarksNoFtsQuery`, for the statement and trailing parenthesis of `sel`. */
  function NoFtsSql(sel: Selection, f: SearchFilter, sortType: int): (sql: string)
    ensures Count(sql, '?') == |TERM_COLUMN_NAMES| * |TermWords(f.term)| + |SelectedTags(f)| + 2
  {
    var select := SelectSql(sel);
    var tail := Tail(NoFtsFilter(f), f, sortType, sel == CountRows);
    CountPrefixFree(select, tail, '?');
    select + tail
  }

  /**
   * `bookmarksNoFtsQuery`: one `?` per bound argument, that is seven per
   * word, one per selected tag, the offset and the limit.
   */
  function NoFtsQuery(sel: Selection, f: SearchFilter, sortType: int, offset: int, limit: int): (q: SqlQuery)
    ensures Count(q.sql, '?') == |q.args|
    ensures |q.args| == 7 * |TermWords(f.term)| + |SelectedTags(f)| + 2
    ensures q.args[|q.args| - 2..] == [IntArg(offset), IntArg(limit)]
  {
    SqlQuery(NoFtsSql(sel, f, sortType), NoFtsArgs(f, offset, limit))
  }

  /** `bookmarksCountNoFtsQuery`: the private builder's defaults, sort code -1 and offset 0. */
  function CountNoFtsQuery(f: SearchFilter, limit: int): (q: SqlQuery)
    ensures Count(q.sql, '?') == |q.args|
    ensures |q.args| >= 2 && q.args[|q.args| - 2..] == [IntArg(0), IntArg(limit)]
  {
    NoFtsQuery(CountRows, f, -1, 0, limit)
  }

  /** `allBookmarksNoFtsQuery`. */
  function AllNoFtsQuery(f: SearchFilter, sortType: int, offset: int, limit: int): (q: SqlQuery)
    ensures Count(q.sql, '?') == |q.args|
    ensures |q.args| >= 2 && q.args[|q.args| - 2..] == [IntArg(offset), IntArg(limit)]
  {
    NoFtsQuery(ListRows, f, sortType, offset, limit)
  }

  // ---------------------------------------------------------------------
  // Properties relating the builders
  // ---------------------------------------------------------------------

  /**
   * With `untaggedOnly`, the three tags play no part in the FTS query: it
   * is the one built with no tags at all, and it binds no tag argument.
   */
  lemma UntaggedIgnoresTagsFts(f: SearchFilter, fts: string, sel: Selection, sortType: int, offset: int, limit: int)
    requires f.untaggedOnly
    ensures FtsQuery(sel, f, fts, sortType, offset, limit)
      == FtsQuery(sel, f.(tag1 := "", tag2 := "", tag3 := ""), fts, sortType, offset, limit)
    ensures var n := |TermWords(f.term)|;
      |FtsQuery(sel, f, fts, sortType, offset, limit).args| == (if n == 0 then 0 else n + 1) + 2
  {
    var g := f.(tag1 := "", tag2 := "", tag3 := "");
    assert SelectedTags(f) == SelectedTags(g) == [];
    assert FtsFilter(f, fts) == FtsFilter(g, fts);
  }

  /** The same for the LIKE query: no tag condition and no tag argument. */
  lemma UntaggedIgnoresTagsNoFts(f: SearchFilter, sel: Selection, sortType: int, offset: int, limit: int)
    requires f.untaggedOnly
    ensures NoFtsQuery(sel, f, sortType, offset, limit)
      == NoFtsQuery(sel, f.(tag1 := "", tag2 := "", tag3 := ""), sortType, offset, limit)
    ensures |NoFtsQuery(sel, f, sortType, offset, limit).args| == 7 * |TermWords(f.term)| + 2
  {
    var g := f.(tag1 := "", tag2 := "", tag3 := "");
    assert SelectedTags(f) == SelectedTags(g) == [];
    assert NoFtsFilter(f) == NoFtsFilter(g);
  }

  /**
   * `untaggedOnly` adds the condition `tagNames = ''` right after the
   * filter clause, and nothing there when it is off; the rest of the SQL
   * does not depend on the flag.
   */
  lemma UntaggedConditionFts(sel: Selection, f: SearchFilter, fts: string, sortType: int)
    ensures var pre := SelectSql(sel) + FilterClause(FtsFilter(f, fts));
      var post := VisibilityClause(f.visibility) + FlagClause(f.readLaterOnly, READ_LATER_CONDITION)
        + Ending(sortType, sel == CountRows);
      FtsSql(sel, f, fts, sortType) == pre + (if f.untaggedOnly then UNTAGGED_CONDITION else "") + post
  {
    FtsSqlShape(sel, f, fts, sortType);
    UntaggedConditionInTail(SelectSql(sel), FtsFilter(f, fts), f, sortType, sel == CountRows);
  }

  /** The same for the LIKE query. */
  lemma UntaggedConditionNoFts(sel: Selection, f: SearchFilter, sortType: int)
    ensures var pre := SelectSql(sel) + FilterClause(NoFtsFilter(f));
      var post := VisibilityClause(f.visibility) + FlagClause(f.readLaterOnly, READ_LATER_CONDITION)
        + Ending(sortType, sel == CountRows);
      NoFtsSql(sel, f, sortType) == pre + (if f.untaggedOnly then UNTAGGED_CONDITION else "") + post
  {
    NoFtsSqlShape(sel, f, sortType);
    UntaggedConditionInTail(SelectSql(sel), NoFtsFilter(f), f, sortType, sel == CountRows);
  }

  lemma UntaggedConditionInTail(head: string, filter: string, f: SearchFilter, sortType: int, trailing: bool)
    ensures var post := VisibilityClause(f.visibility) + FlagClause(f.readLaterOnly, READ_LATER_CONDITION)
        + Ending(sortType, trailing);
      head + Tail(filter, f, sortType, trailing)
        == head + FilterClause(filter) + (if f.untaggedOnly then UNTAGGED_CONDITION else "") + post
  {
    var a := FilterClause(filter);
    var b := FlagClause(f.untaggedOnly, UNTAGGED_CONDITION);
    var c := VisibilityClause(f.visibility);
    var d := FlagClause(f.readLaterOnly, READ_LATER_CONDITION);
    var e := Ending(sortType, trailing);
    assert b == (if f.untaggedOnly then UNTAGGED_CONDITION else "");
    var post := c + d + e;
    assert Tail(filter, f, sortType, trailing) == a + b + c + d + e;
    AppendAssociates(a + b, c, d);
    AppendAssociates(a + b, c + d, e);
    assert a + b + c + d + e == (a + b) + post;
    AppendAssociates(head, a + b, post);
    AppendAssociates(head, a, b);
  }

  /**
   * Without `untaggedOnly`, every non-blank tag is bound: formatted in the
   * FTS query, as it is in the LIKE one.
   */
  lemma TagsAreBound(f: SearchFilter, offset: int, limit: int)
    requires !f.untaggedOnly
    ensures forall t | t in [f.tag1, f.tag2, f.tag3] && !IsBlank(t) ::
      && TextArg(FormatTagArgument(t, true)) in FtsArgs(f, offset, limit)
      && TextArg(t) in NoFtsArgs(f, offset, limit)
  {
  }

  lemma DropPrefix(a: string, b: string)
    ensures (a + b)[|a|..] == b
  {
  }

  lemma AppendAssociates(a: string, b: string, c: string)
    ensures a + (b + c) == a + b + c
  {
  }

  /** Closing the sub-select only appends a `)` to the SQL. */
  lemma TailClosing(filter: string, f: SearchFilter, sortType: int)
    ensures Tail(filter, f, sortType, true) == Tail(filter, f, sortType, false) + ")"
  {
    var c := Conditions(filter, f.untaggedOnly, f.visibility, f.readLaterOnly);
    var a := OrderClause(sortType) + LimitClause();
    assert Ending(sortType, true) == a + ")";
    assert Ending(sortType, false) == a;
    AppendAssociates(c, a, ")");
  }

  /**
   * The counting query is the listing query (sort code 0, offset 0) with
   * the counting select in front and one more `)` closing the sub-select;
   * both bind the same arguments.
   */
  lemma CountFtsWrapsListing(f: SearchFilter, fts: string, limit: int)
    ensures var c := CountFtsQuery(f, fts, limit);
      var l := AllFtsQuery(f, fts, 0, 0, limit);
      && |LIST_SELECT| <= |l.sql|
      && c.sql == COUNT_SELECT + l.sql[|LIST_SELECT|..] + ")"
      && c.args == l.args
  {
    var filter := FtsFilter(f, fts);
    var tail := Tail(filter, f, 0, false);
    FtsSqlShape(ListRows, f, fts, 0);
    FtsSqlShape(CountRows, f, fts, 0);
    TailClosing(filter, f, 0);
    DropPrefix(LIST_SELECT, tail);
    AppendAssociates(COUNT_SELECT, tail, ")");
  }

  /** The same for the LIKE family, whose counting query has no order clause (sort code -1). */
  lemma CountNoFtsWrapsListing(f: SearchFilter, limit: int)
    ensures var c := CountNoFtsQuery(f, limit);
      var l := AllNoFtsQuery(f, -1, 0, limit);
      && |LIST_SELECT| <= |l.sql|
      && c.sql == COUNT_SELECT + l.sql[|LIST_SELECT|..] + ")"
      && c.args == l.args
  {
    var filter := NoFtsFilter(f);
    var tail := Tail(filter, f, -1, false);
    NoFtsSqlShape(ListRows, f, -1);
    NoFtsSqlShape(CountRows, f, -1);
    TailClosing(filter, f, -1);
    DropPrefix(LIST_SELECT, tail);
    AppendAssociates(COUNT_SELECT, tail, ")");
  }

  /** The SQL is the select statement followed by the shared tail. */
  lemma FtsSqlShape(sel: Selection, f: SearchFilter, fts: string, sortType: int)
    ensures FtsSql(sel, f, fts, sortType) == SelectSql(sel) + Tail(FtsFilter(f, fts), f, sortType, sel == CountRows)
  {
  }

  lemma NoFtsSqlShape(sel: Selection, f: SearchFilter, sortType: int)
    ensures NoFtsSql(sel, f, sortType) == SelectSql(sel) + Tail(NoFtsFilter(f), f, sortType, sel == CountRows)
  {
  }

  // ---------------------------------------------------------------------
  // Tag suggestions
  // ---------------------------------------------------------------------

  /** `existingBookmarkTagFtsQuery`: a prefix-and-suffix match on the tag without quotes. */
  function ExistingTagFtsQuery(tag: string, fts: string): (q: SqlQuery)
    ensures q.args == [TextArg(FormatTagArgument(tag, false))]
    ensures '?' !in fts ==> Count(q.sql, '?') == |q.args|
  {
    var before := "select tagNames from " + fts + " where tagNames match ";
    assert '?' !in fts ==> Count(before + "?" + "", '?') == 1 by {
      if '?' !in fts {
        assert '?' !in "select tagNames from " && '?' !in " where tagNames match ";
        OneMark(before, "");
      }
    }
    assert before + "?" + "" == before + "?";
    SqlQuery(before + "?", [TextArg(FormatTagArgument(tag, false))])
  }

  /** `existingBookmarkTagNoFtsQuery`: a `like` on the tag, anywhere in the stored names. */
  function ExistingTagNoFtsQuery(tag: string): (q: SqlQuery)
    ensures q.args == [TextArg("%" + tag + "%")]
    ensures Count(q.sql, '?') == |q.args|
  {
    TableHasNoMark();
    var before := "select tagNames from " + TABLE + " where tagNames like ";
    assert '?' !in "select tagNames from " && '?' !in " where tagNames like ";
    OneMark(before, "");
    assert before + "?" + "" == before + "?";
    SqlQuery(before + "?", [TextArg("%" + tag + "%")])
  }
}

=== FILE: lists.dfy ===
/**
 * The Kotlin collection operations the reducers and data sources use:
 * `filterNot { it in other }`, `minus(element)`, `distinct()`, `union`,
 * `take(n)` and `none { it == x }`.
 */
module Lists {

  predicate NoDuplicates<T(==,!new)>(s: seq<T>) {
    forall i, j | 0 <= i < j < |s| :: s[i] != s[j]
  }

  /**
   * `a` is `b` with some elements left out, the rest kept in order. A
   * filter's result is pinned down by this together with how often it
   * holds each element.
   */
  predicate IsSubsequence<T(==)>(a: seq<T>, b: seq<T>)
    decreases |b|
  {
    if |a| == 0 then true
    else if |b| == 0 then false
    else (a[0] == b[0] && IsSubsequence(a[1..], b[1..])) || IsSubsequence(a, b[1..])
  }

  /** Keeping or dropping the head of `b` keeps a subsequence of its tail a subsequence of `b`. */
  lemma ConsSubsequence<T>(x: T, a: seq<T>, b: seq<T>)
    requires |b| > 0 && IsSubsequence(a, b[1..])
    ensures IsSubsequence(a, b)
    ensures b[0] == x ==> IsSubsequence([x] + a, b)
  {
    assert ([x] + a)[1..] == a;
  }

  /** `s.filterNot { it in excluded }`: drops the excluded elements, keeping order. */
  function FilterNot<T(==,!new)>(s: seq<T>, excluded: seq<T>): (r: seq<T>)
    ensures |r| <= |s|
    ensures forall x :: x in r <==> x in s && x !in excluded
    ensures NoDuplicates(s) ==> NoDuplicates(r)
    decreases |s|
  {
    if |s| == 0 then []
    else
      var rest := FilterNot(s[1..], excluded);
      assert forall x | x in s[1..] :: x in s;
      if s[0] in excluded then rest
      else
        assert NoDuplicates(s) ==> s[0] !in s[1..];
        [s[0]] + rest
  }

  /** `filterNot` keeps every element that is not excluded as often as the list holds it. */
  lemma {:induction false} FilterNotCounts<T(!new)>(s: seq<T>, excluded: seq<T>)
    ensures forall x :: multiset(FilterNot(s, excluded))[x] == if x in excluded then 0 else multiset(s)[x]
    decreases |s|
  {
    if |s| > 0 {
      FilterNotCounts(s[1..], excluded);
      assert s == [s[0]] + s[1..];
    }
  }

  /** `filterNot` keeps the list's order. */
  lemma {:induction false} FilterNotInOrder<T(!new)>(s: seq<T>, excluded: seq<T>)
    ensures IsSubsequence(FilterNot(s, excluded), s)
    decreases |s|
  {
    if |s| > 0 {
      FilterNotInOrder(s[1..], excluded);
      assert s == [s[0]] + s[1..];
      ConsSubsequence(s[0], FilterNot(s[1..], excluded), s);
    }
  }

  /** With nothing excluded, `filterNot` keeps the whole list. */
  lemma {:induction false} FilterNotNothing<T(!new)>(s: seq<T>)
    ensures FilterNot(s, []) == s
    decreases |s|
  {
    if |s| > 0 {
      FilterNotNothing(s[1..]);
    }
  }

  /** When every element is excluded, `filterNot` keeps nothing. */
  lemma {:induction false} FilterNotAll<T(!new)>(s: seq<T>, excluded: seq<T>)
    requires forall x | x in s :: x in excluded
    ensures FilterNot(s, excluded) == []
    decreases |s|
  {
    if |s| > 0 {
      assert forall x | x in s[1..] :: x in s;
      FilterNotAll(s[1..], excluded);
    }
  }

  /** `s - x` (`minus(element)`): removes the first occurrence of `x`, if any. */
  function RemoveFirst<T(==,!new)>(s: seq<T>, x: T): (r: seq<T>)
    ensures x !in s ==> r == s
    ensures x in s ==> |r| == |s| - 1
    ensures multiset(r) == multiset(s) - multiset{x}
    decreases |s|
  {
    if |s| == 0 then []
    else if s[0] == x then
      assert s == [s[0]] + s[1..];
      s[1..]
    else
      assert s == [s[0]] + s[1..];
      [s[0]] + RemoveFirst(s[1..], x)
  }

  /** Removing from a duplicate-free list leaves no trace of the element and nothing else missing. */
  lemma {:induction false} RemoveFirstFromDistinct<T(!new)>(s: seq<T>, x: T)
    requires NoDuplicates(s)
    ensures NoDuplicates(RemoveFirst(s, x))
    ensures forall y :: y in RemoveFirst(s, x) <==> y in s && y != x
    decreases |s|
  {
    if |s| > 0 {
      var h, t := s[0], s[1..];
      assert s == [h] + t;
      assert h !in t;
      assert NoDuplicates(t);
      if h != x {
        RemoveFirstFromDistinct(t, x);
        var r' := RemoveFirst(t, x);
        assert RemoveFirst(s, x) == [h] + r';
        assert h !in r';
        ConsNoDuplicates(h, r');
      }
    }
  }

  /** Putting an absent element in front of a duplicate-free list keeps it duplicate-free. */
  lemma ConsNoDuplicates<T(!new)>(x: T, s: seq<T>)
    requires NoDuplicates(s) && x !in s
    ensures NoDuplicates([x] + s)
  {
    var r := [x] + s;
    forall i, j | 0 <= i < j < |r| ensures r[i] != r[j] {
      assert r[j] == s[j - 1];
      if i == 0 {
        assert s[j - 1] in s;
      } else {
        assert r[i] == s[i - 1];
      }
    }
  }

  /** `distinct()`: the first occurrence of every element, in order. */
  function Distinct<T(==,!new)>(s: seq<T>): (r: seq<T>)
    ensures NoDuplicates(r)
    ensures forall x :: x in r <==> x in s
    ensures |r| <= |s|
    decreases |s|
  {
    if |s| == 0 then []
    else
      var prefix := Distinct(s[..|s| - 1]);
      var last := s[|s| - 1];
      assert s == s[..|s| - 1] + [last];
      if last in prefix then prefix else prefix + [last]
  }

  /** A list without duplicates is its own `distinct()`. */
  lemma {:induction false} DistinctOfDistinct<T(!new)>(s: seq<T>)
    requires NoDuplicates(s)
    ensures Distinct(s) == s
    decreases |s|
  {
    if |s| > 0 {
      DistinctOfDistinct(s[..|s| - 1]);
      assert s[|s| - 1] !in s[..|s| - 1];
      assert s == s[..|s| - 1] + [s[|s| - 1]];
    }
  }

  /** `distinct()` of a concatenation begins with `distinct()` of its first part. */
  lemma {:induction false} DistinctAppend<T(!new)>(a: seq<T>, b: seq<T>)
    ensures |Distinct(a)| <= |Distinct(a + b)|
    ensures Distinct(a + b)[..|Distinct(a)|] == Distinct(a)
    decreases |b|
  {
    if |b| == 0 {
      assert a + b == a;
    } else {
      var b' := b[..|b| - 1];
      assert (a + b)[..|a + b| - 1] == a + b';
      DistinctAppend(a, b');
    }
  }

  /**
   * `a.union(b).toList()`: the distinct elements of `a`, then those of `b`
   * not already present.
   */
  function Union<T(==,!new)>(a: seq<T>, b: seq<T>): (r: seq<T>)
    ensures NoDuplicates(r)
    ensures forall x :: x in r <==> x in a || x in b
    ensures NoDuplicates(a) ==> |a| <= |r| && r[..|a|] == a
  {
    var r := Distinct(a + b);
    assert forall x :: x in a + b <==> x in a || x in b;
    assert NoDuplicates(a) ==> |a| <= |r| && r[..|a|] == a by {
      if NoDuplicates(a) {
        DistinctAppend(a, b);
        DistinctOfDistinct(a);
      }
    }
    r
  }

  /** A duplicate-free list already holding every element of `b` absorbs it: the union adds nothing. */
  lemma {:induction false} UnionAbsorbs<T(!new)>(a: seq<T>, b: seq<T>)
    requires NoDuplicates(a)
    requires forall x | x in b :: x in a
    ensures Union(a, b) == a
    decreases |b|
  {
    if |b| == 0 {
      assert a + b == a;
      DistinctOfDistinct(a);
    } else {
      var b' := b[..|b| - 1];
      assert (a + b)[..|a + b| - 1] == a + b';
      assert forall x | x in b' :: x in b;
      UnionAbsorbs(a, b');
      assert b[|b| - 1] in b;
    }
  }

  /** `take(n)`. */
  function Take<T>(s: seq<T>, n: nat): (r: seq<T>)
    ensures |r| <= n && |r| <= |s|
    ensures r == s[..|r|]
    ensures |s| >= n ==> |r| == n
  {
    if |s| <= n then s else s[..n]
  }

  /** An element of a duplicate-free list occurs at most once. */
  lemma {:induction false} NoDuplicatesCounts<T(!new)>(s: seq<T>, x: T)
    requires NoDuplicates(s)
    ensures multiset(s)[x] <= 1
    decreases |s|
  {
    if |s| > 0 {
      assert s == [s[0]] + s[1..];
      assert NoDuplicates(s[1..]);
      NoDuplicatesCounts(s[1..], x);
      if x == s[0] {
        assert x !in s[1..];
      }
    }
  }

  /** A permutation of a duplicate-free list is duplicate-free. */
  lemma NoDuplicatesPermutation<T(!new)>(a: seq<T>, b: seq<T>)
    requires NoDuplicates(a)
    requires multiset(a) == multiset(b)
    ensures NoDuplicates(b)
  {
    forall i, j | 0 <= i < j < |b| ensures b[i] != b[j] {
      NoDuplicatesCounts(a, b[i]);
      CountsOfRepeat(b, i, j);
    }
  }

  /** An element at two positions occurs at least twice. */
  lemma CountsOfRepeat<T>(s: seq<T>, i: nat, j: nat)
    requires i < j < |s|
    ensures s[i] == s[j] ==> multiset(s)[s[i]] >= 2
  {
    assert s == s[..j] + [s[j]] + s[j + 1..];
    assert s[i] in s[..j];
  }

  /** `map(f)`. */
  function MapSeq<T, U>(s: seq<T>, f: T -> U): (r: seq<U>)
    ensures |r| == |s|
    ensures forall i | 0 <= i < |s| :: r[i] == f(s[i])
  {
    seq(|s|, i requires 0 <= i < |s| => f(s[i]))
  }

  lemma MapSeqAppend<T, U>(a: seq<T>, b: seq<T>, f: T -> U)
    ensures MapSeq(a + b, f) == MapSeq(a, f) + MapSeq(b, f)
  {
    assert forall i | 0 <= i < |a + b| :: MapSeq(a + b, f)[i] == (MapSeq(a, f) + MapSeq(b, f))[i];
  }

  /** Taking the head of one permutation out of the other leaves permutations. */
  lemma PermutationWithout<T>(a: seq<T>, b: seq<T>, k: nat)
    requires |a| > 0 && k < |b| && b[k] == a[0]
    requires multiset(a) == multiset(b)
    ensures multiset(a[1..]) == multiset(b[..k] + b[k + 1..])
  {
    assert a == [a[0]] + a[1..];
    assert b == b[..k] + [b[k]] + b[k + 1..];
    assert multiset(a) == multiset{a[0]} + multiset(a[1..]);
    assert multiset(b) == multiset(b[..k]) + multiset{b[k]} + multiset(b[k + 1..]);
    assert multiset(b[..k] + b[k + 1..]) == multiset(b[..k]) + multiset(b[k + 1..]);
    forall e ensures multiset(a[1..])[e] == multiset(b[..k] + b[k + 1..])[e] {
      assert multiset(a)[e] == multiset(b)[e];
    }
  }

  /** Mapping permutations gives permutations. */
  lemma {:induction false} MapSeqPermutation<T, U>(a: seq<T>, b: seq<T>, f: T -> U)
    requires multiset(a) == multiset(b)
    ensures multiset(MapSeq(a, f)) == multiset(MapSeq(b, f))
    decreases |a|
  {
    if |a| == 0 {
      assert |b| == |multiset(b)| == 0;
    } else {
      assert a[0] in multiset(b);
      var k :| 0 <= k < |b| && b[k] == a[0];
      var rest := b[..k] + b[k + 1..];
      PermutationWithout(a, b, k);
      MapSeqPermutation(a[1..], rest, f);
      assert a == [a[0]] + a[1..];
      assert b == b[..k] + [b[k]] + b[k + 1..];
      MapSeqAppend([a[0]], a[1..], f);
      MapSeqAppend(b[..k] + [b[k]], b[k + 1..], f);
      MapSeqAppend(b[..k], [b[k]], f);
      MapSeqAppend(b[..k], b[k + 1..], f);
    }
  }
}

=== FILE: names.dfy ===
/**
 * `sorted()` on strings: Kotlin's stable sort under the natural order of
 * strings, which is a total order, so the sorted list is the one ordered
 * permutation of its input.
 */
module Names {
  import opened Text
  import opened Ordering

  /** `String.compareTo(other) <= 0`. */
  const NameOrder: (string, string) -> bool := (a: string, b: string) => LexLe(a, b)

  /** The natural order of strings is total, transitive and antisymmetric. */
  lemma NameOrderIsTotal()
    ensures TotalPreorder(NameOrder)
    ensures forall a, b :: NameOrder(a, b) && NameOrder(b, a) ==> a == b
  {
    forall a: string, b: string ensures NameOrder(a, b) || NameOrder(b, a) {
      LexLeTotal(a, b);
    }
    forall a: string, b: string, c: string | NameOrder(a, b) && NameOrder(b, c) ensures NameOrder(a, c) {
      LexLeTransitive(a, b, c);
    }
    forall a: string, b: string | NameOrder(a, b) && NameOrder(b, a) ensures a == b {
      LexLeAntisymmetric(a, b);
    }
  }

  /** `sorted()`: the strings in ascending natural order. */
  function SortedStrings(s: seq<string>): (r: seq<string>)
    ensures multiset(r) == multiset(s)
    ensures SortedBy(r, NameOrder)
  {
    NameOrderIsTotal();
    SortBySorted(s, NameOrder);
    SortBy(s, NameOrder)
  }

  /** Sorting a list that is already in order gives it back unchanged. */
  lemma SortedStringsOfSorted(s: seq<string>)
    requires SortedBy(s, NameOrder)
    ensures SortedStrings(s) == s
  {
    NameOrderIsTotal();
    SortedPermutationUnique(SortedStrings(s), s, NameOrder);
  }
}

=== FILE: navigation_reducer.dfy ===
/**
 * `NavigationActionHandler` of app/.../appstate/NavigationActionHandler.kt:
 * moving between screens. The user's preferences and the connectivity check
 * are parameters; the write-back of a bookmark opened as read is returned
 * instead of being launched.
 */
module NavigationReducer {
  import opened Nullable
  import opened Either
  import opened Domain
  import opened AppContent

  /**
   * How a bookmark opens from the post list. The source's browser options
   * also carry a mark-as-read flag, but navigation reads the separate
   * `markAsReadOnOpen` setting below, so the flag is left out here.
   */
  datatype PreferredDetailsView = InAppBrowser | ExternalBrowserView | EditView

  /** The user preferences navigation reads. */
  datatype UserSettings = UserSettings(
    showDescriptionInLists: bool,
    alwaysUseSidePanel: bool,
    preferredDetailsView: PreferredDetailsView,
    markAsReadOnOpen: bool,
    defaultPrivate: Option<bool>,
    defaultReadLater: Option<bool>,
    defaultTags: seq<Tag>)

  datatype NavigationAction =
    | NavigateBack
    | ViewCategory(category: ViewCategory)
    | ViewPost(post: Post)
    | ViewSearch
    | AddPost
    | ViewTags
    | ViewSavedFilters
    | ViewNotes
    | ViewNote(id: string)
    | ViewPopular
    | ViewPreferences

  /** What opening a bookmark does to the list: what it loads next and the bookmark to write back. */
  datatype MarkAsReadResult = MarkAsReadResult(shouldLoad: ShouldLoad, writeBack: Option<Post>)

  /**
   * `markAsRead`: a bookmark marked "read later" that opens while the user
   * wants opened bookmarks marked as read is saved again as read, and the
   * list reloads from its first page; otherwise nothing is saved and the list
   * stays as loaded.
   */
  function MarkAsRead(post: Post, settings: UserSettings): (r: MarkAsReadResult)
    ensures r.writeBack.Some? <==> post.readLater == Some(true) && settings.markAsReadOnOpen
    ensures r.writeBack.Some? ==> r.writeBack.value == post.(readLater := Some(false))
    ensures r.shouldLoad == (if r.writeBack.Some? then ShouldLoadFirstPage else Loaded)
  {
    if post.readLater == Some(true) && settings.markAsReadOnOpen then
      MarkAsReadResult(ShouldLoadFirstPage, Some(post.(readLater := Some(false))))
    else
      MarkAsReadResult(Loaded, None)
  }

  /**
   * `reduce(body).reduce<PostDetailContent> { body(it.previousContent) }`:
   * a screen opened from the post list, or from the list under a post's
   * details. None of the bodies yields a post's details, so the second
   * `reduce` never applies to what the first produced.
   */
  function OpenOverList(c: Content, body: PostListContent -> Content): (r: Content)
    ensures ListOf(c).Some? ==> r == body(ListOf(c).value)
    ensures ListOf(c).None? ==> r == c
  {
    if c.PostListScreen? then body(c.list)
    else if c.PostDetail? then body(c.previousList)
    else c
  }

  /** `navigateBack`: the previous screen; leaving the preferences re-reads the description setting. */
  function Back(c: Content, settings: UserSettings): (r: Content)
    ensures c.External? ==> r == c
    ensures c.UserPreferences? ==>
      r == PostListScreen(c.previousList.(showDescription := settings.showDescriptionInLists))
    ensures HasHistory(c) && !c.UserPreferences? ==> r == Previous(c)
  {
    if !HasHistory(c) then c
    else if c.UserPreferences? then
      PostListScreen(c.previousList.(showDescription := settings.showDescriptionInLists))
    else Previous(c)
  }

  /** `viewCategory`: a fresh list of the category, keeping the posts on screen until it loads. */
  function Category(category: ViewCategory, c: Content, settings: UserSettings, connected: bool): (r: Content)
    ensures r.PostListScreen?
    ensures r.list.category == category
    ensures r.list.posts == (if c.PostListScreen? then c.list.posts else None)
    ensures r.list.searchParameters == EmptySearch
    ensures r.list.sortType == NewestFirst && r.list.shouldLoad == ShouldLoadFirstPage
    ensures r.list.showDescription == settings.showDescriptionInLists
    ensures r.list.canForceSync && r.list.isConnected == connected
  {
    PostListScreen(PostListContent(
      category,
      if c.PostListScreen? then c.list.posts else None,
      settings.showDescriptionInLists,
      NewestFirst,
      EmptySearch,
      ShouldLoadFirstPage,
      true,
      connected))
  }

  /** `viewPost`: opens a bookmark the way the user prefers. */
  function OpenPost(post: Post, c: Content, settings: UserSettings, connected: bool): (r: Content)
    ensures c.PostListScreen? ==>
      var marked := c.list.(shouldLoad := MarkAsRead(post, settings).shouldLoad);
      && (settings.alwaysUseSidePanel || settings.preferredDetailsView.InAppBrowser? ==>
            r == PostDetail(post, marked, connected))
      && (!settings.alwaysUseSidePanel && settings.preferredDetailsView.ExternalBrowserView? ==>
            r == ExternalBrowser(post, PostListScreen(marked)))
      && (!settings.alwaysUseSidePanel && settings.preferredDetailsView.EditView? ==>
            r == EditPostScreen(post, c))
    ensures c.PopularPostsScreen? ==>
      r == if settings.preferredDetailsView.ExternalBrowserView? && !settings.alwaysUseSidePanel
           then ExternalBrowser(post, c)
           else PopularPostDetail(post, c.popular, connected)
    ensures c.PostDetail? ==> r == PostDetail(post, c.previousList, c.isConnected)
    ensures c.PopularPostDetail? ==> r == PopularPostDetail(post, c.previousPopular, c.isConnected)
    ensures !c.PostListScreen? && !c.PopularPostsScreen? && !c.PostDetail? && !c.PopularPostDetail? ==> r == c
  {
    match c
    case PostListScreen(l) =>
      var marked := l.(shouldLoad := MarkAsRead(post, settings).shouldLoad);
      if settings.alwaysUseSidePanel || settings.preferredDetailsView.InAppBrowser? then
        PostDetail(post, marked, connected)
      else if settings.preferredDetailsView.ExternalBrowserView? then
        ExternalBrowser(post, PostListScreen(marked))
      else
        EditPostScreen(post, c)
    case PopularPostsScreen(popular) =>
      if settings.preferredDetailsView.ExternalBrowserView? && !settings.alwaysUseSidePanel then
        ExternalBrowser(post, c)
      else
        PopularPostDetail(post, popular, connected)
    case PostDetail(_, l, isConnected) => PostDetail(post, l, isConnected)
    case PopularPostDetail(_, popular, isConnected) => PopularPostDetail(post, popular, isConnected)
    case _ => c
  }

  /** The bookmark `viewPost` writes back as read: only when it opens from the post list, not in the editor. */
  function OpenPostWriteBack(post: Post, c: Content, settings: UserSettings): (w: Option<Post>)
    ensures w.Some? ==> c.PostListScreen? && w == MarkAsRead(post, settings).writeBack
    ensures c.PostListScreen? && (settings.alwaysUseSidePanel || !settings.preferredDetailsView.EditView?) ==>
      w == MarkAsRead(post, settings).writeBack
  {
    if c.PostListScreen? && (settings.alwaysUseSidePanel || !settings.preferredDetailsView.EditView?) then
      MarkAsRead(post, settings).writeBack
    else None
  }

  /** `viewNote`: a note's details over the note list, or another note in the same details screen. */
  function OpenNote(id: string, c: Content, connected: bool): (r: Content)
    ensures c.NoteListScreen? ==> r == NoteDetail(id, Left(connected), c.noteList, connected)
    ensures c.NoteDetail? ==> r == NoteDetail(id, Left(connected), c.previousNotes, connected)
    ensures !c.NoteListScreen? && !c.NoteDetail? ==> r == c
  {
    if c.NoteListScreen? then NoteDetail(id, Left(connected), c.noteList, connected)
    else if c.NoteDetail? then NoteDetail(id, Left(connected), c.previousNotes, connected)
    else c
  }

  /** `runAction`. */
  function RunAction(action: NavigationAction, c: Content, settings: UserSettings, connected: bool): Content {
    match action
    case NavigateBack => Back(c, settings)
    case ViewCategory(category) => Category(category, c, settings, connected)
    case ViewPost(post) => OpenPost(post, c, settings, connected)
    case ViewSearch => OpenOverList(c, (l: PostListContent) => SearchScreen(l.searchParameters, [], [], true, l))
    case AddPost => OpenOverList(c, (l: PostListContent) => AddPostScreen(
        settings.defaultPrivate.OrElse(false), settings.defaultReadLater.OrElse(false), settings.defaultTags, l))
    case ViewTags => OpenOverList(c, (l: PostListContent) => TagList([], connected, l, connected))
    case ViewSavedFilters => OpenOverList(c, (l: PostListContent) => SavedFilters(l))
    case ViewNotes => OpenOverList(c, (l: PostListContent) => NoteListScreen(NoteListContent([], connected, l, connected)))
    case ViewNote(id) => OpenNote(id, c, connected)
    case ViewPopular => OpenOverList(c, (l: PostListContent) => PopularPostsScreen(PopularPostsContent([], connected, l, connected)))
    case ViewPreferences => OpenOverList(c, (l: PostListContent) => UserPreferences(l))
  }

  /** The actions that open a screen over the post list. */
  predicate OpensOverList(action: NavigationAction) {
    action.ViewSearch? || action.AddPost? || action.ViewTags? || action.ViewSavedFilters?
      || action.ViewNotes? || action.ViewPopular? || action.ViewPreferences?
  }

  // Properties

  /** Going back always shortens the history, unless there is none left. */
  lemma BackShortensHistory(c: Content, settings: UserSettings)
    requires HasHistory(c)
    ensures Depth(Back(c, settings)) < Depth(c)
  {
  }

  /**
   * Opening a screen over the post list and going back lands on that list,
   * also when the screen was opened from a post's details; leaving the
   * preferences re-reads only the description setting.
   */
  lemma BackUndoesOpenOverList(action: NavigationAction, c: Content, settings: UserSettings, connected: bool)
    requires OpensOverList(action)
    requires ListOf(c).Some?
    ensures var l := ListOf(c).value;
      Back(RunAction(action, c, settings, connected), settings) ==
        PostListScreen(if action.ViewPreferences? then l.(showDescription := settings.showDescriptionInLists) else l)
  {
  }

  /** Screens that neither are nor sit on a post list ignore the actions that open over one. */
  lemma OpenOverListIgnoresOtherScreens(action: NavigationAction, c: Content, settings: UserSettings, connected: bool)
    requires OpensOverList(action)
    requires ListOf(c).None?
    ensures RunAction(action, c, settings, connected) == c
  {
  }

  /** The tag list, note list and popular posts load exactly when the device is connected. */
  lemma ListsLoadOnlyWhenConnected(c: Content, settings: UserSettings, connected: bool)
    requires ListOf(c).Some?
    ensures RunAction(ViewTags, c, settings, connected).shouldLoad == connected
    ensures RunAction(ViewNotes, c, settings, connected).noteList.shouldLoad == connected
    ensures RunAction(ViewPopular, c, settings, connected).popular.shouldLoad == connected
  {
  }

  /** Going back from a note's details, however many notes were opened in it, returns to the note list. */
  lemma BackFromNoteReturnsToNotes(id: string, c: Content, settings: UserSettings, connected: bool)
    requires c.NoteListScreen? || c.NoteDetail?
    ensures Back(OpenNote(id, c, connected), settings) ==
      NoteListScreen(if c.NoteListScreen? then c.noteList else c.previousNotes)
  {
  }

  /** The list under an opened bookmark's details reloads exactly when the bookmark is written back as read. */
  lemma ReloadIffWriteBack(post: Post, c: Content, settings: UserSettings, connected: bool)
    requires c.PostListScreen?
    requires settings.alwaysUseSidePanel || settings.preferredDetailsView.InAppBrowser?
    ensures var r := OpenPost(post, c, settings, connected);
      r.PostDetail?
      && (r.previousList.shouldLoad == ShouldLoadFirstPage <==> OpenPostWriteBack(post, c, settings).Some?)
  {
  }

  /** A new category always starts from the first page, unfiltered, newest first. */
  lemma CategoryResetsList(category: ViewCategory, c: Content, settings: UserSettings, connected: bool)
    ensures var r := RunAction(ViewCategory(category), c, settings, connected);
      r.PostListScreen? && r.list.shouldLoad == ShouldLoadFirstPage && r.list.searchParameters == EmptySearch
      && Depth(r) == 1
  {
  }
}

=== FILE: nullable.dfy ===
/** Kotlin's nullable types `T?`, as an explicit option. */
module Nullable {

  datatype Option<+T> = None | Some(value: T) {

    /** `this ?: default` */
    function OrElse(default: T): (r: T)
      ensures Some? ==> r == value
      ensures None? ==> r == default
    {
      match this
      case Some(v) => v
      case None => default
    }
  }

  /** Kotlin's `b == true` on a `Boolean?`: a missing value counts as false. */
  predicate IsTrue(b: Option<bool>) {
    b == Some(true)
  }
}

=== FILE: ordering.dfy ===
/**
 * Kotlin's `sorted`, `sortedBy` and `sortedByDescending`: a STABLE sort of a
 * list under an ordering, modelled as an insertion sort. Its three promises
 * are proved here once for every ordering that is a total preorder: the
 * result is sorted, is a permutation of the input, and keeps elements the
 * ordering cannot tell apart in their original order.
 */
module Ordering {

  ghost predicate TotalPreorder<T(!new)>(le: (T, T) -> bool) {
    && (forall a, b :: le(a, b) || le(b, a))
    && (forall a, b, c :: le(a, b) && le(b, c) ==> le(a, c))
  }

  ghost predicate SortedBy<T>(s: seq<T>, le: (T, T) -> bool) {
    forall i, j | 0 <= i < j < |s| :: le(s[i], s[j])
  }

  predicate Equivalent<T>(le: (T, T) -> bool, a: T, b: T) {
    le(a, b) && le(b, a)
  }

  /** Places `x` before the first element it does not exceed. */
  function Insert<T>(x: T, s: seq<T>, le: (T, T) -> bool): (r: seq<T>)
    ensures |r| == |s| + 1
    ensures multiset(r) == multiset(s) + multiset{x}
    decreases |s|
  {
    if |s| == 0 then [x]
    else if le(x, s[0]) then [x] + s
    else
      assert s == [s[0]] + s[1..];
      [s[0]] + Insert(x, s[1..], le)
  }

  /** The stable sort of `s` under `le`. */
  function SortBy<T>(s: seq<T>, le: (T, T) -> bool): (r: seq<T>)
    ensures |r| == |s|
    ensures multiset(r) == multiset(s)
    decreases |s|
  {
    if |s| == 0 then []
    else
      assert s == [s[0]] + s[1..];
      Insert(s[0], SortBy(s[1..], le), le)
  }

  /** The elements of `s` equivalent to `x`, in their order in `s`. */
  function EquivalentsOf<T>(s: seq<T>, x: T, le: (T, T) -> bool): seq<T>
    decreases |s|
  {
    if |s| == 0 then []
    else (if Equivalent(le, x, s[0]) then [s[0]] else []) + EquivalentsOf(s[1..], x, le)
  }

  lemma {:induction false} InsertSorted<T(!new)>(x: T, s: seq<T>, le: (T, T) -> bool)
    requires TotalPreorder(le)
    requires SortedBy(s, le)
    ensures SortedBy(Insert(x, s, le), le)
    decreases |s|
  {
    if |s| > 0 && !le(x, s[0]) {
      InsertSorted(x, s[1..], le);
      var r := Insert(x, s, le);
      var t := Insert(x, s[1..], le);
      assert r == [s[0]] + t;
      assert le(s[0], x);
      forall j | 0 <= j < |t| ensures le(s[0], t[j]) {
        assert t[j] in multiset(s[1..]) + multiset{x} by {
          assert t[j] in multiset(t);
        }
        if t[j] != x {
          assert t[j] in s[1..];
        }
      }
    }
  }

  /** The result of the sort is sorted. */
  lemma {:induction false} SortBySorted<T(!new)>(s: seq<T>, le: (T, T) -> bool)
    requires TotalPreorder(le)
    ensures SortedBy(SortBy(s, le), le)
    decreases |s|
  {
    if |s| > 0 {
      SortBySorted(s[1..], le);
      InsertSorted(s[0], SortBy(s[1..], le), le);
    }
  }

  lemma {:induction false} EquivalentsOfAppend<T>(a: seq<T>, b: seq<T>, x: T, le: (T, T) -> bool)
    ensures EquivalentsOf(a + b, x, le) == EquivalentsOf(a, x, le) + EquivalentsOf(b, x, le)
    decreases |a|
  {
    if |a| > 0 {
      var head := if Equivalent(le, x, a[0]) then [a[0]] else [];
      assert (a + b)[0] == a[0];
      assert (a + b)[1..] == a[1..] + b;
      EquivalentsOfAppend(a[1..], b, x, le);
      calc {
        EquivalentsOf(a + b, x, le);
        head + EquivalentsOf(a[1..] + b, x, le);
        head + (EquivalentsOf(a[1..], x, le) + EquivalentsOf(b, x, le));
        (head + EquivalentsOf(a[1..], x, le)) + EquivalentsOf(b, x, le);
      }
    } else {
      assert a + b == b;
    }
  }

  lemma {:induction false} InsertEquivalents<T(!new)>(y: T, s: seq<T>, x: T, le: (T, T) -> bool)
    requires TotalPreorder(le)
    ensures EquivalentsOf(Insert(y, s, le), x, le)
         == (if Equivalent(le, x, y) then [y] else []) + EquivalentsOf(s, x, le)
    decreases |s|
  {
    if |s| == 0 {
      assert Insert(y, s, le) == [y];
    } else if le(y, s[0]) {
      EquivalentsOfAppend([y], s, x, le);
    } else {
      InsertEquivalents(y, s[1..], x, le);
      var r := Insert(y, s, le);
      var head := if Equivalent(le, x, s[0]) then [s[0]] else [];
      var mine := if Equivalent(le, x, y) then [y] else [];
      var rest := EquivalentsOf(s[1..], x, le);
      assert r[0] == s[0] && r[1..] == Insert(y, s[1..], le);
      assert EquivalentsOf(r, x, le) == head + (mine + rest);
      // Both cannot be equivalent to x, or y would not exceed s[0].
      if Equivalent(le, x, y) && Equivalent(le, x, s[0]) {
        assert false;
      }
      assert EquivalentsOf(s, x, le) == head + rest;
    }
  }

  /** Stability: for every `x`, the elements equivalent to `x` keep their relative order. */
  lemma {:induction false} SortByStable<T(!new)>(s: seq<T>, x: T, le: (T, T) -> bool)
    requires TotalPreorder(le)
    ensures EquivalentsOf(SortBy(s, le), x, le) == EquivalentsOf(s, x, le)
    decreases |s|
  {
    if |s| > 0 {
      SortByStable(s[1..], x, le);
      InsertEquivalents(s[0], SortBy(s[1..], le), x, le);
    }
  }

  /** When no two distinct elements of a list are equivalent, its sorted permutation is unique. */
  lemma {:induction false} SortedPermutationUnique<T(!new)>(a: seq<T>, b: seq<T>, le: (T, T) -> bool)
    requires TotalPreorder(le)
    requires forall x, y | x in a && y in a :: le(x, y) && le(y, x) ==> x == y
    requires SortedBy(a, le) && SortedBy(b, le)
    requires multiset(a) == multiset(b)
    ensures a == b
    decreases |a|
  {
    if |a| > 0 {
      assert |b| == |multiset(b)| == |a|;
      SortedPermutationHead(a, b, le);
      TailsArePermutations(a, b);
      assert forall x | x in a[1..] :: x in a;
      assert SortedBy(a[1..], le) && SortedBy(b[1..], le);
      SortedPermutationUnique(a[1..], b[1..], le);
    }
  }

  /** Two permutations with the same head have permuted tails. */
  lemma TailsArePermutations<T>(a: seq<T>, b: seq<T>)
    requires |a| > 0 && |b| > 0 && a[0] == b[0]
    requires multiset(a) == multiset(b)
    ensures multiset(a[1..]) == multiset(b[1..])
  {
    assert a == [a[0]] + a[1..] && b == [b[0]] + b[1..];
    assert multiset(a) == multiset{a[0]} + multiset(a[1..]);
    assert multiset(b) == multiset{b[0]} + multiset(b[1..]);
    forall e ensures multiset(a[1..])[e] == multiset(b[1..])[e] {
      assert multiset(a)[e] == multiset(b)[e];
    }
  }

  /** Two sorted permutations of such a list start with the same element. */
  lemma SortedPermutationHead<T(!new)>(a: seq<T>, b: seq<T>, le: (T, T) -> bool)
    requires TotalPreorder(le)
    requires forall x, y | x in a && y in a :: le(x, y) && le(y, x) ==> x == y
    requires SortedBy(a, le) && SortedBy(b, le)
    requires multiset(a) == multiset(b)
    requires |a| > 0
    ensures |b| > 0 && a[0] == b[0]
  {
    assert |b| == |multiset(b)| == |a|;
    assert a[0] in multiset(b) && b[0] in multiset(a);
    var k :| 0 <= k < |b| && b[k] == a[0];
    var m :| 0 <= m < |a| && a[m] == b[0];
    assert le(b[0], a[0]) by {
      if k > 0 { assert le(b[0], b[k]); }
    }
    assert le(a[0], b[0]) by {
      if m > 0 { assert le(a[0], a[m]); }
    }
  }

  /** Sorting a list that is already sorted gives it back unchanged. */
  lemma {:induction false} SortByOfSorted<T>(s: seq<T>, le: (T, T) -> bool)
    requires SortedBy(s, le)
    ensures SortBy(s, le) == s
    decreases |s|
  {
    if |s| > 0 {
      assert SortedBy(s[1..], le);
      SortByOfSorted(s[1..], le);
      if |s| > 1 {
        assert le(s[0], s[1..][0]);
      }
      assert s == [s[0]] + s[1..];
    }
  }
}

=== FILE: paging.dfy ===
/**
 * `PagingHandler` of core/android/recyclerview/PagingRecyclerView.kt: the
 * decision whether a scrolled list should ask for its next page.
 *
 * The handler's three private fields become an immutable record and every
 * setter returns the updated record. Kotlin `Int` is 32 bits wide, so the
 * subtraction in the paging test wraps around and `%` truncates toward zero;
 * both are written out below.
 */
module Paging {

  type Int32 = x: int | -0x8000_0000 <= x < 0x8000_0000

  const TWO_32: int := 0x1_0000_0000

  /** Kotlin `a - b` on `Int`: the mathematical difference reduced into 32 bits. */
  function Minus(a: Int32, b: Int32): (r: Int32)
    ensures -0x8000_0000 <= a - b < 0x8000_0000 ==> r == a - b
    ensures a - b >= 0x8000_0000 ==> r == a - b - TWO_32
    ensures a - b < -0x8000_0000 ==> r == a - b + TWO_32
  {
    var m := (a - b) % TWO_32;
    if m >= 0x8000_0000 then m - TWO_32 else m
  }

  /**
   * Kotlin `a % b` on `Int` for a positive divisor (the only kind the handler
   * divides by): the remainder takes the sign of the dividend.
   */
  function Rem(a: Int32, b: Int32): (r: int)
    requires b > 0
    ensures r == 0 <==> a % b == 0
    ensures a >= 0 ==> r == a % b
    ensures a < 0 ==> -b < r <= 0
  {
    if a >= 0 then a % b
    else
      var na: int := 0 - a;
      NegationKeepsDivisibility(a, b);
      -(na % b)
  }

  lemma ProductBounds(m: int, c: int)
    requires c > 0
    ensures m >= 1 ==> m * c >= c
    ensures m <= -1 ==> m * c <= -c
  {
    if m >= 1 { assert m * c == (m - 1) * c + c; assert (m - 1) * c >= 0; }
    if m <= -1 { assert m * c == (m + 1) * c - c; assert (m + 1) * c <= 0; }
  }

  lemma SmallMultipleIsZero(m: int, c: int)
    requires c > 0 && 0 <= m * c < c
    ensures m == 0
  {
    ProductBounds(m, c);
  }

  lemma MultipleHasNoRemainder(x: int, c: int, k: int)
    requires c > 0 && x == k * c
    ensures x % c == 0
  {
    var q, r := x / c, x % c;
    assert x == q * c + r && 0 <= r < c;
    assert (k - q) * c == r;
    SmallMultipleIsZero(k - q, c);
  }

  lemma NegationKeepsDivisibility(a: int, c: int)
    requires c > 0
    ensures a % c == 0 <==> (0 - a) % c == 0
  {
    if a % c == 0 {
      assert a == (a / c) * c;
      MultipleHasNoRemainder(0 - a, c, -(a / c));
    }
    if (0 - a) % c == 0 {
      assert 0 - a == ((0 - a) / c) * c;
      MultipleHasNoRemainder(a, c, -((0 - a) / c));
    }
  }

  datatype PagingHandler = PagingHandler(
    requestingNextPage: bool,
    pageSize: Int32,
    minDistanceToLastItem: Int32)

  /** A freshly constructed handler. */
  const Initial: PagingHandler := PagingHandler(false, 0, 0)

  /** The invariant every handler keeps: neither bound is ever negative. */
  predicate Valid(h: PagingHandler) {
    h.pageSize >= 0 && h.minDistanceToLastItem >= 0
  }

  function SetRequestingNextPage(h: PagingHandler, requesting: bool): (r: PagingHandler)
    ensures r.requestingNextPage == requesting
    ensures r.pageSize == h.pageSize && r.minDistanceToLastItem == h.minDistanceToLastItem
  {
    h.(requestingNextPage := requesting)
  }

  /** A page size that is not positive is ignored. */
  function SetPageSize(h: PagingHandler, pageSize: Int32): (r: PagingHandler)
    ensures Valid(h) ==> Valid(r)
    ensures pageSize <= 0 ==> r == h
    ensures pageSize > 0 ==> r.pageSize == pageSize
    ensures r.requestingNextPage == h.requestingNextPage
    ensures r.minDistanceToLastItem == h.minDistanceToLastItem
  {
    if pageSize > 0 then h.(pageSize := pageSize) else h
  }

  /** A distance that is not positive is ignored. */
  function SetMinDistanceToLastItem(h: PagingHandler, distance: Int32): (r: PagingHandler)
    ensures Valid(h) ==> Valid(r)
    ensures distance <= 0 ==> r == h
    ensures distance > 0 ==> r.minDistanceToLastItem == distance
    ensures r.requestingNextPage == h.requestingNextPage
    ensures r.pageSize == h.pageSize
  {
    if distance > 0 then h.(minDistanceToLastItem := distance) else h
  }

  /** A call a caller can make on the handler. */
  datatype Call =
    | RequestingNextPage(requesting: bool)
    | PageSize(pageSize: Int32)
    | MinDistanceToLastItem(distance: Int32)

  function Apply(h: PagingHandler, call: Call): PagingHandler {
    match call
    case RequestingNextPage(b) => SetRequestingNextPage(h, b)
    case PageSize(n) => SetPageSize(h, n)
    case MinDistanceToLastItem(d) => SetMinDistanceToLastItem(h, d)
  }

  function Run(h: PagingHandler, calls: seq<Call>): PagingHandler
    decreases |calls|
  {
    if |calls| == 0 then h else Run(Apply(h, calls[0]), calls[1..])
  }

  /** Whatever the callers do, a handler never holds a negative bound. */
  lemma {:induction false} RunKeepsValid(h: PagingHandler, calls: seq<Call>)
    requires Valid(h)
    ensures Valid(Run(h, calls))
    decreases |calls|
  {
    if |calls| > 0 {
      RunKeepsValid(Apply(h, calls[0]), calls[1..]);
    }
  }

  lemma ReachableHandlersAreValid(calls: seq<Call>)
    ensures Valid(Run(Initial, calls))
  {
    RunKeepsValid(Initial, calls);
  }

  /**
   * `shouldHandlePaging`: a page size and a distance are configured, the list
   * holds a non-zero whole number of pages, the first visible item is closer
   * than the distance to the end, and no page request is in flight. The
   * if-and-only-if covers every position a list reports, including -1 when
   * no item is laid out, as long as the 32-bit difference does not wrap.
   */
  function ShouldHandlePaging(h: PagingHandler, itemCount: Int32, firstVisibleItemPosition: Int32): (r: bool)
    ensures h.pageSize <= 0 || h.minDistanceToLastItem <= 0 || itemCount == 0 ==> !r
    ensures h.requestingNextPage ==> !r
    ensures h.pageSize > 0 && itemCount % h.pageSize != 0 ==> !r
    ensures 0 <= itemCount
            && (0 <= firstVisibleItemPosition || (firstVisibleItemPosition == -1 && itemCount < 0x7FFF_FFFF)) ==>
      (r <==> h.pageSize > 0 && h.minDistanceToLastItem > 0 && itemCount > 0
              && itemCount % h.pageSize == 0
              && itemCount - firstVisibleItemPosition < h.minDistanceToLastItem
              && !h.requestingNextPage)
  {
    && h.pageSize > 0
    && h.minDistanceToLastItem > 0
    && itemCount != 0
    && Rem(itemCount, h.pageSize) == 0
    && Minus(itemCount, firstVisibleItemPosition) < h.minDistanceToLastItem
    && !h.requestingNextPage
  }

  /** A fresh handler never pages until both bounds have been set. */
  lemma FreshHandlerNeverPages(itemCount: Int32, firstVisible: Int32)
    ensures !ShouldHandlePaging(Initial, itemCount, firstVisible)
  {
  }

  /**
   * Marking a request in flight switches paging off, and clearing the flag
   * restores the previous answer.
   */
  lemma RequestingFlagGatesPaging(h: PagingHandler, itemCount: Int32, firstVisible: Int32)
    ensures !ShouldHandlePaging(SetRequestingNextPage(h, true), itemCount, firstVisible)
    ensures !h.requestingNextPage ==>
      ShouldHandlePaging(SetRequestingNextPage(SetRequestingNextPage(h, true), false), itemCount, firstVisible)
      == ShouldHandlePaging(h, itemCount, firstVisible)
  {
  }

  /**
   * With a first visible position of -1 (no item laid out) and the largest
   * item count, the 32-bit difference wraps to a negative number, so the
   * distance test passes although the list end is out of reach.
   */
  lemma WrapAroundAtLargestCount()
    ensures Minus(0x7FFF_FFFF, -1) == -0x8000_0000
    ensures Minus(0x7FFF_FFFF, -1) < 1
  {
  }
}

=== FILE: pinboard_posts.dfy ===
/**
 * The offline bookkeeping and tag suggestions of the Pinboard posts
 * repository (app/.../posts/data/PostsDataSourcePinboardApi.kt):
 * `addPostLocal`, `deletePostLocal`, `savePosts`, the `canPaginate` flag of
 * `getLocalData`, and `searchExistingPostTag`.
 *
 * The `Posts` table is a list of rows in insertion order whose primary key
 * is `hash`; what the DAO's queries return is computed from it or, for the
 * full-text queries, given as a parameter. `containsHtmlChars`,
 * `replaceHtmlChars`, the URL decoder and the date formatter are parameters.
 */
module PinboardPosts {
  import opened Nullable
  import opened Either
  import opened Text
  import opened Ordering
  import opened Lists
  import opened Names
  import opened Domain
  import opened StoredPost
  import opened PostDtoMapping
  import opened TagsViewModel
  import opened TagsData

  // ---------------------------------------------------------------------
  // The table
  // ---------------------------------------------------------------------

  type Table = seq<PostDto>

  /** The primary key holds: no two rows share a `hash`. */
  predicate UniqueHashes(t: Table) {
    forall i, j | 0 <= i < j < |t| :: t[i].hash != t[j].hash
  }

  /** No two rows share a URL (the table does not enforce it; the app keeps it so). */
  predicate UniqueHrefs(t: Table) {
    forall i, j | 0 <= i < j < |t| :: t[i].href != t[j].href
  }

  /** `getPost(url)`: `select * from Posts where href = :url`, the first matching row. */
  function FindByUrl(t: Table, url: string): (r: Option<PostDto>)
    ensures r.Some? ==> r.value in t && r.value.href == url
    ensures r.None? <==> forall d | d in t :: d.href != url
    decreases |t|
  {
    if |t| == 0 then None
    else if t[0].href == url then Some(t[0])
    else
      assert forall d | d in t[1..] :: d in t;
      assert forall d | d in t :: d == t[0] || d in t[1..];
      FindByUrl(t[1..], url)
  }

  /** The rows whose key is not `hash`, in order. */
  function WithoutHash(t: Table, hash: string): (r: Table)
    ensures forall d :: d in r <==> d in t && d.hash != hash
    ensures UniqueHashes(t) ==> UniqueHashes(r)
    decreases |t|
  {
    if |t| == 0 then []
    else
      var rest := WithoutHash(t[1..], hash);
      assert forall d | d in t[1..] :: d in t;
      assert forall d | d in t :: d == t[0] || d in t[1..];
      if t[0].hash == hash then
        assert UniqueHashes(t) ==> UniqueHashes(t[1..]);
        rest
      else
        assert UniqueHashes(t) ==> UniqueHashes(rest) && forall d | d in rest :: d.hash != t[0].hash by {
          if UniqueHashes(t) {
            assert UniqueHashes(t[1..]);
            TailKeysDiffer(t);
          }
        }
        ConsKeepsHashesUnique(t[0], rest);
        [t[0]] + rest
  }

  lemma TailKeysDiffer(t: Table)
    requires |t| > 0 && UniqueHashes(t)
    ensures forall d | d in t[1..] :: d.hash != t[0].hash
  {
    forall d | d in t[1..] ensures d.hash != t[0].hash {
      var k :| 0 <= k < |t[1..]| && t[1..][k] == d;
      assert t[k + 1] == d;
    }
  }

  lemma ConsKeepsHashesUnique(x: PostDto, rest: Table)
    ensures UniqueHashes(rest) && (forall d | d in rest :: d.hash != x.hash) ==> UniqueHashes([x] + rest)
  {
    if UniqueHashes(rest) && (forall d | d in rest :: d.hash != x.hash) {
      var s := [x] + rest;
      forall i, j | 0 <= i < j < |s| ensures s[i].hash != s[j].hash {
        assert s[j] == rest[j - 1];
        if i > 0 {
          assert s[i] == rest[i - 1];
        } else {
          assert rest[j - 1] in rest;
        }
      }
    }
  }

  /** `@Insert(onConflict = REPLACE)` of one row: a row with the same key is replaced. */
  function Upsert(t: Table, row: PostDto): (r: Table)
    ensures forall d :: d in r <==> d == row || (d in t && d.hash != row.hash)
    ensures UniqueHashes(t) ==> UniqueHashes(r)
  {
    WithoutHash(t, row.hash) + [row]
  }

  /** No later row of `rows` has the key of `rows[i]`. */
  predicate LastWithKey(rows: seq<PostDto>, i: int)
    requires 0 <= i < |rows|
  {
    forall j | i < j < |rows| :: rows[j].hash != rows[i].hash
  }

  /** No row of `rows` has the key of `d`. */
  predicate KeyNotIn(rows: seq<PostDto>, d: PostDto) {
    forall x | x in rows :: x.hash != d.hash
  }

  /** `@Insert(onConflict = REPLACE)` of a list: one row after the other. */
  function UpsertAll(t: Table, rows: seq<PostDto>): (r: Table)
    ensures forall d | d in r :: d in t || d in rows
    ensures |rows| > 0 ==> rows[|rows| - 1] in r
    ensures UniqueHashes(t) ==> UniqueHashes(r)
    decreases |rows|
  {
    if |rows| == 0 then t
    else
      var prefix := rows[..|rows| - 1];
      assert forall d | d in prefix :: d in rows;
      Upsert(UpsertAll(t, prefix), rows[|rows| - 1])
  }

  /** A list upsert keeps a row of the list unless a later row of the list has its key. */
  lemma {:induction false} UpsertAllKeepsLastOfKey(t: Table, rows: seq<PostDto>, i: int)
    requires 0 <= i < |rows| && LastWithKey(rows, i)
    ensures rows[i] in UpsertAll(t, rows)
    decreases |rows|
  {
    var prefix := rows[..|rows| - 1];
    var last := rows[|rows| - 1];
    if i < |prefix| {
      assert prefix[i] == rows[i];
      assert LastWithKey(prefix, i);
      UpsertAllKeepsLastOfKey(t, prefix, i);
      assert last.hash != rows[i].hash;
      assert UpsertAll(t, rows) == Upsert(UpsertAll(t, prefix), last);
    }
  }

  /** A list upsert keeps a stored row unless some row of the list has its key. */
  lemma {:induction false} UpsertAllKeepsOthers(t: Table, rows: seq<PostDto>, d: PostDto)
    requires d in t && KeyNotIn(rows, d)
    ensures d in UpsertAll(t, rows)
    decreases |rows|
  {
    if |rows| > 0 {
      var prefix := rows[..|rows| - 1];
      var last := rows[|rows| - 1];
      assert KeyNotIn(prefix, d) by {
        assert forall x | x in prefix :: x in rows;
      }
      UpsertAllKeepsOthers(t, prefix, d);
      assert last in rows;
      assert UpsertAll(t, rows) == Upsert(UpsertAll(t, prefix), last);
    }
  }

  // ---------------------------------------------------------------------
  // Offline add and delete
  // ---------------------------------------------------------------------

  /** The row `addPostLocal` writes for `post`, given the row already stored under its URL. */
  function LocalRow(existing: Option<PostDto>, post: Post): (row: PostDto)
    ensures existing.None? ==> row.pendingSync == Some(AddDto)
    ensures existing.Some? ==> row.pendingSync == Some(existing.value.pendingSync.OrElse(UpdateDto))
    ensures existing.Some? ==> row.href == existing.value.href && row.hash == existing.value.hash && row.time == existing.value.time
    ensures existing.None? ==> row.href == post.url && row.hash == post.id && row.time == post.time
    ensures row.description == Some(post.title) && row.extended == Some(post.description)
    ensures row.shared == LITERAL_NO <==> IsTrue(post.private)
    ensures row.toread == LITERAL_YES <==> IsTrue(post.readLater)
    ensures row.tags == FormatTags(post.tags.OrElse([]))
  {
    assert LITERAL_YES != LITERAL_NO by { assert LITERAL_YES[0] != LITERAL_NO[0]; }
    PostDto(
      if existing.Some? then existing.value.href else post.url,
      Some(post.title),
      Some(post.description),
      if existing.Some? then existing.value.hash else post.id,
      if existing.Some? then existing.value.time else post.time,
      if IsTrue(post.private) then LITERAL_NO else LITERAL_YES,
      if IsTrue(post.readLater) then LITERAL_YES else LITERAL_NO,
      FormatTags(post.tags.OrElse([])),
      if existing.Some? then Some(existing.value.pendingSync.OrElse(UpdateDto)) else Some(AddDto))
  }

  /**
   * `addPostLocal`: the post is saved as a row marked for sync and returned
   * as read back through the mapper; a stored row keeps its URL, key and
   * time and its pending mark, if any. The body runs inside `resultFrom`:
   * `lookupFailure` and `saveFailure` are what the DAO's `getPost` and
   * `savePosts` throw, if anything, and a throw becomes the Failure with
   * the table unchanged.
   */
  function AddPostLocal(
    t: Table,
    post: Post,
    lookupFailure: Option<Throwable>,
    saveFailure: Option<Throwable>,
    decode: string -> string,
    formatTime: string -> string,
    replaceHtmlChars: string -> string): (out: (Result<Post>, Table))
    ensures lookupFailure.Some? ==> out == (Left(lookupFailure.value), t)
    ensures lookupFailure.None? && saveFailure.Some? ==> out == (Left(saveFailure.value), t)
    ensures lookupFailure.None? && saveFailure.None? ==>
      var row := LocalRow(FindByUrl(t, post.url), post);
      && out.0 == Right(PostDtoMapping.Map(row, decode, formatTime, replaceHtmlChars))
      && row in out.1
      && (forall d | d in t && d.hash != row.hash :: d in out.1)
      && (forall d | d in out.1 :: d == row || (d in t && d.hash != row.hash))
    ensures UniqueHashes(t) ==> UniqueHashes(out.1)
  {
    if lookupFailure.Some? then (Left(lookupFailure.value), t)
    else
      var row := LocalRow(FindByUrl(t, post.url), post);
      if saveFailure.Some? then (Left(saveFailure.value), t)
      else (Right(PostDtoMapping.Map(row, decode, formatTime, replaceHtmlChars)), Upsert(t, row))
  }

  /** After an offline add, looking the URL up finds the row just written. */
  lemma AddThenFind(t: Table, post: Post, decode: string -> string, formatTime: string -> string, replaceHtmlChars: string -> string)
    requires UniqueHrefs(t)
    ensures var row := LocalRow(FindByUrl(t, post.url), post);
      FindByUrl(AddPostLocal(t, post, None, None, decode, formatTime, replaceHtmlChars).1, post.url) == Some(row)
  {
    var existing := FindByUrl(t, post.url);
    var row := LocalRow(existing, post);
    var rest := WithoutHash(t, row.hash);
    OnlyRowWithUrl(t, post.url, row.hash);
    FindInLast(rest, row, post.url);
  }

  /** A URL held by no row but the one with the given key is held by no row once that key is removed. */
  lemma OnlyRowWithUrl(t: Table, url: string, hash: string)
    requires UniqueHrefs(t)
    requires FindByUrl(t, url).Some? ==> FindByUrl(t, url).value.hash == hash
    ensures forall d | d in WithoutHash(t, hash) :: d.href != url
  {
    forall d | d in WithoutHash(t, hash) ensures d.href != url {
      var e := FindByUrl(t, url);
      if e.Some? {
        var i :| 0 <= i < |t| && t[i] == d;
        var j :| 0 <= j < |t| && t[j] == e.value;
        assert i != j;
      }
    }
  }

  /** Looking up a URL no earlier row holds finds the last row. */
  lemma {:induction false} FindInLast(t: Table, row: PostDto, url: string)
    requires forall d | d in t :: d.href != url
    requires row.href == url
    ensures FindByUrl(t + [row], url) == Some(row)
    decreases |t|
  {
    if |t| > 0 {
      assert (t + [row])[1..] == t[1..] + [row];
      assert forall d | d in t[1..] :: d in t;
      FindInLast(t[1..], row, url);
    }
  }

  /** Adding a new URL twice offline keeps it marked as an addition. */
  lemma AddTwiceStaysAdded(
    t: Table,
    first: Post,
    second: Post,
    decode: string -> string,
    formatTime: string -> string,
    replaceHtmlChars: string -> string)
    requires FindByUrl(t, first.url).None?
    requires second.url == first.url
    ensures var t1 := AddPostLocal(t, first, None, None, decode, formatTime, replaceHtmlChars).1;
      var t2 := AddPostLocal(t1, second, None, None, decode, formatTime, replaceHtmlChars).1;
      FindByUrl(t2, first.url).Some? && FindByUrl(t2, first.url).value.pendingSync == Some(AddDto)
  {
    var row := LocalRow(None, first);
    var t1 := AddPostLocal(t, first, None, None, decode, formatTime, replaceHtmlChars).1;
    FindInLast(WithoutHash(t, row.hash), row, first.url);
    assert FindByUrl(t1, first.url) == Some(row);
    var row2 := LocalRow(Some(row), second);
    var t2 := AddPostLocal(t1, second, None, None, decode, formatTime, replaceHtmlChars).1;
    assert row2.hash == row.hash;
    assert forall d | d in WithoutHash(t1, row2.hash) :: d.href != first.url;
    FindInLast(WithoutHash(t1, row2.hash), row2, first.url);
  }

  /** The message of the exception `deletePostLocal` throws for an unknown URL. */
  function NotStoredMessage(url: string): string {
    "Can't delete post with url: " + url + ". It doesn't exist locally."
  }

  /**
   * `deletePostLocal`: fails when no row holds the URL; otherwise the row is
   * saved again marked for deletion, and nothing else changes. Inside
   * `resultFrom`, a throw of the DAO's `getPost` (`lookupFailure`) or
   * `savePosts` (`saveFailure`) becomes the Failure, with the table unchanged.
   */
  function DeletePostLocal(t: Table, url: string, lookupFailure: Option<Throwable>, saveFailure: Option<Throwable>): (out: (Result<()>, Table))
    ensures lookupFailure.Some? ==> out == (Left(lookupFailure.value), t)
    ensures lookupFailure.None? && FindByUrl(t, url).None? ==> out == (Left(IllegalState(NotStoredMessage(url))), t)
    ensures lookupFailure.None? && FindByUrl(t, url).Some? && saveFailure.Some? ==> out == (Left(saveFailure.value), t)
    ensures lookupFailure.None? && FindByUrl(t, url).Some? && saveFailure.None? ==>
      var row := FindByUrl(t, url).value;
      && out.0 == Right(())
      && row.(pendingSync := Some(DeleteDto)) in out.1
      && forall d | d in out.1 :: d == row.(pendingSync := Some(DeleteDto)) || (d in t && d.hash != row.hash)
    ensures UniqueHashes(t) ==> UniqueHashes(out.1)
  {
    if lookupFailure.Some? then (Left(lookupFailure.value), t)
    else
      match FindByUrl(t, url)
      case None => (Left(IllegalState(NotStoredMessage(url))), t)
      case Some(row) =>
        if saveFailure.Some? then (Left(saveFailure.value), t)
        else (Right(()), Upsert(t, row.(pendingSync := Some(DeleteDto))))
  }

  /** After an offline delete, looking the URL up finds the row marked for deletion. */
  lemma DeleteThenFind(t: Table, url: string)
    requires UniqueHrefs(t)
    requires FindByUrl(t, url).Some?
    ensures FindByUrl(DeletePostLocal(t, url, None, None).1, url) == Some(FindByUrl(t, url).value.(pendingSync := Some(DeleteDto)))
  {
    var row := FindByUrl(t, url).value;
    OnlyRowWithUrl(t, url, row.hash);
    FindInLast(WithoutHash(t, row.hash), row.(pendingSync := Some(DeleteDto)), url);
  }

  /**
   * A bookmark deleted offline and then saved again offline stays marked for
   * deletion: the add keeps whatever mark the stored row has.
   */
  lemma DeleteThenAddStaysDeleted(
    t: Table,
    post: Post,
    decode: string -> string,
    formatTime: string -> string,
    replaceHtmlChars: string -> string)
    requires UniqueHrefs(t)
    requires FindByUrl(t, post.url).Some?
    ensures var t1 := DeletePostLocal(t, post.url, None, None).1;
      var t2 := AddPostLocal(t1, post, None, None, decode, formatTime, replaceHtmlChars).1;
      FindByUrl(t2, post.url).Some? && FindByUrl(t2, post.url).value.pendingSync == Some(DeleteDto)
  {
    var row := FindByUrl(t, post.url).value;
    var marked := row.(pendingSync := Some(DeleteDto));
    var t1 := DeletePostLocal(t, post.url, None, None).1;
    OnlyRowWithUrl(t, post.url, row.hash);
    FindInLast(WithoutHash(t, row.hash), marked, post.url);
    assert FindByUrl(t1, post.url) == Some(marked);
    var row2 := LocalRow(Some(marked), post);
    assert forall d | d in WithoutHash(t1, row2.hash) :: d.href != post.url;
    FindInLast(WithoutHash(t1, row2.hash), row2, post.url);
  }

  // ---------------------------------------------------------------------
  // Saving downloaded rows
  // ---------------------------------------------------------------------

  /** Whether `pat` occurs in `s`. */
  predicate Contains(s: string, pat: string)
    decreases |s|
  {
    pat <= s || (|s| > 0 && Contains(s[1..], pat))
  }

  /** `replace("%20", " ")`. */
  function DecodeSpaces(s: string): string {
    ReplaceAll(s, "%20", " ")
  }

  /** The first character of a decoded string. */
  lemma DecodedHead(s: string)
    requires |s| > 0
    ensures |DecodeSpaces(s)| > 0
    ensures DecodeSpaces(s)[0] == (if "%20" <= s then ' ' else s[0])
  {
  }

  /** Decoding leaves no `%20` behind: a decoded space can never complete a new one. */
  lemma {:induction false} NoEncodedSpaceLeft(s: string)
    ensures !Contains(DecodeSpaces(s), "%20")
    decreases |s|
  {
    if |s| > 0 {
      var r := DecodeSpaces(s);
      if "%20" <= s {
        NoEncodedSpaceLeft(s[3..]);
        assert r == " " + DecodeSpaces(s[3..]);
        assert r[1..] == DecodeSpaces(s[3..]);
      } else {
        NoEncodedSpaceLeft(s[1..]);
        assert r == [s[0]] + DecodeSpaces(s[1..]);
        assert r[1..] == DecodeSpaces(s[1..]);
        if |r| >= 3 && r[0] == '%' && r[1] == '2' {
          DecodedHead(s[1..]);
          assert s[1] == '2' && !("%20" <= s[1..]);
          assert DecodeSpaces(s[1..]) == [s[1]] + DecodeSpaces(s[2..]);
          DecodedHead(s[2..]);
          assert r[2] == DecodeSpaces(s[2..])[0];
        }
      }
    }
  }

  /** A string without `%20` decodes to itself. */
  lemma {:induction false} DecodeSpacesOfPlain(s: string)
    requires !Contains(s, "%20")
    ensures DecodeSpaces(s) == s
    decreases |s|
  {
    if |s| > 0 {
      DecodeSpacesOfPlain(s[1..]);
      assert s == [s[0]] + s[1..];
    }
  }

  /**
   * The `map` of `savePosts`: a row with HTML entities in its tags or an
   * encoded space in its URL gets its tags passed through the entity
   * replacement and its spaces decoded; any other row is kept as it is.
   */
  function PrepareRow(row: PostDto, containsHtmlChars: string -> bool, replaceHtmlChars: string -> string): (r: PostDto)
    ensures r == row.(href := r.href, tags := r.tags)
    ensures r.href == DecodeSpaces(row.href) && !Contains(r.href, "%20")
    ensures containsHtmlChars(row.tags) || Contains(row.href, "%20") ==> r.tags == replaceHtmlChars(row.tags)
    ensures !containsHtmlChars(row.tags) && !Contains(row.href, "%20") ==> r == row
  {
    NoEncodedSpaceLeft(row.href);
    if containsHtmlChars(row.tags) || Contains(row.href, "%20") then
      row.(href := DecodeSpaces(row.href), tags := replaceHtmlChars(row.tags))
    else
      DecodeSpacesOfPlain(row.href);
      row
  }

  /** A prepared row whose tags hold no more entities passes the preparation unchanged. */
  lemma PrepareRowIdempotent(row: PostDto, containsHtmlChars: string -> bool, replaceHtmlChars: string -> string)
    requires !containsHtmlChars(PrepareRow(row, containsHtmlChars, replaceHtmlChars).tags)
    ensures var r := PrepareRow(row, containsHtmlChars, replaceHtmlChars);
      PrepareRow(r, containsHtmlChars, replaceHtmlChars) == r
  {
    var r := PrepareRow(row, containsHtmlChars, replaceHtmlChars);
    DecodeSpacesOfPlain(r.href);
  }

  /**
   * `savePosts`: nothing happens for an empty list; otherwise the prepared
   * rows are saved, the last one written stays, and no newly written row
   * holds an encoded space.
   */
  function SavePosts(t: Table, rows: seq<PostDto>, containsHtmlChars: string -> bool, replaceHtmlChars: string -> string): (r: Table)
    ensures |rows| == 0 ==> r == t
    ensures |rows| > 0 ==> PrepareRow(rows[|rows| - 1], containsHtmlChars, replaceHtmlChars) in r
    ensures forall d | d in r && d !in t :: !Contains(d.href, "%20")
    ensures UniqueHashes(t) ==> UniqueHashes(r)
  {
    if |rows| == 0 then t
    else
      var prepared := MapSeq(rows, (row: PostDto) => PrepareRow(row, containsHtmlChars, replaceHtmlChars));
      assert forall d | d in prepared :: !Contains(d.href, "%20");
      UpsertAll(t, prepared)
  }

  /** `savePosts` keeps the prepared form of a row unless a later row of the list has its key. */
  lemma SavePostsKeepsLastOfKey(t: Table, rows: seq<PostDto>, i: int, containsHtmlChars: string -> bool, replaceHtmlChars: string -> string)
    requires 0 <= i < |rows| && LastWithKey(rows, i)
    ensures PrepareRow(rows[i], containsHtmlChars, replaceHtmlChars) in SavePosts(t, rows, containsHtmlChars, replaceHtmlChars)
  {
    var prepared := MapSeq(rows, (row: PostDto) => PrepareRow(row, containsHtmlChars, replaceHtmlChars));
    assert forall j | 0 <= j < |rows| :: prepared[j].hash == rows[j].hash;
    assert LastWithKey(prepared, i);
    UpsertAllKeepsLastOfKey(t, prepared, i);
  }

  /** `savePosts` keeps a stored row unless some row of the list has its key. */
  lemma SavePostsKeepsOthers(t: Table, rows: seq<PostDto>, d: PostDto, containsHtmlChars: string -> bool, replaceHtmlChars: string -> string)
    requires d in t && KeyNotIn(rows, d)
    ensures d in SavePosts(t, rows, containsHtmlChars, replaceHtmlChars)
  {
    if |rows| > 0 {
      var prepared := MapSeq(rows, (row: PostDto) => PrepareRow(row, containsHtmlChars, replaceHtmlChars));
      assert KeyNotIn(prepared, d) by {
        forall x | x in prepared ensures x.hash != d.hash {
          var j :| 0 <= j < |prepared| && prepared[j] == x;
          assert rows[j] in rows;
        }
      }
      UpsertAllKeepsOthers(t, prepared, d);
    }
  }

  // ---------------------------------------------------------------------
  // Reading a page
  // ---------------------------------------------------------------------

  /**
   * SQLite's `limit :offset, :limit`: skip `offset` rows (none when it is
   * negative), then keep at most `limit` (all when it is negative).
   */
  function Window<T>(rows: seq<T>, limit: int, offset: int): (r: seq<T>)
    ensures limit >= 0 ==> |r| <= limit
    ensures Skipped(rows, offset) + |r| <= |rows|
    ensures r == rows[Skipped(rows, offset)..Skipped(rows, offset) + |r|]
    ensures limit < 0 || Skipped(rows, offset) + limit >= |rows| ==> |r| == |rows| - Skipped(rows, offset)
  {
    var rest := rows[Skipped(rows, offset)..];
    if limit < 0 || limit >= |rest| then rest else rest[..limit]
  }

  /** How many rows an offset skips. */
  function Skipped<T>(rows: seq<T>, offset: int): (n: nat)
    ensures n <= |rows|
    ensures 0 <= offset <= |rows| ==> n == offset
  {
    if offset < 0 then 0 else if offset > |rows| then |rows| else offset
  }

  /**
   * `getLocalData`: the count is taken first, with its own limit; the page is
   * only read when the count is positive; more pages may follow exactly
   * when the page is full. `matching` holds the rows the query's filter
   * selects, in its sort order. The body runs inside `resultFrom`:
   * `countFailure` and `pageFailure` are what the two DAO queries throw, if
   * anything, and a throw becomes the Failure.
   */
  function GetLocalData(
    matching: Table,
    countLimit: int,
    pageLimit: int,
    pageOffset: int,
    upToDate: bool,
    countFailure: Option<Throwable>,
    pageFailure: Option<Throwable>,
    decode: string -> string,
    formatTime: string -> string,
    replaceHtmlChars: string -> string): (r: Result<PostListResult>)
    ensures countFailure.Some? ==> r == Left(countFailure.value)
    ensures countFailure.None? && |Window(matching, countLimit, 0)| > 0 && pageFailure.Some? ==> r == Left(pageFailure.value)
    ensures r.Left? <==> countFailure.Some? || (|Window(matching, countLimit, 0)| > 0 && pageFailure.Some?)
    ensures r.Right? ==>
      && r.right.totalCount == |Window(matching, countLimit, 0)|
      && (r.right.canPaginate <==> |r.right.posts| == pageLimit)
      && r.right.upToDate == upToDate
      && (pageLimit >= 0 ==> |r.right.posts| <= pageLimit)
      && (r.right.totalCount == 0 ==> r.right.posts == [])
      && (r.right.totalCount > 0 ==> |r.right.posts| == |Window(matching, pageLimit, pageOffset)|)
  {
    if countFailure.Some? then Left(countFailure.value)
    else
      var size := |Window(matching, countLimit, 0)|;
      if size > 0 && pageFailure.Some? then Left(pageFailure.value)
      else
        var page := if size > 0 then Window(matching, pageLimit, pageOffset) else [];
        var posts := MapSeq(page, (row: PostDto) => PostDtoMapping.Map(row, decode, formatTime, replaceHtmlChars));
        Right(PostListResult(posts, size, upToDate, |posts| == pageLimit))
  }

  /**
   * When no further page is offered, none exists: the rows from the offset
   * on all fit in this page. The count limit must not be zero, or the count
   * hides the rows.
   */
  lemma NoPaginationMeansExhausted(
    matching: Table,
    countLimit: int,
    pageLimit: int,
    pageOffset: int,
    upToDate: bool,
    countFailure: Option<Throwable>,
    pageFailure: Option<Throwable>,
    decode: string -> string,
    formatTime: string -> string,
    replaceHtmlChars: string -> string)
    requires countLimit != 0 && pageLimit >= 0 && pageOffset >= 0
    requires var r := GetLocalData(matching, countLimit, pageLimit, pageOffset, upToDate, countFailure, pageFailure, decode, formatTime, replaceHtmlChars);
      r.Right? && !r.right.canPaginate
    ensures pageOffset + |GetLocalData(matching, countLimit, pageLimit, pageOffset, upToDate, countFailure, pageFailure, decode, formatTime, replaceHtmlChars).right.posts| >= |matching|
  {
    if |matching| > 0 {
      assert |Window(matching, countLimit, 0)| > 0;
    }
  }

  // ---------------------------------------------------------------------
  // Tag suggestions
  // ---------------------------------------------------------------------

  /** How many suggestions an empty query shows. */
  const TOP_TAGS: nat := 20

  /** `flatMap { it.replaceHtmlChars().split(" ") }` over the stored tag strings. */
  function PostTagTokens(stored: seq<string>, replaceHtmlChars: string -> string): (tokens: seq<string>)
    ensures forall w | w in tokens :: ' ' !in w
  {
    Tokens(MapSeq(stored, replaceHtmlChars))
  }

  /** `filter { it.startsWith(tag, ignoreCase = true) && it !in tagNames }`. */
  function MatchingTokens(tokens: seq<string>, tag: string, tagNames: seq<string>): (r: seq<string>)
    ensures forall w :: w in r <==> w in tokens && StartsWithIgnoreCase(w, tag) && w !in tagNames
    decreases |tokens|
  {
    if |tokens| == 0 then []
    else
      var rest := MatchingTokens(tokens[1..], tag, tagNames);
      assert forall w | w in tokens[1..] :: w in tokens;
      assert forall w | w in tokens :: w == tokens[0] || w in tokens[1..];
      if StartsWithIgnoreCase(tokens[0], tag) && tokens[0] !in tagNames then [tokens[0]] + rest else rest
  }

  /**
   * The branch for a non-empty query: every stored tag that starts with it,
   * ignoring case, and is not already on the bookmark, once each, in
   * ascending order.
   */
  function TagsStartingWith(stored: seq<string>, tag: string, tagNames: seq<string>, replaceHtmlChars: string -> string): (r: seq<string>)
    ensures NoDuplicates(r)
    ensures SortedBy(r, NameOrder)
    ensures forall w :: w in r <==> w in PostTagTokens(stored, replaceHtmlChars) && StartsWithIgnoreCase(w, tag) && w !in tagNames
  {
    var distinct := Distinct(MatchingTokens(PostTagTokens(stored, replaceHtmlChars), tag, tagNames));
    var r := SortedStrings(distinct);
    NoDuplicatesPermutation(distinct, r);
    assert forall w :: w in r <==> w in multiset(distinct);
    r
  }

  /** Each name occurs in `m` at least as often as every later one. */
  predicate DescendingCounts(names: seq<string>, m: multiset<string>) {
    forall i, j | 0 <= i < j < |names| :: m[names[i]] >= m[names[j]]
  }

  /**
   * `groupBy { it }.map { Tag(it.key, it.value.size) }.sortedByDescending { it.posts }.map { it.name }`:
   * every token once, the most frequent first.
   */
  function RankedNames(tokens: seq<string>): (names: seq<string>)
    ensures NoDuplicates(names)
    ensures forall w :: w in names <==> w in tokens
    ensures DescendingCounts(names, multiset(tokens))
  {
    var grouped := Grouped(Distinct(tokens), tokens);
    var ranked := SortBy(grouped, ByPostsDescending);
    OrderIsTotal(MoreFirst);
    SortBySorted(grouped, ByPostsDescending);
    assert forall t | t in ranked :: t in grouped by {
      forall t | t in ranked ensures t in grouped {
        assert t in multiset(ranked);
      }
    }
    assert forall t | t in grouped :: t in ranked by {
      forall t | t in grouped ensures t in ranked {
        assert t in multiset(grouped);
      }
    }
    GroupedAreDistinct(Distinct(tokens), tokens);
    NoDuplicatesPermutation(grouped, ranked);
    SameNameSameTag(ranked, tokens);
    NamesOfSameTags(grouped, ranked);
    var names := TagNames(ranked);
    forall i, j | 0 <= i < j < |names| ensures multiset(tokens)[names[i]] >= multiset(tokens)[names[j]] {
      assert ranked[i] in ranked && ranked[j] in ranked;
      assert ByPostsDescending(ranked[i], ranked[j]);
    }
    names
  }

  /** Dropping names keeps the rest in descending order of count. */
  lemma {:induction false} FilterNotKeepsDescending(names: seq<string>, excluded: seq<string>, m: multiset<string>)
    requires DescendingCounts(names, m)
    ensures DescendingCounts(FilterNot(names, excluded), m)
    decreases |names|
  {
    if |names| > 0 {
      assert DescendingCounts(names[1..], m);
      FilterNotKeepsDescending(names[1..], excluded, m);
      var rest := FilterNot(names[1..], excluded);
      forall j | 0 <= j < |rest| ensures m[names[0]] >= m[rest[j]] {
        assert rest[j] in names[1..];
        var k :| 0 <= k < |names[1..]| && names[1..][k] == rest[j];
        assert names[k + 1] == rest[j];
      }
    }
  }

  /**
   * The branch for an empty query: the most used stored tags not already on
   * the bookmark, at most 20, the most used first; a tag is left out only
   * when 20 tags at least as used are shown.
   */
  function TopTags(stored: seq<string>, tagNames: seq<string>, replaceHtmlChars: string -> string): (r: seq<string>)
    ensures |r| <= TOP_TAGS
    ensures NoDuplicates(r)
    ensures forall w | w in r :: w in PostTagTokens(stored, replaceHtmlChars) && w !in tagNames
    ensures DescendingCounts(r, multiset(PostTagTokens(stored, replaceHtmlChars)))
    ensures forall w | w in PostTagTokens(stored, replaceHtmlChars) && w !in tagNames && w !in r ::
      && |r| == TOP_TAGS
      && forall i | 0 <= i < |r| :: multiset(PostTagTokens(stored, replaceHtmlChars))[r[i]] >= multiset(PostTagTokens(stored, replaceHtmlChars))[w]
  {
    var tokens := PostTagTokens(stored, replaceHtmlChars);
    var candidates := FilterNot(RankedNames(tokens), tagNames);
    FilterNotKeepsDescending(RankedNames(tokens), tagNames, multiset(tokens));
    TakeKeepsRanking(candidates, multiset(tokens), TOP_TAGS);
    Take(candidates, TOP_TAGS)
  }

  /** The first `n` of a ranked list: still ranked, and nothing left out outranks them. */
  lemma TakeKeepsRanking(candidates: seq<string>, m: multiset<string>, n: nat)
    requires NoDuplicates(candidates) && DescendingCounts(candidates, m)
    ensures var r := Take(candidates, n);
      && NoDuplicates(r)
      && DescendingCounts(r, m)
      && forall w | w in candidates && w !in r :: |r| == n && forall i | 0 <= i < |r| :: m[r[i]] >= m[w]
  {
    var r := Take(candidates, n);
    forall w | w in candidates && w !in r
      ensures |r| == n && forall i | 0 <= i < |r| :: m[r[i]] >= m[w]
    {
      var k :| 0 <= k < |candidates| && candidates[k] == w;
      assert k >= |r|;
    }
    assert NoDuplicates(r) by {
      forall i, j | 0 <= i < j < |r| ensures r[i] != r[j] {
        assert r[i] == candidates[i] && r[j] == candidates[j];
      }
    }
  }

  /**
   * `searchExistingPostTag`: the suggestions for `tag`, or the query's
   * failure. `dao` is what the DAO returned for the branch taken: the tag
   * strings of the bookmarks whose tags match the formatted query when
   * `tag` is not empty, all non-empty tag strings otherwise.
   */
  function SearchExistingPostTag(
    tag: string,
    currentTags: seq<Tag>,
    dao: Outcome<seq<string>>,
    replaceHtmlChars: string -> string): (r: Result<seq<string>>)
    ensures dao.Threw? ==> r == Left(dao.error)
    ensures dao.Returned? && |tag| > 0 ==> r == Right(TagsStartingWith(dao.value, tag, TagNames(currentTags), replaceHtmlChars))
    ensures dao.Returned? && |tag| == 0 ==> r == Right(TopTags(dao.value, TagNames(currentTags), replaceHtmlChars))
    ensures r.Right? ==> NoDuplicates(r.right) && forall w | w in r.right :: w !in TagNames(currentTags)
  {
    match dao
    case Threw(e) => Left(e)
    case Returned(stored) =>
      if |tag| > 0 then Right(TagsStartingWith(stored, tag, TagNames(currentTags), replaceHtmlChars))
      else Right(TopTags(stored, TagNames(currentTags), replaceHtmlChars))
  }
}

=== FILE: post_dto.dfy ===
/**
 * `PostDto` and `PostDtoMapper` of bookmarking/.../pinboard/data/PostDto.kt:
 * the Pinboard bookmark as stored locally, and its conversion to and from
 * `Post`.
 *
 * URL decoding and encoding, HTML-entity replacement and the date formatter
 * are library code and arrive as function parameters.
 */
module PostDtoMapping {
  import opened Nullable
  import opened Domain
  import opened Text
  import opened StoredPost

  const POST_TABLE_NAME: string := "Posts"

  /** The literals the Pinboard API uses for its boolean fields. */
  const LITERAL_YES: string := "yes"
  const LITERAL_NO: string := "no"

  datatype PostDto = PostDto(
    href: string,
    description: Option<string>,
    extended: Option<string>,
    hash: string,
    time: string,
    shared: string,
    toread: string,
    tags: string,
    pendingSync: Option<PendingSyncDto>)

  predicate IsHexDigit(c: char) {
    ('0' <= c <= '9') || ('a' <= c <= 'f') || ('A' <= c <= 'F')
  }

  /** Every `%` of `t` starts an escape: it is followed by two hexadecimal digits. */
  predicate PercentEscapesWellFormed(t: string)
    decreases |t|
  {
    |t| == 0
    || ((t[0] == '%' ==> |t| >= 3 && IsHexDigit(t[1]) && IsHexDigit(t[2]))
        && PercentEscapesWellFormed(t[1..]))
  }

  /** A `%` not followed by two hexadecimal digits (the regex `%(?![0-9a-fA-F]{2})`). */
  predicate StrayPercentAtHead(s: string) {
    |s| > 0 && s[0] == '%' && !(|s| >= 3 && IsHexDigit(s[1]) && IsHexDigit(s[2]))
  }

  /** `preparePercentForDecoding`: every stray `%` becomes the escape `%25`. */
  function PreparePercent(s: string): (r: string)
    ensures |r| >= |s|
    ensures |s| == 0 <==> |r| == 0
    decreases |s|
  {
    if |s| == 0 then ""
    else if StrayPercentAtHead(s) then "%25" + PreparePercent(s[1..])
    else [s[0]] + PreparePercent(s[1..])
  }

  /** After the preparation, every `%` starts an escape. */
  lemma {:induction false} PreparePercentWellFormed(s: string)
    ensures PercentEscapesWellFormed(PreparePercent(s))
    decreases |s|
  {
    if |s| > 0 {
      PreparePercentWellFormed(s[1..]);
      var rest := PreparePercent(s[1..]);
      var r := PreparePercent(s);
      if StrayPercentAtHead(s) {
        assert r == "%25" + rest;
        assert r[1..][1..][1..] == rest;
        assert PercentEscapesWellFormed(r[1..][1..]);
        assert PercentEscapesWellFormed(r[1..]);
      } else if s[0] == '%' {
        assert rest == [s[1]] + PreparePercent(s[2..]);
        assert PreparePercent(s[2..]) == [s[2]] + PreparePercent(s[3..]);
        assert r == [s[0]] + rest;
        assert r[1..] == rest;
      } else {
        assert r[1..] == rest;
      }
    }
  }

  /** An already well-formed string passes the preparation unchanged. */
  lemma {:induction false} PreparePercentKeepsWellFormed(s: string)
    requires PercentEscapesWellFormed(s)
    ensures PreparePercent(s) == s
    decreases |s|
  {
    if |s| > 0 {
      PreparePercentKeepsWellFormed(s[1..]);
      assert s == [s[0]] + s[1..];
    }
  }

  /** `preparePlusForDecoding`: every `+` becomes the escape `%2B`. */
  function PreparePlus(s: string): (r: string)
    ensures '+' !in r
  {
    ReplaceCharRemovesIt(s, '+', "%2B");
    ReplaceAll(s, "+", "%2B")
  }

  /** Escaping the `+` signs keeps every `%` an escape. */
  lemma {:induction false} PreparePlusKeepsWellFormed(s: string)
    requires PercentEscapesWellFormed(s)
    ensures PercentEscapesWellFormed(ReplaceAll(s, "+", "%2B"))
    decreases |s|
  {
    if |s| > 0 {
      var rest := ReplaceAll(s[1..], "+", "%2B");
      var r := ReplaceAll(s, "+", "%2B");
      PreparePlusKeepsWellFormed(s[1..]);
      if s[0] == '+' {
        assert "+" <= s;
        assert r == "%2B" + rest;
        assert r[1..][1..][1..] == rest;
        assert PercentEscapesWellFormed(r[1..][1..]);
        assert PercentEscapesWellFormed(r[1..]);
      } else {
        assert !("+" <= s);
        assert r == [s[0]] + rest;
        if s[0] == '%' {
          assert !("+" <= s[1..]);
          assert rest == [s[1]] + ReplaceAll(s[2..], "+", "%2B");
          assert !("+" <= s[2..]);
          assert ReplaceAll(s[2..], "+", "%2B") == [s[2]] + ReplaceAll(s[3..], "+", "%2B");
        }
        assert r[1..] == rest;
      }
    }
  }

  /** A string without `+` passes `preparePlusForDecoding` unchanged. */
  lemma {:induction false} PreparePlusKeepsPlusFree(s: string)
    requires '+' !in s
    ensures PreparePlus(s) == s
    decreases |s|
  {
    if |s| > 0 {
      assert s[0] in s && s[0] != '+';
      assert !("+" <= s);
      assert forall c | c in s[1..] :: c in s;
      PreparePlusKeepsPlusFree(s[1..]);
      assert s == [s[0]] + s[1..];
    }
  }

  /** The `fold` over both preparations, in order: the href as handed to the URL decoder. */
  function PrepareUrl(href: string): (r: string)
    ensures PercentEscapesWellFormed(r)
    ensures '+' !in r
  {
    PreparePercentWellFormed(href);
    PreparePlusKeepsWellFormed(PreparePercent(href));
    PreparePlus(PreparePercent(href))
  }

  /** An href that is already well-formed and free of `+` reaches the decoder as it is. */
  lemma PrepareUrlKeepsEncoded(href: string)
    requires PercentEscapesWellFormed(href)
    requires '+' !in href
    ensures PrepareUrl(href) == href
  {
    PreparePercentKeepsWellFormed(href);
    PreparePlusKeepsPlusFree(href);
  }

  /** `PostDtoMapper.map`. */
  function Map(
    dto: PostDto,
    decode: string -> string,
    formatTime: string -> string,
    replaceHtmlChars: string -> string): (p: Post)
    ensures p.url == decode(PrepareUrl(dto.href))
    ensures p.title == dto.description.OrElse("") && p.description == dto.extended.OrElse("")
    ensures p.id == dto.hash && p.time == dto.time && p.formattedTime == formatTime(dto.time)
    ensures p.private == Some(dto.shared == LITERAL_NO)
    ensures p.readLater == Some(dto.toread == LITERAL_YES)
    ensures p.tags.None? <==> IsBlank(dto.tags)
    ensures p.tags.Some? ==> p.tags.value == SplitTags(replaceHtmlChars(dto.tags))
    ensures p.pendingSync == FromDto(dto.pendingSync)
    ensures p.notes.None? && p.websiteTitle.None? && p.websiteDescription.None? && p.isArchived.None?
  {
    Post(
      decode(PrepareUrl(dto.href)),
      dto.description.OrElse(""),
      dto.extended.OrElse(""),
      dto.hash,
      dto.time,
      formatTime(dto.time),
      Some(dto.shared == LITERAL_NO),
      Some(dto.toread == LITERAL_YES),
      if IsBlank(dto.tags) then None else Some(SplitTags(replaceHtmlChars(dto.tags))),
      None, None, None, None,
      FromDto(dto.pendingSync))
  }

  /** `PostDtoMapper.mapReverse`. */
  function MapReverse(p: Post, encode: string -> string): (dto: PostDto)
    ensures dto.href == encode(p.url)
    ensures dto.description == Some(p.title) && dto.extended == Some(p.description)
    ensures dto.hash == p.id && dto.time == p.time
    ensures dto.shared == LITERAL_NO <==> IsTrue(p.private)
    ensures dto.shared in {LITERAL_YES, LITERAL_NO}
    ensures dto.toread == LITERAL_YES <==> IsTrue(p.readLater)
    ensures dto.toread in {LITERAL_YES, LITERAL_NO}
    ensures p.tags.None? ==> dto.tags == ""
    ensures p.tags.Some? ==> dto.tags == FormatTags(p.tags.value)
    ensures dto.pendingSync == ToDto(p.pendingSync)
  {
    PostDto(
      encode(p.url),
      Some(p.title),
      Some(p.description),
      p.id,
      p.time,
      if IsTrue(p.private) then LITERAL_NO else LITERAL_YES,
      if IsTrue(p.readLater) then LITERAL_YES else LITERAL_NO,
      if p.tags.Some? then FormatTags(p.tags.value) else "",
      ToDto(p.pendingSync))
  }

  /**
   * A bookmark as `map` produces it from a stored row: both flags present,
   * tags in stored form and not blank, no Linkding-only fields.
   */
  ghost predicate Normalised(p: Post, formatTime: string -> string, replaceHtmlChars: string -> string) {
    && p.private.Some? && p.readLater.Some?
    && p.formattedTime == formatTime(p.time)
    && p.notes.None? && p.websiteTitle.None? && p.websiteDescription.None? && p.isArchived.None?
    && (p.tags.Some? ==>
          && StoredForm(p.tags.value)
          && !IsBlank(FormatTags(p.tags.value))
          && replaceHtmlChars(FormatTags(p.tags.value)) == FormatTags(p.tags.value))
  }

  /**
   * Storing a bookmark and reading it back gives it back, when the URL
   * encoder's output is a well-formed escape sequence without `+` that the
   * decoder inverts.
   */
  lemma MapAfterMapReverse(
    p: Post,
    encode: string -> string,
    decode: string -> string,
    formatTime: string -> string,
    replaceHtmlChars: string -> string)
    requires Normalised(p, formatTime, replaceHtmlChars)
    requires PercentEscapesWellFormed(encode(p.url)) && '+' !in encode(p.url)
    requires decode(encode(p.url)) == p.url
    ensures Map(MapReverse(p, encode), decode, formatTime, replaceHtmlChars) == p
  {
    PrepareUrlKeepsEncoded(encode(p.url));
    FlagsSurviveStorage(p, encode, decode, formatTime, replaceHtmlChars);
    KnownFlagIsKept(p.private);
    KnownFlagIsKept(p.readLater);
    if p.tags.Some? {
      ParseFormatTags(p.tags.value);
    }
  }

  /** A flag that is present reads back as itself through `== true`. */
  lemma KnownFlagIsKept(b: Option<bool>)
    ensures b.Some? ==> Some(IsTrue(b)) == b
  {
    if b.Some? && !b.value {
      assert !IsTrue(b);
    }
  }

  /** Whatever a bookmark holds, the flags and the pending change survive a store and reload. */
  lemma FlagsSurviveStorage(
    p: Post,
    encode: string -> string,
    decode: string -> string,
    formatTime: string -> string,
    replaceHtmlChars: string -> string)
    ensures var q := Map(MapReverse(p, encode), decode, formatTime, replaceHtmlChars);
      && q.private == Some(IsTrue(p.private))
      && q.readLater == Some(IsTrue(p.readLater))
      && q.pendingSync == p.pendingSync
      && q.title == p.title && q.description == p.description
      && q.id == p.id && q.time == p.time
      && (p.tags.None? ==> q.tags.None?)
  {
    PendingSyncRoundTrips(p.pendingSync, None);
    assert LITERAL_YES != LITERAL_NO by { assert LITERAL_YES[0] != LITERAL_NO[0]; }
    assert IsBlank("");
  }
}

=== FILE: post_reducer.dfy ===
/**
 * `PostActionHandler` of bookmarking/.../appstate/PostActionHandler.kt: the
 * reducer of the post list. It asks for reloads, installs loaded pages,
 * changes the sorting, and decides where the app goes after a bookmark was
 * edited, saved or deleted.
 *
 * The connectivity check and the user's "edit after sharing" preference are
 * parameters.
 */
module PostReducer {
  import opened Nullable
  import opened Domain
  import opened Lists
  import opened AppContent

  /** When the editor opens for a bookmark shared into the app. */
  datatype EditAfterSharing = BeforeSaving | AfterSaving | SkipEdit

  datatype PostAction =
    | Refresh(force: bool)
    | SetPosts(postListResult: PostListResult)
    | GetNextPostPage
    | SetNextPostPage(nextPage: PostListResult)
    | SetSorting(sortType: SortType)
    | EditPost(editedPost: Post)
    | EditPostFromShare(sharedPost: Post)
    | PostSaved(savedPost: Post)
    | PostDeleted

  /**
   * `reduce(body).reduce<PostDetailContent> { … body(previousContent) … }`:
   * the update reaches a post list and the list under a post's details; any
   * other screen is left alone.
   */
  function OnListOrDetail(c: Content, body: PostListContent -> PostListContent): (r: Content)
    ensures KindOf(r) == KindOf(c)
    ensures c.PostListScreen? ==> r.list == body(c.list)
    ensures c.PostDetail? ==>
      && r.previousList == body(c.previousList)
      && r.post == c.post
      && r.isConnected == c.isConnected
    ensures !c.PostListScreen? && !c.PostDetail? ==> r == c
  {
    if c.PostListScreen? then PostListScreen(body(c.list))
    else if c.PostDetail? then PostDetail(c.post, body(c.previousList), c.isConnected)
    else c
  }

  // Refresh

  function RefreshedList(l: PostListContent, force: bool, connected: bool): (r: PostListContent)
    ensures !connected ==> r.shouldLoad == Loaded
    ensures connected && force ==> r.shouldLoad == ShouldForceLoad
    ensures connected && !force ==> r.shouldLoad == ShouldLoadFirstPage
    ensures r.isConnected == connected && r.canForceSync == !force
    ensures r.(shouldLoad := l.shouldLoad, isConnected := l.isConnected, canForceSync := l.canForceSync) == l
  {
    l.(shouldLoad := if !connected then Loaded else if force then ShouldForceLoad else ShouldLoadFirstPage,
       isConnected := connected,
       canForceSync := !force)
  }

  // SetPosts

  function WithPosts(l: PostListContent, result: PostListResult): (r: PostListContent)
    ensures r.posts.None? <==> |result.posts| == 0
    ensures r.posts.Some? ==> r.posts.value == PostList(result.posts, result.totalCount, result.canPaginate)
    ensures r.shouldLoad == (if result.upToDate then Loaded else Syncing)
    ensures r.(posts := l.posts, shouldLoad := l.shouldLoad) == l
  {
    l.(posts := if |result.posts| == 0 then None else Some(PostList(result.posts, result.totalCount, result.canPaginate)),
       shouldLoad := if result.upToDate then Loaded else Syncing)
  }

  // GetNextPostPage

  function RequestNextPage(l: PostListContent): (r: PostListContent)
    ensures l.posts.None? ==> r == l
    ensures l.posts.Some? ==> r == l.(shouldLoad := ShouldLoadNextPage(|l.posts.value.list|))
  {
    if l.posts.Some? then l.(shouldLoad := ShouldLoadNextPage(l.CurrentCount())) else l
  }

  // SetNextPostPage

  function AppendPage(l: PostListContent, page: PostListResult): (r: PostListContent)
    ensures l.posts.None? ==> r == l
    ensures l.posts.Some? ==>
      && r.posts.Some?
      && NoDuplicates(r.posts.value.list)
      && (forall p :: p in r.posts.value.list <==> p in l.posts.value.list || p in page.posts)
      && (NoDuplicates(l.posts.value.list) ==>
            |l.posts.value.list| <= |r.posts.value.list|
            && r.posts.value.list[..|l.posts.value.list|] == l.posts.value.list)
      && r.posts.value.totalCount == page.totalCount
      && r.posts.value.canPaginate == page.canPaginate
      && r.shouldLoad == Loaded
      && r.(posts := l.posts, shouldLoad := l.shouldLoad) == l
  {
    if l.posts.Some? then
      l.(posts := Some(PostList(Union(l.CurrentList(), page.posts), page.totalCount, page.canPaginate)),
         shouldLoad := Loaded)
    else l
  }

  // SetSorting

  function Sorted(l: PostListContent, sortType: SortType, connected: bool): (r: PostListContent)
    ensures connected ==>
      && r.sortType == sortType
      && r.shouldLoad == ShouldLoadFirstPage
      && r.(sortType := l.sortType, shouldLoad := l.shouldLoad) == l
    ensures !connected ==> r == l.(isConnected := false)
  {
    if connected then l.(sortType := sortType, shouldLoad := ShouldLoadFirstPage)
    else l.(isConnected := false)
  }

  /** `reload`: the list, asked to load again from its first page. */
  function Reload(l: PostListContent): (r: PostListContent)
    ensures r.shouldLoad == ShouldLoadFirstPage
    ensures r.(shouldLoad := l.shouldLoad) == l
  {
    l.(shouldLoad := ShouldLoadFirstPage)
  }

  /** `editPost`: the editor opens over a post list or a post's details only. */
  function Edit(c: Content, post: Post): (r: Content)
    ensures r.EditPostScreen? <==> c.PostListScreen? || c.PostDetail? || c.EditPostScreen?
    ensures c.PostListScreen? || c.PostDetail? ==> r == EditPostScreen(post, c)
    ensures !c.PostListScreen? && !c.PostDetail? ==> r == c
  {
    if c.PostListScreen? || c.PostDetail? then EditPostScreen(post, c) else c
  }

  /** `postSaved`: where the app goes once a bookmark was saved. */
  function Saved(c: Content, post: Post, editAfterSharing: EditAfterSharing): (r: Content)
    ensures c.PostListScreen? ==> r == PostListScreen(Reload(c.list))
    ensures c.AddPostScreen? ==> r == PostListScreen(Reload(c.previousList))
    ensures c.PostDetail? ==> r == PostDetail(post, Reload(c.previousList), c.isConnected)
    ensures c.EditPostScreen? && c.previousContent.PostDetail? ==>
      r == PostDetail(post, Reload(c.previousContent.previousList), c.previousContent.isConnected)
    ensures c.EditPostScreen? && c.previousContent.PostListScreen? ==>
      r == PostListScreen(Reload(c.previousContent.list))
    ensures c.EditPostScreen? && !c.previousContent.PostDetail? && !c.previousContent.PostListScreen? ==>
      r == c.previousContent
    ensures c.PopularPostDetail? ==>
      var updated := PopularPostDetail(c.post,
        c.previousPopular.(previousList := Reload(c.previousPopular.previousList)), c.isConnected);
      r == if editAfterSharing == AfterSaving then EditPostScreen(post, updated) else updated
    ensures c.PopularPostsScreen? ==>
      r == EditPostScreen(post, PopularPostsScreen(c.popular.(previousList := Reload(c.popular.previousList))))
    ensures (!c.PostListScreen? && !c.AddPostScreen? && !c.PostDetail? && !c.EditPostScreen?
      && !c.PopularPostDetail? && !c.PopularPostsScreen?) ==> r == c
  {
    match c
    case PostListScreen(l) => PostListScreen(Reload(l))
    case AddPostScreen(_, _, _, l) => PostListScreen(Reload(l))
    case PostDetail(_, l, connected) => PostDetail(post, Reload(l), connected)
    case EditPostScreen(_, prev) =>
      (match prev
       case PostDetail(_, l, connected) => PostDetail(post, Reload(l), connected)
       case PostListScreen(l) => PostListScreen(Reload(l))
       case _ => prev)
    case PopularPostDetail(shown, popular, connected) =>
      var updated := PopularPostDetail(shown, popular.(previousList := Reload(popular.previousList)), connected);
      if editAfterSharing == AfterSaving then EditPostScreen(post, updated) else updated
    case PopularPostsScreen(popular) =>
      EditPostScreen(post, PopularPostsScreen(popular.(previousList := Reload(popular.previousList))))
    case _ => c
  }

  /**
   * `postDeleted`: a post list reloads; any other screen closes, and a post
   * list it returns to (directly or under a post's details) reloads.
   */
  function Deleted(c: Content): (r: Content)
    ensures c.External? ==> r == c
    ensures c.PostListScreen? ==> r == PostListScreen(Reload(c.list))
    ensures HasHistory(c) && !c.PostListScreen? ==>
      var p := Previous(c);
      && (p.PostListScreen? ==> r == PostListScreen(Reload(p.list)))
      && (p.PostDetail? ==> r == PostListScreen(Reload(p.previousList)))
      && (!p.PostListScreen? && !p.PostDetail? ==> r == p)
  {
    if !HasHistory(c) then c
    else if c.PostListScreen? then PostListScreen(Reload(c.list))
    else
      var p := Previous(c);
      if p.PostListScreen? then PostListScreen(Reload(p.list))
      else if p.PostDetail? then PostListScreen(Reload(p.previousList))
      else p
  }

  /** `runAction`. */
  function RunAction(action: PostAction, c: Content, connected: bool, editAfterSharing: EditAfterSharing): Content {
    match action
    case Refresh(force) => OnListOrDetail(c, l => RefreshedList(l, force, connected))
    case SetPosts(result) => OnListOrDetail(c, l => WithPosts(l, result))
    case GetNextPostPage => OnListOrDetail(c, RequestNextPage)
    case SetNextPostPage(page) => OnListOrDetail(c, l => AppendPage(l, page))
    case SetSorting(sortType) => OnListOrDetail(c, l => Sorted(l, sortType, connected))
    case EditPost(post) => Edit(c, post)
    case EditPostFromShare(post) => EditPostScreen(post, External)
    case PostSaved(post) => Saved(c, post, editAfterSharing)
    case PostDeleted => Deleted(c)
  }

  // Properties

  /** The list-updating actions reach only a post list or the list under a post's details. */
  lemma ListActionsTouchOnlyLists(action: PostAction, c: Content, connected: bool, e: EditAfterSharing)
    requires action.Refresh? || action.SetPosts? || action.GetNextPostPage?
      || action.SetNextPostPage? || action.SetSorting?
    requires !c.PostListScreen? && !c.PostDetail?
    ensures RunAction(action, c, connected, e) == c
  {
  }

  /** Offline, a refresh never asks to load, whether forced or not. */
  lemma OfflineRefreshLoadsNothing(c: Content, force: bool, e: EditAfterSharing)
    requires c.PostListScreen? || c.PostDetail?
    ensures var r := RunAction(Refresh(force), c, false, e);
      ListOf(r).Some? && ListOf(r).value.shouldLoad == Loaded && !ListOf(r).value.isConnected
  {
  }

  /** Refreshing twice is refreshing once. */
  lemma RefreshIdempotent(c: Content, force: bool, connected: bool, e: EditAfterSharing)
    ensures var once := RunAction(Refresh(force), c, connected, e);
      RunAction(Refresh(force), once, connected, e) == once
  {
  }

  /** The page requested next starts right after the posts already loaded. */
  lemma NextPageStartsAfterLoadedPosts(c: Content, connected: bool, e: EditAfterSharing)
    requires ListOf(c).Some? && ListOf(c).value.posts.Some?
    ensures var r := RunAction(GetNextPostPage, c, connected, e);
      ListOf(r).Some? && ListOf(r).value.shouldLoad == ShouldLoadNextPage(ListOf(c).value.CurrentCount())
  {
  }

  /** Installing the same next page twice adds nothing the second time. */
  lemma AppendPageTwiceIsOnce(l: PostListContent, page: PostListResult)
    requires l.posts.Some?
    ensures AppendPage(AppendPage(l, page), page) == AppendPage(l, page)
  {
    var once := AppendPage(l, page);
    var u := Union(l.CurrentList(), page.posts);
    assert once.CurrentList() == u;
    UnionAbsorbs(u, page.posts);
  }

  /** After a deletion on a post's details, the app is back on the list under it, reloading. */
  lemma DeletedFromDetailReloadsList(c: Content, connected: bool, e: EditAfterSharing)
    requires c.PostDetail?
    ensures RunAction(PostDeleted, c, connected, e) == PostListScreen(Reload(c.previousList))
  {
  }

  /** A deletion never leaves the app deeper in its history than it was. */
  lemma DeletedNeverDeepens(c: Content)
    ensures Depth(Deleted(c)) <= Depth(c)
  {
  }
}

=== FILE: posts.dfy ===
/**
 * The domain records the modelled code passes around: bookmarks (`Post`),
 * tags, the post-list page a query returns, and the search, sorting and
 * loading settings of the post list (bookmarking/.../appstate/Action.kt and
 * the domain model package).
 */
module Domain {
  import opened Nullable

  /** A tag and the number of bookmarks carrying it (zero when unknown). */
  datatype Tag = Tag(name: string, posts: int)

  /** `Tag(name)`: a tag built from a name alone. */
  function TagNamed(name: string): (t: Tag)
    ensures t.name == name && t.posts == 0
  {
    Tag(name, 0)
  }

  function TagNames(tags: seq<Tag>): (names: seq<string>)
    ensures |names| == |tags|
    ensures forall i | 0 <= i < |tags| :: names[i] == tags[i].name
  {
    seq(|tags|, i requires 0 <= i < |tags| => tags[i].name)
  }

  /** The offline change a locally stored bookmark still waits to send. */
  datatype PendingSync = Add | Update | Delete

  /** A bookmark. Nullable Kotlin fields are options. */
  datatype Post = Post(
    url: string,
    title: string,
    description: string,
    id: string,
    time: string,
    formattedTime: string,
    private: Option<bool>,
    readLater: Option<bool>,
    tags: Option<seq<Tag>>,
    notes: Option<string>,
    websiteTitle: Option<string>,
    websiteDescription: Option<string>,
    isArchived: Option<bool>,
    pendingSync: Option<PendingSync>)

  /** One page of a bookmark query as a data source returns it. */
  datatype PostListResult = PostListResult(
    posts: seq<Post>,
    totalCount: int,
    upToDate: bool,
    canPaginate: bool)

  /** The bookmarks the post list shows. */
  datatype PostList = PostList(list: seq<Post>, totalCount: int, canPaginate: bool)

  datatype SearchParameters = SearchParameters(term: string, tags: seq<Tag>)

  /** `SearchParameters()`: no term and no tags. */
  const EmptySearch: SearchParameters := SearchParameters("", [])

  datatype SavedFilter = SavedFilter(searchTerm: string, tags: seq<Tag>)

  datatype ViewCategory = All | Recent | Public | Private | Unread | Untagged

  datatype SortType = NewestFirst | OldestFirst | Alphabetical | AlphabeticalReverse

  /** What the post list should load next. */
  datatype ShouldLoad =
    | ShouldLoadFirstPage
    | ShouldForceLoad
    | ShouldLoadNextPage(offset: int)
    | Syncing
    | Loaded

  /** A note; the modelled logic only moves notes around. */
  datatype Note = Note(id: string, title: string, text: string)
}

=== FILE: preferences.dfy ===
/**
 * `UserSharedPreferences` (bookmarking/.../core/persistence/
 * UserSharedPreferences.kt): typed user settings over a key-value store.
 *
 * The store is modelled as three maps, one per value type the class uses
 * (boolean, string, long); every key is only ever used with one type. The
 * three in-memory fallbacks the class keeps for the instance URL, the token
 * and the last-update stamp are part of the state.
 */
module Preferences {
  import opened Nullable
  import opened Text

  datatype Settings = Settings(booleans: map<string, bool>, strings: map<string, string>, longs: map<string, int>)

  /** The store and the in-memory copies of the last values set in this session. */
  datatype Prefs = Prefs(
    settings: Settings,
    currentLinkdingInstanceUrl: string,
    currentAuthToken: string,
    currentLastUpdate: string)

  /** A fresh instance over a store. */
  function Open(settings: Settings): (p: Prefs)
    ensures p.settings == settings
    ensures p.currentLinkdingInstanceUrl == "" && p.currentAuthToken == "" && p.currentLastUpdate == ""
  {
    Prefs(settings, "", "", "")
  }

  /** `getBoolean(key, default)` and its siblings: the stored value, or the default when absent. */
  function Lookup<V>(m: map<string, V>, key: string, default: V): (v: V)
    ensures key in m ==> v == m[key]
    ensures key !in m ==> v == default
  {
    if key in m then m[key] else default
  }

  // ---------------------------------------------------------------------
  // Keys
  // ---------------------------------------------------------------------

  /** The plain boolean settings. */
  datatype BooleanPreference =
    | UseLinkding
    | ApplyDynamicColors
    | DisableScreenshots
    | AlwaysUseSidePanel
    | MarkAsReadOnOpen
    | AutoFillDescription
    | ShowDescriptionInLists

  /** The boolean settings read back as "true or nothing". */
  datatype PostDefault = DefaultPrivate | DefaultReadLater

  /** The plain string settings, all defaulting to "". */
  datatype StringPreference = Appearance | PreferredDateFormat | PreferredDetailsView | EditAfterSharing

  /** The string settings that fall back to the value last set in this session. */
  datatype SessionPreference = LinkdingInstanceUrl | AuthToken | LastUpdate

  const KEY_PERIODIC_SYNC: string := "PERIODIC_SYNC"
  const KEY_DEFAULT_TAGS: string := "DEFAULT_TAGS"

  function BooleanKey(p: BooleanPreference): string {
    match p
    case UseLinkding => "USE_LINKDING"
    case ApplyDynamicColors => "APPLY_DYNAMIC_COLORS"
    case DisableScreenshots => "DISABLE_SCREENSHOTS"
    case AlwaysUseSidePanel => "ALWAYS_USE_SIDE_PANEL"
    case MarkAsReadOnOpen => "MARK_AS_READ_ON_OPEN"
    case AutoFillDescription => "AUTO_FILL_DESCRIPTION"
    case ShowDescriptionInLists => "SHOW_DESCRIPTION_IN_LISTS"
  }

  function PostDefaultKey(p: PostDefault): string {
    match p
    case DefaultPrivate => "DEFAULT_PRIVATE"
    case DefaultReadLater => "DEFAULT_READ_LATER"
  }

  function StringKey(p: StringPreference): string {
    match p
    case Appearance => "APPEARANCE"
    case PreferredDateFormat => "PREFERRED_DATE_FORMAT"
    case PreferredDetailsView => "PREFERRED_DETAILS_VIEW"
    case EditAfterSharing => "NEW_EDIT_AFTER_SHARING"
  }

  function SessionKey(p: SessionPreference): string {
    match p
    case LinkdingInstanceUrl => "LINKDING_INSTANCE_URL"
    case AuthToken => "AUTH_TOKEN"
    case LastUpdate => "LAST_UPDATE"
  }

  /** Where a setting lives: its type's map and its key. */
  datatype Slot = BooleanSlot(key: string) | StringSlot(key: string) | LongSlot(key: string)

  /** Every setting of the class. */
  datatype Preference =
    | Boolean(b: BooleanPreference)
    | Flag(f: PostDefault)
    | Text(s: StringPreference)
    | Session(r: SessionPreference)
    | PeriodicSync
    | DefaultTags

  function SlotOf(p: Preference): Slot {
    match p
    case Boolean(b) => BooleanSlot(BooleanKey(b))
    case Flag(f) => BooleanSlot(PostDefaultKey(f))
    case Text(s) => StringSlot(StringKey(s))
    case Session(r) => StringSlot(SessionKey(r))
    case PeriodicSync => LongSlot(KEY_PERIODIC_SYNC)
    case DefaultTags => StringSlot(KEY_DEFAULT_TAGS)
  }

  /** The setting stored under a slot, if any: the key table read backwards. */
  function PreferenceAt(slot: Slot): (p: Option<Preference>)
    ensures p.Some? ==> SlotOf(p.value) == slot
  {
    match slot
    case BooleanSlot(key) =>
      if key == "USE_LINKDING" then Some(Boolean(UseLinkding))
      else if key == "APPLY_DYNAMIC_COLORS" then Some(Boolean(ApplyDynamicColors))
      else if key == "DISABLE_SCREENSHOTS" then Some(Boolean(DisableScreenshots))
      else if key == "ALWAYS_USE_SIDE_PANEL" then Some(Boolean(AlwaysUseSidePanel))
      else if key == "MARK_AS_READ_ON_OPEN" then Some(Boolean(MarkAsReadOnOpen))
      else if key == "AUTO_FILL_DESCRIPTION" then Some(Boolean(AutoFillDescription))
      else if key == "SHOW_DESCRIPTION_IN_LISTS" then Some(Boolean(ShowDescriptionInLists))
      else if key == "DEFAULT_PRIVATE" then Some(Flag(DefaultPrivate))
      else if key == "DEFAULT_READ_LATER" then Some(Flag(DefaultReadLater))
      else None
    case StringSlot(key) =>
      if key == "APPEARANCE" then Some(Text(Appearance))
      else if key == "PREFERRED_DATE_FORMAT" then Some(Text(PreferredDateFormat))
      else if key == "PREFERRED_DETAILS_VIEW" then Some(Text(PreferredDetailsView))
      else if key == "NEW_EDIT_AFTER_SHARING" then Some(Text(EditAfterSharing))
      else if key == "LINKDING_INSTANCE_URL" then Some(Session(LinkdingInstanceUrl))
      else if key == "AUTH_TOKEN" then Some(Session(AuthToken))
      else if key == "LAST_UPDATE" then Some(Session(LastUpdate))
      else if key == KEY_DEFAULT_TAGS then Some(DefaultTags)
      else None
    case LongSlot(key) =>
      if key == KEY_PERIODIC_SYNC then Some(PeriodicSync) else None
  }

  /** Every setting is found again under its own slot. */
  lemma PreferenceAtSlot(p: Preference)
    ensures PreferenceAt(SlotOf(p)) == Some(p)
  {
    match p
    case Boolean(b) => BooleanAtSlot(b);
    case Flag(f) => {}
    case Text(s) => TextAtSlot(s);
    case Session(r) => {}
    case PeriodicSync => {}
    case DefaultTags => {}
  }

  lemma BooleanAtSlot(b: BooleanPreference)
    ensures PreferenceAt(BooleanSlot(BooleanKey(b))) == Some(Boolean(b))
  {
    match b
    case UseLinkding => {}
    case ApplyDynamicColors => {}
    case DisableScreenshots => {}
    case AlwaysUseSidePanel => {}
    case MarkAsReadOnOpen => {}
    case AutoFillDescription => {}
    case ShowDescriptionInLists => {}
  }

  lemma TextAtSlot(s: StringPreference)
    ensures PreferenceAt(StringSlot(StringKey(s))) == Some(Text(s))
  {
    match s
    case Appearance => {}
    case PreferredDateFormat => {}
    case PreferredDetailsView => {}
    case EditAfterSharing => {}
  }

  /** No two settings share a slot, so no setter can overwrite another setting. */
  lemma SlotsAreDistinct(p: Preference, q: Preference)
    requires p != q
    ensures SlotOf(p) != SlotOf(q)
  {
    PreferenceAtSlot(p);
    PreferenceAtSlot(q);
  }

  // ---------------------------------------------------------------------
  // Reading and writing
  // ---------------------------------------------------------------------

  /** A setting's value, in the type of its property. */
  datatype Reading =
    | BooleanReading(b: bool)
    | FlagReading(flag: Option<bool>)
    | StringReading(s: string)
    | LongReading(n: int)
    | TagsReading(tags: seq<string>)

  /** Whether a value has the type of the property it is given to. */
  predicate Fits(p: Preference, r: Reading) {
    match p
    case Boolean(_) => r.BooleanReading?
    case Flag(_) => r.FlagReading?
    case Text(_) => r.StringReading?
    case Session(_) => r.StringReading?
    case PeriodicSync => r.LongReading?
    case DefaultTags => r.TagsReading?
  }

  /** Only `showDescriptionInLists` defaults to true. */
  function BooleanDefault(p: BooleanPreference): bool {
    p == ShowDescriptionInLists
  }

  const DEFAULT_PERIODIC_SYNC: int := 24

  /** The in-memory copy a session setting falls back to. */
  function Remembered(prefs: Prefs, p: SessionPreference): string {
    match p
    case LinkdingInstanceUrl => prefs.currentLinkdingInstanceUrl
    case AuthToken => prefs.currentAuthToken
    case LastUpdate => prefs.currentLastUpdate
  }

  /** `getString(KEY_DEFAULT_TAGS, "").takeIf { it.isNotBlank() }?.split(",").orEmpty()`. */
  function ReadTags(stored: string): (tags: seq<string>)
    ensures IsBlank(stored) <==> |tags| == 0
    ensures forall i | 0 <= i < |tags| :: ',' !in tags[i]
  {
    if IsBlank(stored) then [] else Split(stored, ',')
  }

  /** The property getters. */
  function Get(prefs: Prefs, p: Preference): (r: Reading)
    ensures Fits(p, r)
    ensures p.Flag? ==> r.flag != Some(false)
    ensures p.Boolean? && BooleanKey(p.b) !in prefs.settings.booleans ==> r.b == (p.b == ShowDescriptionInLists)
    ensures p.Text? && StringKey(p.s) !in prefs.settings.strings ==> r.s == ""
    ensures p.Session? && SessionKey(p.r) !in prefs.settings.strings ==> r.s == Remembered(prefs, p.r)
    ensures p == PeriodicSync && KEY_PERIODIC_SYNC !in prefs.settings.longs ==> r.n == DEFAULT_PERIODIC_SYNC
    ensures p == DefaultTags && KEY_DEFAULT_TAGS !in prefs.settings.strings ==> r.tags == []
  {
    var s := prefs.settings;
    match p
    case Boolean(b) => BooleanReading(Lookup(s.booleans, BooleanKey(b), BooleanDefault(b)))
    case Flag(f) => FlagReading(if Lookup(s.booleans, PostDefaultKey(f), false) then Some(true) else None)
    case Text(t) => StringReading(Lookup(s.strings, StringKey(t), ""))
    case Session(r) => StringReading(Lookup(s.strings, SessionKey(r), Remembered(prefs, r)))
    case PeriodicSync => LongReading(Lookup(s.longs, KEY_PERIODIC_SYNC, DEFAULT_PERIODIC_SYNC))
    case DefaultTags =>
      assert IsBlank("");
      TagsReading(ReadTags(Lookup(s.strings, KEY_DEFAULT_TAGS, "")))
  }

  /** `putBoolean`, `putString`, `putLong`: one entry of the store replaced. */
  function Put(s: Settings, slot: Slot, r: Reading): (t: Settings)
    requires slot.BooleanSlot? ==> r.BooleanReading?
    requires slot.StringSlot? ==> r.StringReading?
    requires slot.LongSlot? ==> r.LongReading?
  {
    match slot
    case BooleanSlot(key) => s.(booleans := s.booleans[key := r.b])
    case StringSlot(key) => s.(strings := s.strings[key := r.s])
    case LongSlot(key) => s.(longs := s.longs[key := r.n])
  }

  /** The value a setter hands to the store. */
  function Stored(p: Preference, r: Reading): (v: Reading)
    requires Fits(p, r)
    ensures SlotOf(p).BooleanSlot? ==> v.BooleanReading?
    ensures SlotOf(p).StringSlot? ==> v.StringReading?
    ensures SlotOf(p).LongSlot? ==> v.LongReading?
  {
    match p
    case Flag(_) => BooleanReading(r.flag.OrElse(false))
    case DefaultTags => StringReading(Join(r.tags, ","))
    case _ => r
  }

  /** The property setters; the session settings also update their in-memory copy. */
  function Set(prefs: Prefs, p: Preference, r: Reading): (q: Prefs)
    requires Fits(p, r)
    ensures p.Flag? ==> Get(q, p) == FlagReading(if r.flag == Some(true) then Some(true) else None)
    ensures !p.Flag? && p != DefaultTags ==> Get(q, p) == r
  {
    var s := Put(prefs.settings, SlotOf(p), Stored(p, r));
    var q := match p
      case Session(LinkdingInstanceUrl) => Prefs(s, r.s, prefs.currentAuthToken, prefs.currentLastUpdate)
      case Session(AuthToken) => Prefs(s, prefs.currentLinkdingInstanceUrl, r.s, prefs.currentLastUpdate)
      case Session(LastUpdate) => Prefs(s, prefs.currentLinkdingInstanceUrl, prefs.currentAuthToken, r.s)
      case _ => prefs.(settings := s);
    q
  }

  /** A setter changes no other setting. */
  lemma SetKeepsOthers(prefs: Prefs, p: Preference, r: Reading, o: Preference)
    requires Fits(p, r)
    requires o != p
    ensures Get(Set(prefs, p, r), o) == Get(prefs, o)
  {
    SlotsAreDistinct(o, p);
  }

  /** `defaultTags` reads back what was written, when no tag holds a comma and the list is not blank. */
  lemma DefaultTagsRoundTrip(prefs: Prefs, tags: seq<string>)
    requires forall i | 0 <= i < |tags| :: ',' !in tags[i]
    requires |tags| > 0 ==> !IsBlank(Join(tags, ","))
    ensures Get(Set(prefs, DefaultTags, TagsReading(tags)), DefaultTags) == TagsReading(tags)
  {
    var q := Set(prefs, DefaultTags, TagsReading(tags));
    assert q.settings.strings == prefs.settings.strings[KEY_DEFAULT_TAGS := Join(tags, ",")];
    ReadJoinedTags(tags);
  }

  /** The string `joinToString(",")` writes splits back into the list. */
  lemma ReadJoinedTags(tags: seq<string>)
    requires forall i | 0 <= i < |tags| :: ',' !in tags[i]
    requires |tags| > 0 ==> !IsBlank(Join(tags, ","))
    ensures ReadTags(Join(tags, ",")) == tags
  {
    if |tags| > 0 {
      SplitJoin(tags, ',');
    } else {
      assert IsBlank(Join(tags, ","));
    }
  }

  /**
   * A session setting written through this instance still reads back if the
   * store later loses the entry: the getter falls back to the in-memory copy.
   */
  lemma SessionValueOutlivesEntry(prefs: Prefs, p: SessionPreference, value: string)
    ensures var q := Set(prefs, Session(p), StringReading(value));
      var lost := q.(settings := q.settings.(strings := q.settings.strings - {SessionKey(p)}));
      Get(lost, Session(p)) == StringReading(value)
  {
  }
}

=== FILE: quick_actions.dfy ===
/**
 * `PostQuickActions` (app/.../posts/presentation/PostQuickActions.kt): the
 * actions offered on a bookmark, and `allOptions`, which lists the ones that
 * apply. `Post.displayDescription` is computed elsewhere and is a parameter.
 */
module QuickActions {
  import opened Nullable
  import opened Text
  import opened Lists
  import opened Domain

  /** The string resources the actions use as titles. */
  datatype Title =
    | RemoveReadLaterTitle
    | AddReadLaterTitle
    | CopyTagsTitle
    | PasteTagsTitle
    | EditTitle
    | DeleteTitle
    | CopyUrlTitle
    | ShareTitle
    | ExpandDescriptionTitle
    | OpenInBrowserTitle
    | SubmitToWaybackTitle
    | SearchWaybackTitle

  datatype QuickAction =
    | ToggleReadLater(post: Post)
    | CopyTags(post: Post, tags: seq<Tag>)
    | PasteTags(post: Post, tags: seq<Tag>)
    | Edit(post: Post)
    | Delete(post: Post)
    | CopyUrl(post: Post)
    | Share(post: Post)
    | ExpandDescription(post: Post)
    | OpenBrowser(post: Post)
    | SubmitToWayback(post: Post)
    | SearchWayback(post: Post)

  /** Only the read-later toggle's title depends on the bookmark. */
  function TitleOf(a: QuickAction): (t: Title)
    ensures a.ToggleReadLater? ==> (t == RemoveReadLaterTitle <==> IsTrue(a.post.readLater))
    ensures a.ToggleReadLater? ==> t in {RemoveReadLaterTitle, AddReadLaterTitle}
  {
    match a
    case ToggleReadLater(post) => if IsTrue(post.readLater) then RemoveReadLaterTitle else AddReadLaterTitle
    case CopyTags(_, _) => CopyTagsTitle
    case PasteTags(_, _) => PasteTagsTitle
    case Edit(_) => EditTitle
    case Delete(_) => DeleteTitle
    case CopyUrl(_) => CopyUrlTitle
    case Share(_) => ShareTitle
    case ExpandDescription(_) => ExpandDescriptionTitle
    case OpenBrowser(_) => OpenInBrowserTitle
    case SubmitToWayback(_) => SubmitToWaybackTitle
    case SearchWayback(_) => SearchWaybackTitle
  }

  function SerializedName(a: QuickAction): string {
    match a
    case ToggleReadLater(_) => "TOGGLE_READ_LATER"
    case CopyTags(_, _) => "COPY_TAGS"
    case PasteTags(_, _) => "PASTE_TAGS"
    case Edit(_) => "EDIT"
    case Delete(_) => "DELETE"
    case CopyUrl(_) => "COPY_URL"
    case Share(_) => "SHARE"
    case ExpandDescription(_) => "EXPAND_DESCRIPTION"
    case OpenBrowser(_) => "OPEN_BROWSER"
    case SubmitToWayback(_) => "SUBMIT_TO_WAYBACK"
    case SearchWayback(_) => "SEARCH_WAYBACK"
  }

  /** The position of each kind of action in the order `allOptions` adds them. */
  function Rank(a: QuickAction): (n: nat)
    ensures n < 11
  {
    match a
    case ToggleReadLater(_) => 0
    case CopyTags(_, _) => 1
    case PasteTags(_, _) => 2
    case Edit(_) => 3
    case Delete(_) => 4
    case CopyUrl(_) => 5
    case Share(_) => 6
    case SubmitToWayback(_) => 7
    case SearchWayback(_) => 8
    case ExpandDescription(_) => 9
    case OpenBrowser(_) => 10
  }

  /** The rank an action's serialized name stands for: the name table read backwards. */
  function RankOfName(name: string): (n: Option<nat>)
  {
    if name == "TOGGLE_READ_LATER" then Some(0)
    else if name == "COPY_TAGS" then Some(1)
    else if name == "PASTE_TAGS" then Some(2)
    else if name == "EDIT" then Some(3)
    else if name == "DELETE" then Some(4)
    else if name == "COPY_URL" then Some(5)
    else if name == "SHARE" then Some(6)
    else if name == "SUBMIT_TO_WAYBACK" then Some(7)
    else if name == "SEARCH_WAYBACK" then Some(8)
    else if name == "EXPAND_DESCRIPTION" then Some(9)
    else if name == "OPEN_BROWSER" then Some(10)
    else None
  }

  /** The serialized name identifies the kind of action. */
  lemma NameGivesRank(a: QuickAction)
    ensures RankOfName(SerializedName(a)) == Some(Rank(a))
  {
    match a
    case ToggleReadLater(_) => {}
    case CopyTags(_, _) => {}
    case PasteTags(_, _) => {}
    case Edit(_) => {}
    case Delete(_) => {}
    case CopyUrl(_) => {}
    case Share(_) => {}
    case ExpandDescription(_) => {}
    case OpenBrowser(_) => {}
    case SubmitToWayback(_) => {}
    case SearchWayback(_) => {}
  }

  /** Two kinds of action never share a serialized name. */
  lemma SerializedNamesDistinct(a: QuickAction, b: QuickAction)
    requires Rank(a) != Rank(b)
    ensures SerializedName(a) != SerializedName(b)
  {
    NameGivesRank(a);
    NameGivesRank(b);
  }

  /** Actions appear in strictly increasing rank: each kind at most once, in the fixed order. */
  predicate InOrder(actions: seq<QuickAction>) {
    forall i, j | 0 <= i < j < |actions| :: Rank(actions[i]) < Rank(actions[j])
  }

  /** `post.tags.isNullOrEmpty()`. */
  predicate HasTags(post: Post) {
    post.tags.Some? && |post.tags.value| > 0
  }

  /** The actions `allOptions` adds before the fixed ones: the toggle, then the optional tag actions. */
  function Leading(post: Post, tagsClipboard: seq<Tag>): (r: seq<QuickAction>)
    ensures |r| >= 1 && r[0] == ToggleReadLater(post)
    ensures InOrder(r)
    ensures forall a | a in r :: a.post == post && Rank(a) <= 2
    ensures !HasTags(post) ==> forall a | a in r :: !a.CopyTags?
    ensures HasTags(post) ==> CopyTags(post, post.tags.value) in r
    ensures |tagsClipboard| == 0 ==> forall a | a in r :: !a.PasteTags?
    ensures |tagsClipboard| > 0 ==> PasteTags(post, tagsClipboard) in r
  {
    [ToggleReadLater(post)]
      + (if HasTags(post) then [CopyTags(post, post.tags.value)] else [])
      + (if |tagsClipboard| > 0 then [PasteTags(post, tagsClipboard)] else [])
  }

  /** The six actions every bookmark offers. */
  function Fixed(post: Post): (r: seq<QuickAction>)
    ensures |r| == 6 && InOrder(r)
    ensures forall a | a in r :: a.post == post && 3 <= Rank(a) <= 8
    ensures Edit(post) in r && QuickAction.Delete(post) in r && CopyUrl(post) in r
    ensures Share(post) in r && SubmitToWayback(post) in r && SearchWayback(post) in r
  {
    var r := [Edit(post), QuickAction.Delete(post), CopyUrl(post), Share(post), SubmitToWayback(post), SearchWayback(post)];
    assert forall i | 0 <= i < |r| :: Rank(r[i]) == i + 3;
    r
  }

  /** The optional description action, then the browser. */
  function Trailing(post: Post, displayDescription: string): (r: seq<QuickAction>)
    ensures |r| >= 1 && r[|r| - 1] == OpenBrowser(post)
    ensures InOrder(r)
    ensures forall a | a in r :: a.post == post && Rank(a) >= 9
    ensures ExpandDescription(post) in r <==> !IsBlank(displayDescription)
    ensures (forall a | a in r :: !a.ExpandDescription?) <==> IsBlank(displayDescription)
  {
    (if !IsBlank(displayDescription) then [ExpandDescription(post)] else []) + [OpenBrowser(post)]
  }

  /** Two ordered lists, the first all ranked below the second, make an ordered list. */
  lemma InOrderAppend(a: seq<QuickAction>, b: seq<QuickAction>)
    requires InOrder(a) && InOrder(b)
    requires forall x, y | x in a && y in b :: Rank(x) < Rank(y)
    ensures InOrder(a + b)
  {
    var s := a + b;
    forall i, j | 0 <= i < j < |s| ensures Rank(s[i]) < Rank(s[j]) {
      if j < |a| {
        assert s[i] == a[i] && s[j] == a[j];
      } else if i >= |a| {
        assert s[i] == b[i - |a|] && s[j] == b[j - |a|];
      } else {
        assert s[i] in a && s[j] in b;
      }
    }
  }

  /** Membership in a concatenation of three lists. */
  lemma MembersOfAppend<T>(a: seq<T>, b: seq<T>, c: seq<T>)
    ensures forall x :: x in a + b + c <==> x in a || x in b || x in c
  {
  }

  /** `allOptions`: the toggle first, the browser last, every kind at most once and in a fixed order. */
  function AllOptions(post: Post, tagsClipboard: seq<Tag>, displayDescription: string): (r: seq<QuickAction>)
    ensures |r| >= 8 && r[0] == ToggleReadLater(post) && r[|r| - 1] == OpenBrowser(post)
    ensures InOrder(r)
    ensures forall a | a in r :: a.post == post
  {
    var leading := Leading(post, tagsClipboard);
    var fixed := Fixed(post);
    var trailing := Trailing(post, displayDescription);
    InOrderAppend(leading, fixed);
    InOrderAppend(leading + fixed, trailing);
    MembersOfAppend(leading, fixed, trailing);
    leading + fixed + trailing
  }

  /** Copying tags is offered exactly when the bookmark has tags, with those tags. */
  lemma CopyTagsOffered(post: Post, tagsClipboard: seq<Tag>, displayDescription: string)
    ensures var r := AllOptions(post, tagsClipboard, displayDescription);
      && (HasTags(post) ==> CopyTags(post, post.tags.value) in r)
      && (!HasTags(post) ==> forall a | a in r :: !a.CopyTags?)
  {
    var leading := Leading(post, tagsClipboard);
    var rest := Fixed(post) + Trailing(post, displayDescription);
    assert forall a | a in rest :: Rank(a) >= 3;
    assert forall a | a in leading + rest :: a in leading || a in rest;
  }

  /** Pasting tags is offered exactly when the clipboard holds tags, with the clipboard's tags. */
  lemma PasteTagsOffered(post: Post, tagsClipboard: seq<Tag>, displayDescription: string)
    ensures var r := AllOptions(post, tagsClipboard, displayDescription);
      && (|tagsClipboard| > 0 ==> PasteTags(post, tagsClipboard) in r)
      && (|tagsClipboard| == 0 ==> forall a | a in r :: !a.PasteTags?)
  {
    var leading := Leading(post, tagsClipboard);
    var rest := Fixed(post) + Trailing(post, displayDescription);
    assert forall a | a in rest :: Rank(a) >= 3;
    assert forall a | a in leading + rest :: a in leading || a in rest;
  }

  /** Expanding the description is offered exactly when there is a description to show. */
  lemma DescriptionActionOffered(post: Post, tagsClipboard: seq<Tag>, displayDescription: string)
    ensures var r := AllOptions(post, tagsClipboard, displayDescription);
      && (ExpandDescription(post) in r <==> !IsBlank(displayDescription))
      && (IsBlank(displayDescription) ==> forall a | a in r :: !a.ExpandDescription?)
  {
    var leading := Leading(post, tagsClipboard);
    var fixed := Fixed(post);
    var trailing := Trailing(post, displayDescription);
    MembersOfAppend(leading, fixed, trailing);
    assert forall a | a in leading + fixed :: Rank(a) <= 8;
  }

  /** Editing, deleting, copying the URL, sharing and both Wayback actions are always offered. */
  lemma FixedActionsOffered(post: Post, tagsClipboard: seq<Tag>, displayDescription: string)
    ensures var r := AllOptions(post, tagsClipboard, displayDescription);
      && Edit(post) in r && QuickAction.Delete(post) in r && CopyUrl(post) in r
      && Share(post) in r && SubmitToWayback(post) in r && SearchWayback(post) in r
  {
    MembersOfAppend(Leading(post, tagsClipboard), Fixed(post), Trailing(post, displayDescription));
  }

  /** No two actions of the list share a serialized name. */
  lemma AllOptionsNamesDistinct(post: Post, tagsClipboard: seq<Tag>, displayDescription: string)
    ensures NoDuplicates(MapSeq(AllOptions(post, tagsClipboard, displayDescription), SerializedName))
  {
    var r := AllOptions(post, tagsClipboard, displayDescription);
    var names := MapSeq(r, SerializedName);
    forall i, j | 0 <= i < j < |names| ensures names[i] != names[j] {
      SerializedNamesDistinct(r[i], r[j]);
    }
  }
}

=== FILE: search_reducer.dfy ===
/**
 * `SearchActionHandler` of app/.../appstate/SearchActionHandler.kt: the
 * reducer of the search screen. It edits the search term and the selected
 * tags (at most three, no repeats), keeps the tags offered for selection
 * equal to all known tags minus the selected ones, and hands the finished
 * search back to the post list.
 */
module SearchReducer {
  import opened Domain
  import opened Lists
  import opened AppContent

  /** The most tags a search may filter by. */
  const DEFAULT_FILTER_MAX_TAGS: nat := 3

  datatype SearchAction =
    | RefreshSearchTags
    | SetTerm(term: string)
    | SetSearchTags(tags: seq<Tag>)
    | AddSearchTag(tag: Tag)
    | RemoveSearchTag(tag: Tag)
    | Search
    | ClearSearch
    | ViewSavedFilter(savedFilter: SavedFilter)

  /** The tags offered are exactly the known tags that are not selected. */
  predicate OffersUnselectedTags(c: Content) {
    c.SearchScreen? ==> c.availableTags == FilterNot(c.allTags, c.searchParameters.tags)
  }

  /** The selected tags never exceed the maximum and never repeat. */
  predicate SelectionWithinLimit(c: Content) {
    c.SearchScreen? ==>
      |c.searchParameters.tags| <= DEFAULT_FILTER_MAX_TAGS && NoDuplicates(c.searchParameters.tags)
  }

  /** `RefreshSearchTags`: asks the search screen to reload its tags. */
  function RefreshTags(c: Content): (r: Content)
    ensures c.SearchScreen? ==>
      && r.SearchScreen? && r.shouldLoadTags
      && r.searchParameters == c.searchParameters && r.availableTags == c.availableTags
      && r.allTags == c.allTags && r.previousList == c.previousList
    ensures !c.SearchScreen? ==> r == c
  {
    if c.SearchScreen? then
      SearchScreen(c.searchParameters, c.availableTags, c.allTags, true, c.previousList)
    else c
  }

  /** `SetTerm`: replaces the search term and nothing else. */
  function SetSearchTerm(c: Content, term: string): (r: Content)
    ensures c.SearchScreen? ==>
      && r.SearchScreen? && r.searchParameters.term == term
      && r.searchParameters.tags == c.searchParameters.tags && r.availableTags == c.availableTags
      && r.allTags == c.allTags && r.shouldLoadTags == c.shouldLoadTags
      && r.previousList == c.previousList
    ensures !c.SearchScreen? ==> r == c
  {
    if c.SearchScreen? then
      SearchScreen(c.searchParameters.(term := term), c.availableTags, c.allTags, c.shouldLoadTags, c.previousList)
    else c
  }

  /** `SetSearchTags`: stores the known tags and offers those not selected. */
  function SetTags(c: Content, tags: seq<Tag>): (r: Content)
    ensures c.SearchScreen? ==>
      && r.SearchScreen? && r.allTags == tags && !r.shouldLoadTags
      && (forall t :: t in r.availableTags <==> t in tags && t !in c.searchParameters.tags)
      && r.searchParameters == c.searchParameters && r.previousList == c.previousList
    ensures c.SearchScreen? ==> OffersUnselectedTags(r)
    ensures !c.SearchScreen? ==> r == c
  {
    if c.SearchScreen? then
      SearchScreen(c.searchParameters, FilterNot(tags, c.searchParameters.tags), tags, false, c.previousList)
    else c
  }

  /** A tag can be selected when fewer than the maximum are selected and it is not one of them. */
  predicate CanSelect(c: Content, tag: Tag) {
    c.SearchScreen? && |c.searchParameters.tags| < DEFAULT_FILTER_MAX_TAGS && tag !in c.searchParameters.tags
  }

  /**
   * `AddSearchTag`: selects the tag unless it is already selected or the
   * maximum is reached; the offered tags follow the selection.
   */
  function AddTag(c: Content, tag: Tag): (r: Content)
    ensures !c.SearchScreen? ==> r == c
    ensures c.SearchScreen? && !CanSelect(c, tag) ==> r == c
    ensures CanSelect(c, tag) ==>
        && r.SearchScreen?
        && r.searchParameters.tags == c.searchParameters.tags + [tag]
        && r.searchParameters.term == c.searchParameters.term
        && (forall t :: t in r.availableTags <==> t in c.allTags && t !in r.searchParameters.tags)
        && r.allTags == c.allTags && r.shouldLoadTags == c.shouldLoadTags
        && r.previousList == c.previousList
  {
    if CanSelect(c, tag) then
      var parameters := c.searchParameters.(tags := c.searchParameters.tags + [tag]);
      SearchScreen(parameters, FilterNot(c.allTags, parameters.tags), c.allTags, c.shouldLoadTags, c.previousList)
    else c
  }

  /** `RemoveSearchTag`: drops the tag from the selection; the offered tags follow. */
  function RemoveTag(c: Content, tag: Tag): (r: Content)
    ensures !c.SearchScreen? ==> r == c
    ensures c.SearchScreen? ==>
      && r.SearchScreen?
      && r.searchParameters.tags == RemoveFirst(c.searchParameters.tags, tag)
      && r.searchParameters.term == c.searchParameters.term
      && (forall t :: t in r.availableTags <==> t in c.allTags && t !in r.searchParameters.tags)
      && r.allTags == c.allTags && r.shouldLoadTags == c.shouldLoadTags
      && r.previousList == c.previousList
  {
    if c.SearchScreen? then
      var parameters := c.searchParameters.(tags := RemoveFirst(c.searchParameters.tags, tag));
      SearchScreen(parameters, FilterNot(c.allTags, parameters.tags), c.allTags, c.shouldLoadTags, c.previousList)
    else c
  }

  /** `Search`: back to the post list, showing everything, newest first, with these parameters. */
  function RunSearch(c: Content): (r: Content)
    ensures !c.SearchScreen? ==> r == c
    ensures c.SearchScreen? ==>
      && r.PostListScreen?
      && r.list.category == All
      && r.list.sortType == NewestFirst
      && r.list.searchParameters == c.searchParameters
      && r.list.shouldLoad == ShouldLoadFirstPage
      && r.list.posts == c.previousList.posts
      && r.list.showDescription == c.previousList.showDescription
      && r.list.isConnected == c.previousList.isConnected
      && r.list.canForceSync == c.previousList.canForceSync
  {
    if c.SearchScreen? then
      PostListScreen(c.previousList.(
        category := All,
        sortType := NewestFirst,
        searchParameters := c.searchParameters,
        shouldLoad := ShouldLoadFirstPage))
    else c
  }

  /** The post list with its search cleared and a reload from the first page requested. */
  function Cleared(l: PostListContent): (r: PostListContent)
    ensures r.searchParameters == EmptySearch && r.shouldLoad == ShouldLoadFirstPage
    ensures r.(searchParameters := l.searchParameters, shouldLoad := l.shouldLoad) == l
  {
    l.(searchParameters := EmptySearch, shouldLoad := ShouldLoadFirstPage)
  }

  /**
   * `ClearSearch`: on a post list, on a post's details over a list, and on
   * the search screen itself, the post list loses its search parameters and
   * reloads; the search screen is closed.
   */
  function ClearSearchParameters(c: Content): (r: Content)
    ensures c.PostListScreen? ==> r == PostListScreen(Cleared(c.list))
    ensures c.PostDetail? ==>
      && r.PostDetail? && r.post == c.post && r.isConnected == c.isConnected
      && r.previousList == Cleared(c.previousList)
    ensures c.SearchScreen? ==> r == PostListScreen(Cleared(c.previousList))
    ensures !c.PostListScreen? && !c.PostDetail? && !c.SearchScreen? ==> r == c
  {
    var afterList := if c.PostListScreen? then PostListScreen(Cleared(c.list)) else c;
    var afterDetail :=
      if afterList.PostDetail? then PostDetail(afterList.post, Cleared(afterList.previousList), afterList.isConnected)
      else afterList;
    if afterDetail.SearchScreen? then PostListScreen(Cleared(afterDetail.previousList)) else afterDetail
  }

  /** `ViewSavedFilter`: from the saved filters, the post list filtered by the chosen filter. */
  function ApplySavedFilter(c: Content, filter: SavedFilter): (r: Content)
    ensures !c.SavedFilters? ==> r == c
    ensures c.SavedFilters? ==>
      && r.PostListScreen?
      && r.list.category == All
      && r.list.sortType == NewestFirst
      && r.list.searchParameters == SearchParameters(filter.searchTerm, filter.tags)
      && r.list.shouldLoad == ShouldLoadFirstPage
      && r.list.posts == c.previousList.posts
      && r.list.showDescription == c.previousList.showDescription
      && r.list.isConnected == c.previousList.isConnected
      && r.list.canForceSync == c.previousList.canForceSync
  {
    if c.SavedFilters? then
      PostListScreen(c.previousList.(
        category := All,
        sortType := NewestFirst,
        searchParameters := SearchParameters(filter.searchTerm, filter.tags),
        shouldLoad := ShouldLoadFirstPage))
    else c
  }

  /** `runAction`. */
  function RunAction(action: SearchAction, c: Content): Content {
    match action
    case RefreshSearchTags => RefreshTags(c)
    case SetTerm(term) => SetSearchTerm(c, term)
    case SetSearchTags(tags) => SetTags(c, tags)
    case AddSearchTag(tag) => AddTag(c, tag)
    case RemoveSearchTag(tag) => RemoveTag(c, tag)
    case Search => RunSearch(c)
    case ClearSearch => ClearSearchParameters(c)
    case ViewSavedFilter(filter) => ApplySavedFilter(c, filter)
  }

  /**
   * Every action but `ClearSearch` and `ViewSavedFilter` acts on the search
   * screen only: any other screen comes back unchanged.
   */
  lemma OtherScreensUnchanged(action: SearchAction, c: Content)
    requires !action.ClearSearch? && !action.ViewSavedFilter?
    requires !c.SearchScreen?
    ensures RunAction(action, c) == c
  {
  }

  /** `ClearSearch` leaves screens other than a post list, a post's details or a search alone. */
  lemma ClearSearchIgnoresOtherScreens(c: Content)
    requires !c.PostListScreen? && !c.PostDetail? && !c.SearchScreen?
    ensures RunAction(ClearSearch, c) == c
  {
  }

  /** After `ClearSearch` the nearest post list has no search and reloads from its first page. */
  lemma ClearSearchResetsNearestList(c: Content)
    requires c.PostListScreen? || c.PostDetail? || c.SearchScreen?
    ensures var l := Find(RunAction(ClearSearch, c), PostListKind);
      l.Some? && l.value.list.searchParameters == EmptySearch
      && l.value.list.shouldLoad == ShouldLoadFirstPage
  {
    var r := RunAction(ClearSearch, c);
    if c.PostDetail? {
      assert Previous(r) == PostListScreen(Cleared(c.previousList));
    }
  }

  /** Every search action keeps the offered tags equal to the known tags minus the selected ones. */
  lemma ActionsKeepOfferedTagsConsistent(action: SearchAction, c: Content)
    requires OffersUnselectedTags(c)
    ensures OffersUnselectedTags(RunAction(action, c))
  {
  }

  /** Every search action keeps the selection within the maximum and free of repeats. */
  lemma ActionsKeepSelectionWithinLimit(action: SearchAction, c: Content)
    requires SelectionWithinLimit(c)
    ensures SelectionWithinLimit(RunAction(action, c))
  {
    match action {
      case AddSearchTag(tag) =>
        if c.SearchScreen? && tag !in c.searchParameters.tags {
          var s := c.searchParameters.tags + [tag];
          assert forall i | 0 <= i < |s| - 1 :: s[i] == c.searchParameters.tags[i];
        }
      case RemoveSearchTag(tag) =>
        if c.SearchScreen? {
          RemoveFirstFromDistinct(c.searchParameters.tags, tag);
        }
      case _ =>
    }
  }

  /** Adding a tag and then removing it gives back the selection and the offered tags. */
  lemma AddThenRemoveRestores(c: Content, tag: Tag)
    requires c.SearchScreen? && OffersUnselectedTags(c)
    requires tag !in c.searchParameters.tags
    requires |c.searchParameters.tags| < DEFAULT_FILTER_MAX_TAGS
    ensures RemoveTag(AddTag(c, tag), tag) == c
  {
    var tags := c.searchParameters.tags;
    RemoveLastAdded(tags, tag);
  }

  lemma {:induction false} RemoveLastAdded(s: seq<Tag>, x: Tag)
    requires x !in s
    ensures RemoveFirst(s + [x], x) == s
    decreases |s|
  {
    if |s| == 0 {
      assert s + [x] == [x];
    } else {
      assert (s + [x])[1..] == s[1..] + [x];
      RemoveLastAdded(s[1..], x);
      assert s == [s[0]] + s[1..];
    }
  }
}

=== FILE: stored_post.dfy ===
/**
 * What the two database mappers (the Pinboard `PostDto` and the Linkding
 * `BookmarkLocal`) share: the stored form of a pending offline change, and
 * the stored form of a tag list, one string of space-separated names.
 */
module StoredPost {
  import opened Nullable
  import opened Domain
  import opened Text
  import opened Ordering
  import opened Names

  /** `PendingSyncDto`, the column value of a pending offline change. */
  datatype PendingSyncDto = AddDto | UpdateDto | DeleteDto

  /** The `when (pendingSync)` of `map`. */
  function FromDto(d: Option<PendingSyncDto>): (p: Option<PendingSync>)
    ensures p.None? <==> d.None?
  {
    match d
    case None => None
    case Some(AddDto) => Some(Add)
    case Some(UpdateDto) => Some(Update)
    case Some(DeleteDto) => Some(Delete)
  }

  /** The `when (pendingSync)` of `mapReverse`. */
  function ToDto(p: Option<PendingSync>): (d: Option<PendingSyncDto>)
    ensures d.None? <==> p.None?
  {
    match p
    case None => None
    case Some(Add) => Some(AddDto)
    case Some(Update) => Some(UpdateDto)
    case Some(Delete) => Some(DeleteDto)
  }

  /** The two conversions are inverse bijections. */
  lemma PendingSyncRoundTrips(p: Option<PendingSync>, d: Option<PendingSyncDto>)
    ensures FromDto(ToDto(p)) == p
    ensures ToDto(FromDto(d)) == d
  {
  }

  /** `map(::Tag)`: a tag per name, with no count. */
  function TagsFromNames(names: seq<string>): (tags: seq<Tag>)
    ensures TagNames(tags) == names
    ensures forall i | 0 <= i < |tags| :: tags[i].posts == 0
  {
    var tags := seq(|names|, i requires 0 <= i < |names| => TagNamed(names[i]));
    assert TagNames(tags) == names;
    tags
  }

  /**
   * `split(" ").sorted().map(::Tag)`: the names are the space-separated
   * pieces of the string (empty pieces included), in ascending order.
   */
  function SplitTags(s: string): (tags: seq<Tag>)
    ensures |tags| >= 1
    ensures multiset(TagNames(tags)) == multiset(Split(s, ' '))
    ensures SortedBy(TagNames(tags), NameOrder)
    ensures forall i | 0 <= i < |tags| :: tags[i].posts == 0 && ' ' !in tags[i].name
  {
    var names := SortedStrings(Split(s, ' '));
    assert forall i | 0 <= i < |names| :: names[i] in multiset(Split(s, ' '));
    TagsFromNames(names)
  }

  /** `if (s.isBlank()) null else s.split(" ").sorted().map(::Tag)`: a stored tag list read back. */
  function ParseTags(s: string): (tags: Option<seq<Tag>>)
    ensures tags.None? <==> IsBlank(s)
    ensures tags.Some? ==> tags.value == SplitTags(s)
  {
    if IsBlank(s) then None else Some(SplitTags(s))
  }

  /** `joinToString(" ") { it.name }`. */
  function FormatTags(tags: seq<Tag>): (s: string)
    ensures |tags| == 0 ==> s == ""
    ensures |tags| == 1 ==> s == tags[0].name
  {
    Join(TagNames(tags), " ")
  }

  /** A tag list as the mappers produce it: names without spaces, in order, with no counts. */
  ghost predicate StoredForm(tags: seq<Tag>) {
    && (forall i | 0 <= i < |tags| :: ' ' !in tags[i].name && tags[i].posts == 0)
    && SortedBy(TagNames(tags), NameOrder)
  }

  /** Reading back a written tag list gives it back, when it is in stored form and not blank. */
  lemma ParseFormatTags(tags: seq<Tag>)
    requires StoredForm(tags)
    requires !IsBlank(FormatTags(tags))
    ensures ParseTags(FormatTags(tags)) == Some(tags)
  {
    var names := TagNames(tags);
    assert |tags| >= 1;
    SplitJoin(names, ' ');
    SortedStringsOfSorted(names);
    assert TagsFromNames(names) == tags;
  }
}

=== FILE: tag_manager.dfy ===
/**
 * The edits of `TagManagerDataSource` (app/.../tags/data/
 * TagManagerDataSource.kt): the tag list of the bookmark being edited, the
 * suggestions and the query typed into the tag field. The state is absent
 * (`null`) while no editor is open, and every edit then leaves it absent.
 */
module TagManager {
  import opened Nullable
  import opened Text
  import opened Lists
  import opened Domain
  import opened StoredPost

  /** `TagManagerState`. */
  datatype TagManagerState = TagManagerState(tags: seq<Tag>, suggestedTags: seq<string>, currentQuery: string)

  /** `value.trim().split(" ")`: the words typed, empty pieces included. */
  function TypedWords(value: string): (words: seq<string>)
    ensures |words| >= 1
    ensures forall i | 0 <= i < |words| :: ' ' !in words[i]
    ensures Join(words, " ") == Trim(value)
  {
    JoinSplit(Trim(value), ' ');
    Split(Trim(value), ' ')
  }

  /**
   * `addTag`: every typed word not already a tag name is appended as a new
   * tag, after the existing ones, and the query is cleared.
   */
  function AddTag(state: Option<TagManagerState>, value: string): (r: Option<TagManagerState>)
    ensures r.None? <==> state.None?
    ensures state.Some? ==>
      && |state.value.tags| <= |r.value.tags|
      && r.value.tags[..|state.value.tags|] == state.value.tags
      && (forall w :: w in TagNames(r.value.tags[|state.value.tags|..])
            <==> w in TypedWords(value) && w !in TagNames(state.value.tags))
      && (forall t | t in r.value.tags[|state.value.tags|..] :: t.posts == 0)
      && (forall w :: multiset(TagNames(r.value.tags[|state.value.tags|..]))[w]
            == if w in TagNames(state.value.tags) then 0 else multiset(TypedWords(value))[w])
      && r.value.currentQuery == ""
      && r.value.suggestedTags == state.value.suggestedTags
  {
    match state
    case None => None
    case Some(current) =>
      var newNames := FilterNot(TypedWords(value), TagNames(current.tags));
      var added := TagsFromNames(newNames);
      var tags := current.tags + added;
      assert tags[..|current.tags|] == current.tags;
      assert tags[|current.tags|..] == added;
      assert forall t | t in added :: t.posts == 0;
      assert TagNames(added) == newNames;
      FilterNotCounts(TypedWords(value), TagNames(current.tags));
      assert forall w :: multiset(TagNames(tags[|current.tags|..]))[w] == multiset(newNames)[w];
      Some(current.(tags := tags, currentQuery := ""))
  }

  /** The appended tags keep the order in which their names were typed. */
  lemma AddTagKeepsTypedOrder(current: TagManagerState, value: string)
    ensures var r := AddTag(Some(current), value).value;
      IsSubsequence(TagNames(r.tags[|current.tags|..]), TypedWords(value))
  {
    var newNames := FilterNot(TypedWords(value), TagNames(current.tags));
    var tags := current.tags + TagsFromNames(newNames);
    assert AddTag(Some(current), value).value.tags == tags;
    assert tags[|current.tags|..] == TagsFromNames(newNames);
    FilterNotInOrder(TypedWords(value), TagNames(current.tags));
  }

  /** Typing only names that are already tags changes nothing but the query. */
  lemma AddingPresentTagsKeepsTags(current: TagManagerState, value: string)
    requires forall w | w in TypedWords(value) :: w in TagNames(current.tags)
    ensures AddTag(Some(current), value) == Some(current.(currentQuery := ""))
  {
    var newNames := FilterNot(TypedWords(value), TagNames(current.tags));
    assert AddTag(Some(current), value) == Some(current.(tags := current.tags + TagsFromNames(newNames), currentQuery := ""));
    FilterNotAll(TypedWords(value), TagNames(current.tags));
    assert TagsFromNames([]) == [];
    assert current.tags + [] == current.tags;
  }

  /**
   * A blank input is one empty word, so it adds a tag with an empty name
   * unless one is already there.
   */
  lemma BlankInputAddsEmptyName(current: TagManagerState, value: string)
    requires IsBlank(value)
    requires "" !in TagNames(current.tags)
    ensures AddTag(Some(current), value).value.tags == current.tags + [TagNamed("")]
  {
    assert Trim(value) == "";
    assert TypedWords(value) == [""];
    var newNames := FilterNot([""], TagNames(current.tags));
    assert newNames == [""];
    assert TagsFromNames(newNames) == [TagNamed("")];
  }

  /** `removeTag`: the first occurrence of the tag goes, everything else stays. */
  function RemoveTag(state: Option<TagManagerState>, tag: Tag): (r: Option<TagManagerState>)
    ensures r.None? <==> state.None?
    ensures state.Some? ==>
      && multiset(r.value.tags) == multiset(state.value.tags) - multiset{tag}
      && (tag !in state.value.tags ==> r.value.tags == state.value.tags)
      && r.value.suggestedTags == state.value.suggestedTags
      && r.value.currentQuery == state.value.currentQuery
  {
    match state
    case None => None
    case Some(current) => Some(current.(tags := RemoveFirst(current.tags, tag)))
  }

  /** `setTagSearchQuery`: only the query changes. */
  function SetTagSearchQuery(state: Option<TagManagerState>, value: string): (r: Option<TagManagerState>)
    ensures r.None? <==> state.None?
    ensures state.Some? ==>
      && r.value.currentQuery == value
      && r.value.tags == state.value.tags
      && r.value.suggestedTags == state.value.suggestedTags
  {
    match state
    case None => None
    case Some(current) => Some(current.(currentQuery := value))
  }

  /** Removing a tag that was just added by name undoes the addition, up to the cleared query. */
  lemma RemoveUndoesAdd(current: TagManagerState, name: string)
    requires |name| > 0 && !IsWhitespace(name[0]) && !IsWhitespace(name[|name| - 1])
    requires ' ' !in name
    requires name !in TagNames(current.tags)
    requires TagNamed(name) !in current.tags
    ensures RemoveTag(AddTag(Some(current), name), TagNamed(name)) == Some(current.(currentQuery := ""))
  {
    TrimKeepsTrimmed(name);
    assert TypedWords(name) == [name] by {
      SplitJoin([name], ' ');
    }
    assert FilterNot([name], TagNames(current.tags)) == [name];
    var tags := current.tags + [TagNamed(name)];
    assert AddTag(Some(current), name).value.tags == tags;
    RemoveLast(current.tags, TagNamed(name));
  }

  lemma {:induction false} RemoveLast(s: seq<Tag>, x: Tag)
    requires x !in s
    ensures RemoveFirst(s + [x], x) == s
    decreases |s|
  {
    if |s| > 0 {
      assert (s + [x])[1..] == s[1..] + [x];
      RemoveLast(s[1..], x);
    }
  }
}

=== FILE: tags_data.dfy ===
/**
 * `TagsDataSource` (bookmarking/.../tags/data/TagsDataSource.kt): the tag
 * list counted from the locally stored bookmarks, the one the API returns,
 * the cache that remembers the last good list, and renaming.
 *
 * The DAO and the network are parameters: the DAO's tag strings (or the
 * exception it threw), the API's tag map (or its failure) and the rename
 * response arrive as values.
 */
module TagsData {
  import opened Nullable
  import opened Either
  import opened Text
  import opened Ordering
  import opened Lists
  import opened Domain
  import opened TagsViewModel

  /** `PinboardApiResultCode.DONE.value`, the result code of a successful call. */
  const DONE: string := "done"

  // ---------------------------------------------------------------------
  // Counting the local tags
  // ---------------------------------------------------------------------

  /** `flatMap { it.split(" ") }`: every space-separated token of every bookmark. */
  function Tokens(concatenated: seq<string>): (tokens: seq<string>)
    ensures forall t | t in tokens :: ' ' !in t
    decreases |concatenated|
  {
    if |concatenated| == 0 then []
    else Split(concatenated[0], ' ') + Tokens(concatenated[1..])
  }

  /** `groupBy { it }.map { (tag, postList) -> Tag(tag, postList.size) }`, for the group keys `keys`. */
  function Grouped(keys: seq<string>, tokens: seq<string>): (tags: seq<Tag>)
    ensures TagNames(tags) == keys
    ensures forall t | t in tags :: t.posts == multiset(tokens)[t.name]
  {
    var tags := seq(|keys|, i requires 0 <= i < |keys| => Tag(keys[i], multiset(tokens)[keys[i]]));
    assert TagNames(tags) == keys;
    tags
  }

  /** The sum of the counts of a tag list. */
  function SumPosts(tags: seq<Tag>): int
    decreases |tags|
  {
    if |tags| == 0 then 0 else tags[0].posts + SumPosts(tags[1..])
  }

  /**
   * The `mapCatching` body of `getLocalTags`: one tag per distinct token,
   * counting its occurrences, sorted by name.
   */
  function LocalTags(concatenated: seq<string>): (tags: seq<Tag>)
    ensures SortedBy(tags, ByName)
    ensures NoDuplicates(TagNames(tags))
    ensures forall w :: w in TagNames(tags) <==> w in Tokens(concatenated)
    ensures forall t | t in tags :: t.posts == multiset(Tokens(concatenated))[t.name] && t.posts > 0
    ensures SumPosts(tags) == |Tokens(concatenated)|
  {
    var tokens := Tokens(concatenated);
    var grouped := Grouped(Distinct(tokens), tokens);
    var tags := SortBy(grouped, ByName);
    OrderIsTotal(AtoZ);
    SortBySorted(grouped, ByName);
    assert multiset(tags) == multiset(grouped);
    assert forall t | t in tags :: t in grouped by {
      forall t | t in tags ensures t in grouped {
        assert t in multiset(tags);
      }
    }
    assert forall t | t in grouped :: t in tags by {
      forall t | t in grouped ensures t in tags {
        assert t in multiset(grouped);
      }
    }
    assert forall t | t in tags :: t.posts > 0 by {
      forall t | t in tags ensures t.posts > 0 {
        assert t.name in TagNames(grouped);
        assert t.name in tokens;
      }
    }
    GroupedAreDistinct(Distinct(tokens), tokens);
    NoDuplicatesPermutation(grouped, tags);
    SameNameSameTag(tags, tokens);
    NamesOfSameTags(grouped, tags);
    SumOfSort(grouped, ByName);
    GroupedSum(Distinct(tokens), tokens);
    DistinctCountsSum(tokens);
    tags
  }

  /** Grouped tags with distinct names are distinct tags. */
  lemma GroupedAreDistinct(keys: seq<string>, tokens: seq<string>)
    requires NoDuplicates(keys)
    ensures NoDuplicates(Grouped(keys, tokens))
  {
    var g := Grouped(keys, tokens);
    forall i, j | 0 <= i < j < |g| ensures g[i] != g[j] {
      assert TagNames(g)[i] == g[i].name && TagNames(g)[j] == g[j].name;
    }
  }

  /** In a duplicate-free list where the count follows from the name, names are distinct too. */
  lemma SameNameSameTag(tags: seq<Tag>, tokens: seq<string>)
    requires NoDuplicates(tags)
    requires forall t | t in tags :: t.posts == multiset(tokens)[t.name]
    ensures NoDuplicates(TagNames(tags))
  {
    forall i, j | 0 <= i < j < |tags| ensures tags[i].name != tags[j].name {
      assert tags[i] in tags && tags[j] in tags;
      assert tags[i] != tags[j];
    }
  }

  /** Two lists holding the same tags hold the same names. */
  lemma NamesOfSameTags(a: seq<Tag>, b: seq<Tag>)
    requires forall t :: t in a <==> t in b
    ensures forall w :: w in TagNames(a) <==> w in TagNames(b)
  {
    forall w | w in TagNames(a) ensures w in TagNames(b) {
      var i :| 0 <= i < |a| && TagNames(a)[i] == w;
      assert a[i] in b;
      var j :| 0 <= j < |b| && b[j] == a[i];
      assert TagNames(b)[j] == w;
    }
    forall w | w in TagNames(b) ensures w in TagNames(a) {
      var i :| 0 <= i < |b| && TagNames(b)[i] == w;
      assert b[i] in a;
      var j :| 0 <= j < |a| && a[j] == b[i];
      assert TagNames(a)[j] == w;
    }
  }

  /** Sorting by any ordering keeps the sum of the counts. */
  lemma {:induction false} SumOfSort(tags: seq<Tag>, le: (Tag, Tag) -> bool)
    ensures SumPosts(SortBy(tags, le)) == SumPosts(tags)
    decreases |tags|
  {
    if |tags| > 0 {
      SumOfSort(tags[1..], le);
      SumOfInsert(tags[0], SortBy(tags[1..], le), le);
    }
  }

  lemma {:induction false} SumOfInsert(x: Tag, s: seq<Tag>, le: (Tag, Tag) -> bool)
    ensures SumPosts(Insert(x, s, le)) == x.posts + SumPosts(s)
    decreases |s|
  {
    if |s| > 0 {
      if le(x, s[0]) {
        assert ([x] + s)[1..] == s;
      } else {
        SumOfInsert(x, s[1..], le);
        assert ([s[0]] + Insert(x, s[1..], le))[1..] == Insert(x, s[1..], le);
      }
    }
  }

  /** The sum of the occurrence counts of `keys` in `tokens`. */
  function SumCounts(keys: seq<string>, tokens: seq<string>): int
    decreases |keys|
  {
    if |keys| == 0 then 0 else multiset(tokens)[keys[0]] + SumCounts(keys[1..], tokens)
  }

  lemma {:induction false} GroupedSum(keys: seq<string>, tokens: seq<string>)
    ensures SumPosts(Grouped(keys, tokens)) == SumCounts(keys, tokens)
    decreases |keys|
  {
    if |keys| > 0 {
      GroupedSum(keys[1..], tokens);
      assert Grouped(keys, tokens)[1..] == Grouped(keys[1..], tokens);
    }
  }

  lemma {:induction false} SumCountsAppendKey(keys: seq<string>, x: string, tokens: seq<string>)
    ensures SumCounts(keys + [x], tokens) == SumCounts(keys, tokens) + multiset(tokens)[x]
    decreases |keys|
  {
    if |keys| > 0 {
      assert (keys + [x])[1..] == keys[1..] + [x];
      SumCountsAppendKey(keys[1..], x, tokens);
    }
  }

  lemma {:induction false} SumCountsAppendToken(keys: seq<string>, tokens: seq<string>, y: string)
    requires NoDuplicates(keys)
    ensures SumCounts(keys, tokens + [y]) == SumCounts(keys, tokens) + (if y in keys then 1 else 0)
    decreases |keys|
  {
    if |keys| > 0 {
      assert NoDuplicates(keys[1..]);
      assert y in keys <==> y == keys[0] || y in keys[1..];
      assert keys[0] !in keys[1..];
      SumCountsAppendToken(keys[1..], tokens, y);
      assert multiset(tokens + [y]) == multiset(tokens) + multiset{y};
    }
  }

  /** Every token is counted once, under its own name: the counts add up to the number of tokens. */
  lemma {:induction false} DistinctCountsSum(tokens: seq<string>)
    ensures SumCounts(Distinct(tokens), tokens) == |tokens|
    decreases |tokens|
  {
    if |tokens| > 0 {
      var p := tokens[..|tokens| - 1];
      var y := tokens[|tokens| - 1];
      assert tokens == p + [y];
      DistinctCountsSum(p);
      var d := Distinct(p);
      SumCountsAppendToken(d, p, y);
      if y !in d {
        SumCountsAppendKey(d, y, tokens);
        assert y !in p;
        assert multiset(tokens)[y] == multiset(p)[y] + 1;
      }
    }
  }

  // ---------------------------------------------------------------------
  // The counting test case of the tags data source
  // (TagsDataSourcePinboardApiTest.kt:116-137), stated once for any three
  // names and then for the test's own. These are worked examples, not
  // properties of `LocalTags`; the properties are its contract above.
  // ---------------------------------------------------------------------

  /** Test case, step 1: the tokens of the four tag strings. */
  lemma ExampleTokens(a: string, b: string, c: string)
    requires ' ' !in a && ' ' !in b && ' ' !in c
    ensures Tokens([a + " " + b, a, b, c]) == [a, b, a, b, c]
  {
    var cs := [a + " " + b, a, b, c];
    SplitJoin([a, b], ' ');
    assert Join([a, b], " ") == a + " " + b;
    SplitJoin([a], ' ');
    SplitJoin([b], ' ');
    SplitJoin([c], ' ');
    assert cs[1..][1..][1..][1..] == [];
    assert Tokens(cs[1..][1..][1..]) == [c];
    assert Tokens(cs[1..][1..]) == [b, c];
    assert Tokens(cs[1..]) == [a, b, c];
  }

  /** Test case, step 2: the distinct tokens, in first-occurrence order. */
  lemma ExampleDistinct(a: string, b: string, c: string)
    requires a != b && b != c && a != c
    ensures Distinct([a, b, a, b, c]) == [a, b, c]
  {
    var tokens := [a, b, a, b, c];
    assert tokens[..4] == [a, b, a, b];
    assert [a, b, a, b][..3] == [a, b, a];
    assert [a, b, a][..2] == [a, b];
    assert [a, b][..1] == [a];
    assert Distinct([a]) == [a];
    assert Distinct([a, b]) == [a, b];
    assert Distinct([a, b, a]) == [a, b];
    assert Distinct([a, b, a, b]) == [a, b];
  }

  /** Test case, step 3: each distinct token with its number of occurrences. */
  lemma ExampleGrouped(a: string, b: string, c: string)
    requires a != b && b != c && a != c
    ensures Grouped([a, b, c], [a, b, a, b, c]) == [Tag(a, 2), Tag(b, 2), Tag(c, 1)]
  {
    var tokens := [a, b, a, b, c];
    var m := multiset(tokens);
    assert tokens == [a] + [b] + [a] + [b] + [c];
    assert m == multiset([a]) + multiset([b]) + multiset([a]) + multiset([b]) + multiset([c]);
    assert m[a] == 2 && m[b] == 2 && m[c] == 1;
    var g := Grouped([a, b, c], tokens);
    assert g[0] == Tag(a, m[a]) && g[1] == Tag(b, m[b]) && g[2] == Tag(c, m[c]);
  }

  /** Test case, step 4: names already in order stay in order. */
  lemma ExampleSorted(a: string, b: string, c: string)
    requires LexLe(a, b) && LexLe(b, c)
    ensures SortBy([Tag(a, 2), Tag(b, 2), Tag(c, 1)], ByName) == [Tag(a, 2), Tag(b, 2), Tag(c, 1)]
  {
    LexLeTransitive(a, b, c);
    var e := [Tag(a, 2), Tag(b, 2), Tag(c, 1)];
    assert SortedBy(e, ByName);
    SortByOfSorted(e, ByName);
  }

  /**
   * Test case, all steps: three distinct space-free names in order, the first two sharing a
   * bookmark: each counted once per bookmark carrying it, sorted by name.
   */
  lemma CountingExampleGeneral(a: string, b: string, c: string)
    requires ' ' !in a && ' ' !in b && ' ' !in c
    requires a != b && b != c && a != c
    requires LexLe(a, b) && LexLe(b, c)
    ensures LocalTags([a + " " + b, a, b, c]) == [Tag(a, 2), Tag(b, 2), Tag(c, 1)]
  {
    ExampleTokens(a, b, c);
    ExampleDistinct(a, b, c);
    ExampleGrouped(a, b, c);
    ExampleSorted(a, b, c);
  }

  /** The test case itself: "tag1 tag2", "tag1", "tag2" and "tag3" give tag1:2, tag2:2 and tag3:1. */
  lemma CountingExample()
    ensures LocalTags(["tag1 tag2", "tag1", "tag2", "tag3"]) == [Tag("tag1", 2), Tag("tag2", 2), Tag("tag3", 1)]
  {
    var a, b, c := "tag1", "tag2", "tag3";
    assert a + " " + b == "tag1 tag2";
    assert LexLe(a, b) && LexLe(b, c);
    CountingExampleGeneral(a, b, c);
  }

  /** `getLocalTags`: the cached list if there is one, otherwise the DAO's tag strings counted. */
  function GetLocalTags(cache: Option<seq<Tag>>, dao: Outcome<seq<string>>): (r: Result<seq<Tag>>)
    ensures cache.Some? ==> r == Right(cache.value)
    ensures cache.None? && dao.Threw? ==> r == Left(dao.error)
    ensures cache.None? && dao.Returned? ==> r == Right(LocalTags(dao.value))
    ensures cache.None? && dao.Returned? ==> r.Right? && SumPosts(r.right) == |Tokens(dao.value)|
  {
    if cache.Some? then Right(cache.value)
    else MapCatching(Catching(() => dao), (c: seq<string>) => Returned(LocalTags(c)))
  }

  // ---------------------------------------------------------------------
  // The tags the API returns
  // ---------------------------------------------------------------------

  /** `map { (tag, postCount) -> Tag(tag, postCount) }`. */
  function EntryTags(entries: seq<(string, int)>): (tags: seq<Tag>)
    ensures |tags| == |entries|
    ensures forall i | 0 <= i < |entries| :: tags[i] == Tag(entries[i].0, entries[i].1)
  {
    MapSeq(entries, (e: (string, int)) => Tag(e.0, e.1))
  }

  /** The `mapCatching` body of `getRemoteTags`: the API's entries as tags, sorted by name. */
  function RemoteTags(entries: seq<(string, int)>): (tags: seq<Tag>)
    ensures multiset(tags) == multiset(EntryTags(entries))
    ensures SortedBy(tags, ByName)
  {
    OrderIsTotal(AtoZ);
    SortBySorted(EntryTags(entries), ByName);
    SortBy(EntryTags(entries), ByName)
  }

  /**
   * The API sends a map, whose iteration order is not specified: any order
   * of the same entries, with distinct names, gives the same tag list.
   */
  lemma RemoteTagsIgnoreEntryOrder(a: seq<(string, int)>, b: seq<(string, int)>)
    requires forall i, j | 0 <= i < j < |a| :: a[i].0 != a[j].0
    requires multiset(a) == multiset(b)
    ensures RemoteTags(a) == RemoteTags(b)
  {
    var ta := RemoteTags(a);
    var tb := RemoteTags(b);
    MapSeqPermutation(a, b, (e: (string, int)) => Tag(e.0, e.1));
    OrderIsTotal(AtoZ);
    forall x, y | x in ta && y in ta && ByName(x, y) && ByName(y, x) ensures x == y {
      LexLeAntisymmetric(x.name, y.name);
      assert x in multiset(EntryTags(a)) && y in multiset(EntryTags(a));
      var i :| 0 <= i < |a| && EntryTags(a)[i] == x;
      var j :| 0 <= j < |a| && EntryTags(a)[j] == y;
      assert a[i].0 == a[j].0;
      assert i == j;
    }
    SortedPermutationUnique(ta, tb, ByName);
  }

  /** `getRemoteTags`: a network failure is passed on; otherwise the sorted tags. */
  function GetRemoteTags(network: Result<seq<(string, int)>>): (r: Result<seq<Tag>>)
    ensures network.Left? ==> r == Left(network.left)
    ensures network.Right? ==> r.Right? && multiset(r.right) == multiset(EntryTags(network.right))
    ensures network.Right? ==> r == Right(RemoteTags(network.right))
  {
    MapCatching(network, (entries: seq<(string, int)>) => Returned(RemoteTags(entries)))
  }

  /**
   * `getAllTags` and its `onEach`: the local list is emitted first, the remote
   * one after it only in Pinboard mode while connected; every successful
   * emission replaces the cache.
   */
  function GetAllTags(
    cache: Option<seq<Tag>>,
    dao: Outcome<seq<string>>,
    pinboardMode: bool,
    connected: bool,
    network: Result<seq<(string, int)>>): (r: (seq<Result<seq<Tag>>>, Option<seq<Tag>>))
    ensures |r.0| == (if pinboardMode && connected then 2 else 1)
    ensures r.0[0] == GetLocalTags(cache, dao)
    ensures |r.0| == 2 ==> r.0[1] == GetRemoteTags(network)
    ensures r.1.Some? <==> cache.Some? || exists i | 0 <= i < |r.0| :: r.0[i].Right?
    ensures r.0[|r.0| - 1].Right? ==> r.1 == Some(r.0[|r.0| - 1].right)
  {
    var local := GetLocalTags(cache, dao);
    var emitted := if pinboardMode && connected then [local, GetRemoteTags(network)] else [local];
    (emitted, Remembered(cache, emitted))
  }

  /** The cache after the emissions: the last successful list, or the old cache if none succeeded. */
  function Remembered(cache: Option<seq<Tag>>, emitted: seq<Result<seq<Tag>>>): (c: Option<seq<Tag>>)
    ensures c.Some? <==> cache.Some? || exists i | 0 <= i < |emitted| :: emitted[i].Right?
    ensures |emitted| > 0 && emitted[|emitted| - 1].Right? ==> c == Some(emitted[|emitted| - 1].right)
    decreases |emitted|
  {
    if |emitted| == 0 then cache
    else
      var last := emitted[|emitted| - 1];
      var before := Remembered(cache, emitted[..|emitted| - 1]);
      assert forall i | 0 <= i < |emitted| - 1 :: emitted[..|emitted| - 1][i] == emitted[i];
      if last.Right? then Some(last.right) else before
  }

  // ---------------------------------------------------------------------
  // Renaming
  // ---------------------------------------------------------------------

  /** `map { tag -> if (tag.name == oldName) tag.copy(name = newName) else tag }`. */
  function RenameLocal(tags: seq<Tag>, oldName: string, newName: string): (r: seq<Tag>)
    ensures |r| == |tags|
    ensures forall i | 0 <= i < |tags| :: r[i].posts == tags[i].posts
    ensures forall i | 0 <= i < |tags| && tags[i].name != oldName :: r[i] == tags[i]
    ensures forall i | 0 <= i < |tags| && tags[i].name == oldName :: r[i].name == newName
  {
    seq(|tags|, i requires 0 <= i < |tags| => if tags[i].name == oldName then tags[i].(name := newName) else tags[i])
  }

  /** Renaming to a name no tag has yet, then back, restores the list. */
  lemma RenameBack(tags: seq<Tag>, oldName: string, newName: string)
    requires forall t | t in tags :: t.name != newName
    ensures RenameLocal(RenameLocal(tags, oldName, newName), newName, oldName) == tags
  {
    var once := RenameLocal(tags, oldName, newName);
    var twice := RenameLocal(once, newName, oldName);
    forall i | 0 <= i < |tags| ensures twice[i] == tags[i] {
      assert tags[i] in tags;
    }
  }

  /**
   * `renameTag`: a network failure is passed on; a result other than `DONE`
   * becomes an API failure; on `DONE` the cached list is renamed and
   * returned, or without a cache the remote list is fetched. The second
   * component is the cache afterwards.
   */
  function RenameTag(
    response: Result<string>,
    cache: Option<seq<Tag>>,
    oldName: string,
    newName: string,
    network: Result<seq<(string, int)>>): (r: (Result<seq<Tag>>, Option<seq<Tag>>))
    ensures response.Left? ==> r == (Left(response.left), cache)
    ensures response.Right? && response.right != DONE ==> r == (Left(ApiError(response.right)), cache)
    ensures response == Right(DONE) && cache.Some? ==>
      && r.1 == Some(RenameLocal(cache.value, oldName, newName))
      && r.0 == Right(RenameLocal(cache.value, oldName, newName))
    ensures response == Right(DONE) && cache.None? ==> r == (GetRemoteTags(network), None)
  {
    match response
    case Left(e) => (Left(e), cache)
    case Right(code) =>
      if code == DONE then
        var renamed := if cache.Some? then Some(RenameLocal(cache.value, oldName, newName)) else None;
        (if renamed.Some? then Right(renamed.value) else GetRemoteTags(network), renamed)
      else (Left(ApiError(code)), cache)
  }

  /** A rename keeps every count of the cached list. */
  lemma RenameKeepsCounts(tags: seq<Tag>, oldName: string, newName: string)
    ensures SumPosts(RenameLocal(tags, oldName, newName)) == SumPosts(tags)
  {
    SumOfSameCounts(RenameLocal(tags, oldName, newName), tags);
  }

  lemma {:induction false} SumOfSameCounts(a: seq<Tag>, b: seq<Tag>)
    requires |a| == |b|
    requires forall i | 0 <= i < |a| :: a[i].posts == b[i].posts
    ensures SumPosts(a) == SumPosts(b)
    decreases |a|
  {
    if |a| > 0 {
      SumOfSameCounts(a[1..], b[1..]);
    }
  }
}

=== FILE: tags_view_model.dfy ===
/**
 * The pure part of `TagsViewModel` (bookmarking/.../tags/presentation/
 * TagsViewModel.kt): sorting the tag list, the search query, and the list
 * the screen shows for that query.
 */
module TagsViewModel {
  import opened Text
  import opened Ordering
  import opened Domain
  import opened Lists

  datatype TagSorting = AtoZ | MoreFirst | LessFirst

  /** `TagsViewModel.State`. */
  datatype State = State(allTags: seq<Tag>, currentSorting: TagSorting, currentQuery: string, isLoading: bool)

  /** `State()`: no tags, alphabetical, no query, loading. */
  const InitialState: State := State([], AtoZ, "", true)

  /** `sortedBy(Tag::name)`. */
  const ByName: (Tag, Tag) -> bool := (a: Tag, b: Tag) => LexLe(a.name, b.name)
  /** `sortedByDescending(Tag::posts)`. */
  const ByPostsDescending: (Tag, Tag) -> bool := (a: Tag, b: Tag) => a.posts >= b.posts
  /** `sortedBy(Tag::posts)`. */
  const ByPostsAscending: (Tag, Tag) -> bool := (a: Tag, b: Tag) => a.posts <= b.posts

  /** The ordering each sorting option sorts by. */
  function OrderOf(sorting: TagSorting): (Tag, Tag) -> bool {
    match sorting
    case AtoZ => ByName
    case MoreFirst => ByPostsDescending
    case LessFirst => ByPostsAscending
  }

  /** Each of the three orderings compares every pair of tags consistently. */
  lemma OrderIsTotal(sorting: TagSorting)
    ensures TotalPreorder(OrderOf(sorting))
  {
    if sorting == AtoZ {
      forall a: Tag, b: Tag ensures ByName(a, b) || ByName(b, a) {
        LexLeTotal(a.name, b.name);
      }
      forall a: Tag, b: Tag, c: Tag | ByName(a, b) && ByName(b, c) ensures ByName(a, c) {
        LexLeTransitive(a.name, b.name, c.name);
      }
    }
  }

  /**
   * The `when (sorting)` of `sortTags`: a stable sort, so the result is
   * ordered, holds the same tags, and keeps tags the ordering cannot tell
   * apart in their original order.
   */
  function SortedTags(tags: seq<Tag>, sorting: TagSorting): (r: seq<Tag>)
    ensures multiset(r) == multiset(tags)
    ensures SortedBy(r, OrderOf(sorting))
    ensures forall x :: EquivalentsOf(r, x, OrderOf(sorting)) == EquivalentsOf(tags, x, OrderOf(sorting))
  {
    OrderIsTotal(sorting);
    SortBySorted(tags, OrderOf(sorting));
    forall x ensures EquivalentsOf(SortBy(tags, OrderOf(sorting)), x, OrderOf(sorting)) == EquivalentsOf(tags, x, OrderOf(sorting)) {
      SortByStable(tags, x, OrderOf(sorting));
    }
    SortBy(tags, OrderOf(sorting))
  }

  /** `sortTags`: the sorted tags, the sorting and the query are stored, and loading ends. */
  function SortTags(s: State, tags: seq<Tag>, sorting: TagSorting, searchQuery: string): (r: State)
    ensures multiset(r.allTags) == multiset(tags)
    ensures SortedBy(r.allTags, OrderOf(sorting))
    ensures r.currentSorting == sorting && r.currentQuery == searchQuery && !r.isLoading
  {
    s.(allTags := SortedTags(tags, sorting), currentSorting := sorting, currentQuery := searchQuery, isLoading := false)
  }

  /** Sorting again by the stored sorting (the default arguments) changes nothing but the loading flag. */
  lemma ResortIsIdempotent(s: State, tags: seq<Tag>, sorting: TagSorting, searchQuery: string)
    ensures var r := SortTags(s, tags, sorting, searchQuery);
      SortTags(r, r.allTags, r.currentSorting, r.currentQuery) == r
  {
    var r := SortTags(s, tags, sorting, searchQuery);
    SortByOfSorted(r.allTags, OrderOf(sorting));
  }

  /** `searchTags`: only the query changes. */
  function SearchTags(s: State, query: string): (r: State)
    ensures r.currentQuery == query
    ensures r.allTags == s.allTags && r.currentSorting == s.currentSorting && r.isLoading == s.isLoading
  {
    s.(currentQuery := query)
  }

  /** Whether `filteredTags` shows a tag for a query. */
  predicate Matches(t: Tag, query: string) {
    IsBlank(query) || StartsWithIgnoreCase(t.name, query)
  }

  /** The tags of `tags` that match `query`, in their order. */
  function TagsMatching(tags: seq<Tag>, query: string): (r: seq<Tag>)
    ensures |r| <= |tags|
    ensures forall t :: t in r <==> t in tags && Matches(t, query)
    decreases |tags|
  {
    if |tags| == 0 then []
    else
      assert forall t | t in tags[1..] :: t in tags;
      assert tags == [tags[0]] + tags[1..];
      (if Matches(tags[0], query) then [tags[0]] else []) + TagsMatching(tags[1..], query)
  }

  /** Filtering keeps each matching tag as often as the list holds it, and drops the others. */
  lemma {:induction false} TagsMatchingCounts(tags: seq<Tag>, query: string)
    ensures forall t :: multiset(TagsMatching(tags, query))[t] == if Matches(t, query) then multiset(tags)[t] else 0
    decreases |tags|
  {
    if |tags| > 0 {
      var rest := TagsMatching(tags[1..], query);
      TagsMatchingCounts(tags[1..], query);
      assert tags == [tags[0]] + tags[1..];
      assert multiset(tags) == multiset{tags[0]} + multiset(tags[1..]);
      var head := if Matches(tags[0], query) then [tags[0]] else [];
      assert TagsMatching(tags, query) == head + rest;
      assert multiset(head + rest) == multiset(head) + multiset(rest);
      forall t ensures multiset(TagsMatching(tags, query))[t] == if Matches(t, query) then multiset(tags)[t] else 0 {
        if t == tags[0] {
        } else {
          assert multiset(head)[t] == 0;
        }
      }
    }
  }

  /** Filtering keeps the list's order. */
  lemma {:induction false} TagsMatchingInOrder(tags: seq<Tag>, query: string)
    ensures IsSubsequence(TagsMatching(tags, query), tags)
    decreases |tags|
  {
    if |tags| > 0 {
      var rest := TagsMatching(tags[1..], query);
      TagsMatchingInOrder(tags[1..], query);
      assert tags == [tags[0]] + tags[1..];
      ConsSubsequence(tags[0], rest, tags);
      if Matches(tags[0], query) {
        assert TagsMatching(tags, query) == [tags[0]] + rest;
      } else {
        assert TagsMatching(tags, query) == [] + rest;
        assert [] + rest == rest;
      }
    }
  }

  /** `State.filteredTags`. */
  function FilteredTags(s: State): (r: seq<Tag>)
    ensures IsBlank(s.currentQuery) ==> r == s.allTags
    ensures forall t :: t in r <==> t in s.allTags && Matches(t, s.currentQuery)
    ensures forall t :: multiset(r)[t] == if Matches(t, s.currentQuery) then multiset(s.allTags)[t] else 0
    ensures IsSubsequence(r, s.allTags)
  {
    TagsMatchingCounts(s.allTags, s.currentQuery);
    TagsMatchingInOrder(s.allTags, s.currentQuery);
    assert IsBlank(s.currentQuery) ==> TagsMatching(s.allTags, s.currentQuery) == s.allTags by {
      if IsBlank(s.currentQuery) {
        AllMatchBlank(s.allTags, s.currentQuery);
      }
    }
    TagsMatching(s.allTags, s.currentQuery)
  }

  lemma {:induction false} AllMatchBlank(tags: seq<Tag>, query: string)
    requires IsBlank(query)
    ensures TagsMatching(tags, query) == tags
    decreases |tags|
  {
    if |tags| > 0 {
      AllMatchBlank(tags[1..], query);
      assert tags == [tags[0]] + tags[1..];
    }
  }

  /** Filtering keeps the order of the tags: a sorted list stays sorted under any ordering. */
  lemma {:induction false} FilteringKeepsOrder(tags: seq<Tag>, query: string, le: (Tag, Tag) -> bool)
    requires SortedBy(tags, le)
    ensures SortedBy(TagsMatching(tags, query), le)
    decreases |tags|
  {
    if |tags| > 0 {
      assert SortedBy(tags[1..], le);
      FilteringKeepsOrder(tags[1..], query, le);
      var rest := TagsMatching(tags[1..], query);
      forall j | 0 <= j < |rest| ensures le(tags[0], rest[j]) {
        assert rest[j] in tags[1..];
        var k :| 0 <= k < |tags[1..]| && tags[1..][k] == rest[j];
        assert tags[k + 1] == rest[j];
      }
    }
  }

  /** After `sortTags`, the filtered list is in the chosen order too. */
  lemma FilteredTagsAreSorted(s: State, tags: seq<Tag>, sorting: TagSorting, searchQuery: string)
    ensures SortedBy(FilteredTags(SortTags(s, tags, sorting, searchQuery)), OrderOf(sorting))
  {
    var r := SortTags(s, tags, sorting, searchQuery);
    FilteringKeepsOrder(r.allTags, r.currentQuery, OrderOf(sorting));
  }

  /** A new query changes which tags show, never the tags or their order. */
  lemma SearchKeepsTags(s: State, query: string)
    ensures FilteredTags(SearchTags(s, query)) == TagsMatching(s.allTags, query)
    ensures SearchTags(SearchTags(s, query), s.currentQuery) == s
  {
  }
}

=== FILE: text.dfy ===
/**
 * The Kotlin string operations the modelled code relies on: `trim`,
 * `isBlank`, `split` on one character, `joinToString`, `replace`,
 * `startsWith(ignoreCase = true)` and the natural order of strings.
 */
module Text {

  /** The characters Kotlin's `Char.isWhitespace()` accepts: Java whitespace and the Unicode space separators. */
  const WHITESPACE: set<char> := {
    ' ', '\t', '\n', '\r', '\U{000B}', '\U{000C}',
    '\U{001C}', '\U{001D}', '\U{001E}', '\U{001F}',
    '\U{00A0}', '\U{1680}',
    '\U{2000}', '\U{2001}', '\U{2002}', '\U{2003}', '\U{2004}', '\U{2005}',
    '\U{2006}', '\U{2007}', '\U{2008}', '\U{2009}', '\U{200A}',
    '\U{2028}', '\U{2029}', '\U{202F}', '\U{205F}', '\U{3000}'
  }

  /** Kotlin's `Char.isWhitespace()`. */
  predicate IsWhitespace(c: char) {
    c in WHITESPACE
  }

  /** The regular-expression class `\s` of the JVM: ASCII whitespace only. */
  predicate IsRegexSpace(c: char) {
    c == ' ' || c == '\t' || c == '\n' || c == '\U{000B}' || c == '\U{000C}' || c == '\r'
  }

  /** Every character of `\s` is whitespace to Kotlin. */
  lemma RegexSpaceIsWhitespace(c: char)
    ensures IsRegexSpace(c) ==> IsWhitespace(c)
  {
  }

  /** `isBlank()`: empty or made of whitespace only. */
  predicate IsBlank(s: string) {
    forall i | 0 <= i < |s| :: IsWhitespace(s[i])
  }

  function TrimStart(s: string): (t: string)
    ensures |t| <= |s| && t == s[|s| - |t|..]
    ensures |t| > 0 ==> !IsWhitespace(t[0])
    ensures IsBlank(s[..|s| - |t|])
    decreases |s|
  {
    if |s| > 0 && IsWhitespace(s[0]) then TrimStart(s[1..]) else s
  }

  function TrimEnd(s: string): (t: string)
    ensures |t| <= |s| && t == s[..|t|]
    ensures |t| > 0 ==> !IsWhitespace(t[|t| - 1])
    ensures IsBlank(s[|t|..])
    decreases |s|
  {
    if |s| > 0 && IsWhitespace(s[|s| - 1]) then TrimEnd(s[..|s| - 1]) else s
  }

  /** `trim()`: drops leading and trailing whitespace. */
  function Trim(s: string): (t: string)
    ensures |t| > 0 ==> !IsWhitespace(t[0]) && !IsWhitespace(t[|t| - 1])
    ensures |t| == 0 <==> IsBlank(s)
    ensures forall i | 0 <= i < |t| :: t[i] in s
  {
    TrimmedIsEmptyOnlyIfBlank(s);
    TrimmedComesFromText(s);
    TrimEnd(TrimStart(s))
  }

  lemma TrimmedIsEmptyOnlyIfBlank(s: string)
    ensures |TrimEnd(TrimStart(s))| == 0 <==> IsBlank(s)
  {
    var u := TrimStart(s);
    var t := TrimEnd(u);
    if |t| == 0 {
      assert s == s[..|s| - |u|] + u;
      assert u == u[|t|..];
    } else {
      assert t[0] == u[0] == s[|s| - |u|];
    }
  }

  lemma TrimmedComesFromText(s: string)
    ensures forall i | 0 <= i < |TrimEnd(TrimStart(s))| :: TrimEnd(TrimStart(s))[i] in s
  {
    var u := TrimStart(s);
    var t := TrimEnd(u);
    var k := |s| - |u|;
    assert u == s[k..];
    assert t == u[..|t|];
    forall i | 0 <= i < |t| ensures t[i] in s {
      assert t[i] == u[i];
      assert u[i] == s[k + i];
    }
  }

  /** A string with no whitespace at either end is its own `trim()`. */
  lemma TrimKeepsTrimmed(s: string)
    requires |s| > 0 ==> !IsWhitespace(s[0]) && !IsWhitespace(s[|s| - 1])
    ensures Trim(s) == s
  {
    assert TrimStart(s) == s;
    assert TrimEnd(s) == s;
  }

  /** `split(sep)` with a single-character delimiter: keeps empty pieces. */
  function Split(s: string, sep: char): (parts: seq<string>)
    ensures |parts| >= 1
    ensures forall i | 0 <= i < |parts| :: sep !in parts[i]
    decreases |s|
  {
    if |s| == 0 then [""]
    else
      var rest := Split(s[1..], sep);
      if s[0] == sep then [""] + rest
      else [[s[0]] + rest[0]] + rest[1..]
  }

  /**
   * `split(Regex("\\s+")).filterNot { it.isEmpty() }`: the maximal runs of
   * characters outside the class `\s`, in order.
   */
  function Words(s: string): (ws: seq<string>)
    ensures forall i | 0 <= i < |ws| :: |ws[i]| > 0
    ensures forall i, j | 0 <= i < |ws| && 0 <= j < |ws[i]| :: !IsRegexSpace(ws[i][j])
    ensures |ws| == 0 <==> forall i | 0 <= i < |s| :: IsRegexSpace(s[i])
    decreases |s|
  {
    if |s| == 0 then []
    else if IsRegexSpace(s[0]) then
      var ws := Words(s[1..]);
      assert forall i | 1 <= i < |s| :: s[i] == s[1..][i - 1];
      ws
    else
      var rest := Words(s[1..]);
      if |s| > 1 && !IsRegexSpace(s[1]) then
        assert s[1..][0] == s[1];
        [[s[0]] + rest[0]] + rest[1..]
      else
        [[s[0]]] + rest
  }

  /** `joinToString(separator = sep)`. */
  function Join(parts: seq<string>, sep: string): string
    decreases |parts|
  {
    if |parts| == 0 then ""
    else if |parts| == 1 then parts[0]
    else parts[0] + sep + Join(parts[1..], sep)
  }

  /** Joining the pieces of a split with the same delimiter gives back the string. */
  lemma {:induction false} JoinSplit(s: string, sep: char)
    ensures Join(Split(s, sep), [sep]) == s
    decreases |s|
  {
    if |s| > 0 {
      var rest := Split(s[1..], sep);
      JoinSplit(s[1..], sep);
      if s[0] == sep {
        assert Split(s, sep) == [""] + rest;
        assert ([""] + rest)[1..] == rest;
      } else {
        var parts := Split(s, sep);
        assert parts == [[s[0]] + rest[0]] + rest[1..];
        if |rest| == 1 {
          assert parts == [[s[0]] + rest[0]];
        } else {
          assert parts[1..] == rest[1..];
          assert Join(rest, [sep]) == rest[0] + [sep] + Join(rest[1..], [sep]);
        }
      }
    }
  }

  /** Splitting a join of delimiter-free pieces gives back the pieces. */
  lemma {:induction false} SplitJoin(parts: seq<string>, sep: char)
    requires |parts| >= 1
    requires forall i | 0 <= i < |parts| :: sep !in parts[i]
    ensures Split(Join(parts, [sep]), sep) == parts
    decreases |parts|, |parts[0]|
  {
    if |parts[0]| > 0 {
      var p := parts[0];
      var tail := [p[1..]] + parts[1..];
      assert forall i | 0 <= i < |tail| :: sep !in tail[i] by {
        assert forall c | c in p[1..] :: c in p;
      }
      SplitJoin(tail, sep);
      var s := Join(parts, [sep]);
      if |parts| == 1 {
        assert s == p;
        assert s[1..] == Join(tail, [sep]);
      } else {
        assert s == p + [sep] + Join(parts[1..], [sep]);
        assert Join(tail, [sep]) == p[1..] + [sep] + Join(parts[1..], [sep]);
        assert s[1..] == Join(tail, [sep]);
      }
      assert s[0] == p[0] && p[0] != sep;
      assert [p[0]] + p[1..] == p;
      assert tail[1..] == parts[1..];
      assert parts == [[p[0]] + p[1..]] + tail[1..];
    } else if |parts| > 1 {
      SplitJoin(parts[1..], sep);
      var s := Join(parts, [sep]);
      assert s == [sep] + Join(parts[1..], [sep]);
      assert s[1..] == Join(parts[1..], [sep]);
      assert parts == [""] + parts[1..];
    }
  }

  /** A word followed by a separator (or by nothing) is the first word of the text. */
  lemma {:induction false} WordsPrefix(w: string, rest: string)
    requires |w| > 0
    requires forall j | 0 <= j < |w| :: !IsRegexSpace(w[j])
    requires |rest| == 0 || IsRegexSpace(rest[0])
    ensures Words(w + rest) == [w] + Words(rest)
    decreases |w|
  {
    var s := w + rest;
    assert s[0] == w[0] && !IsRegexSpace(s[0]);
    if |w| == 1 {
      assert s[1..] == rest;
      assert |s| == 1 || s[1] == rest[0];
      assert [s[0]] == w;
    } else {
      assert s[1..] == w[1..] + rest;
      WordsPrefix(w[1..], rest);
      assert s[1] == w[1];
      assert [w[0]] + w[1..] == w;
    }
  }

  /** A leading space separates no word. */
  lemma WordsSkipSpace(tail: string)
    ensures Words(" " + tail) == Words(tail)
  {
    assert (" " + tail)[1..] == tail;
  }

  /** Joining non-empty words free of `\s` with one space and splitting on `\s+` gives back the words. */
  lemma {:induction false} WordsOfJoin(ws: seq<string>)
    requires forall i | 0 <= i < |ws| :: |ws[i]| > 0
    requires forall i, j | 0 <= i < |ws| && 0 <= j < |ws[i]| :: !IsRegexSpace(ws[i][j])
    ensures Words(Join(ws, " ")) == ws
    decreases |ws|
  {
    if |ws| == 1 {
      WordsPrefix(ws[0], "");
      assert ws[0] + "" == ws[0];
    } else if |ws| > 1 {
      var w := ws[0];
      var tail := Join(ws[1..], " ");
      assert forall j | 0 <= j < |w| :: !IsRegexSpace(w[j]);
      WordsOfJoin(ws[1..]);
      WordsSkipSpace(tail);
      WordsPrefix(w, " " + tail);
      JoinCons(ws, " ");
      assert ws == [w] + ws[1..];
    }
  }

  /** A join of two or more parts is the first part, a separator, and the join of the others. */
  lemma JoinCons(ws: seq<string>, sep: string)
    requires |ws| > 1
    ensures Join(ws, sep) == ws[0] + (sep + Join(ws[1..], sep))
  {
  }

  /** A join whose last word is not empty ends with that word's last character. */
  lemma {:induction false} JoinLast(ws: seq<string>, sep: string)
    requires |ws| > 0 && |ws[|ws| - 1]| > 0
    ensures var s := Join(ws, sep);
      |s| > 0 && s[|s| - 1] == ws[|ws| - 1][|ws[|ws| - 1]| - 1]
    decreases |ws|
  {
    if |ws| > 1 {
      JoinLast(ws[1..], sep);
    }
  }

  /** A join whose outer words are not empty starts with the first word's first character and ends with the last word's last. */
  lemma JoinEnds(ws: seq<string>, sep: string)
    requires |ws| > 0 && |ws[0]| > 0 && |ws[|ws| - 1]| > 0
    ensures var s := Join(ws, sep);
      |s| > 0 && s[0] == ws[0][0] && s[|s| - 1] == ws[|ws| - 1][|ws[|ws| - 1]| - 1]
  {
    JoinLast(ws, sep);
  }

  /** A split yields one piece more than there are delimiters. */
  lemma {:induction false} SplitCount(s: string, sep: char)
    ensures |Split(s, sep)| == Count(s, sep) + 1
    decreases |s|
  {
    if |s| > 0 {
      SplitCount(s[1..], sep);
    }
  }

  /** Joining pieces that each hold `k` copies of `c`, with a delimiter free of `c`, gives `|parts| * k` copies. */
  lemma {:induction false} CountJoinUniform(parts: seq<string>, sep: string, c: char, k: nat)
    requires Count(sep, c) == 0
    requires forall i | 0 <= i < |parts| :: Count(parts[i], c) == k
    ensures Count(Join(parts, sep), c) == |parts| * k
    decreases |parts|
  {
    if |parts| == 1 {
      assert Join(parts, sep) == parts[0];
    } else if |parts| > 1 {
      var tail := parts[1..];
      assert forall i | 0 <= i < |tail| :: Count(tail[i], c) == k by {
        forall i | 0 <= i < |tail| ensures Count(tail[i], c) == k {
          assert tail[i] == parts[i + 1];
        }
      }
      CountJoinUniform(tail, sep, c, k);
      var rest := Join(tail, sep);
      assert Join(parts, sep) == parts[0] + sep + rest;
      CountAppend(parts[0], sep, c);
      CountAppend(parts[0] + sep, rest, c);
      SuccessorTimes(|tail|, k);
    }
  }

  lemma SuccessorTimes(n: nat, k: nat)
    ensures (n + 1) * k == k + n * k
  {
  }

  /** Every character of a join comes from the delimiter or from one of the pieces. */
  lemma {:induction false} JoinChars(parts: seq<string>, sep: string, x: char)
    requires x in Join(parts, sep)
    ensures x in sep || exists i | 0 <= i < |parts| :: x in parts[i]
    decreases |parts|
  {
    if |parts| > 1 {
      var rest := Join(parts[1..], sep);
      assert Join(parts, sep) == parts[0] + sep + rest;
      if x in rest && x !in parts[0] && x !in sep {
        JoinChars(parts[1..], sep, x);
        var i :| 0 <= i < |parts[1..]| && x in parts[1..][i];
        assert x in parts[i + 1];
      }
    }
  }

  /** The number of occurrences of `c` in `s`. */
  function Count(s: string, c: char): (n: nat)
    ensures n <= |s|
    ensures n == 0 <==> c !in s
    decreases |s|
  {
    if |s| == 0 then 0 else (if s[0] == c then 1 else 0) + Count(s[1..], c)
  }

  /** Counting distributes over concatenation. */
  lemma {:induction false} CountAppend(a: string, b: string, c: char)
    ensures Count(a + b, c) == Count(a, c) + Count(b, c)
    decreases |a|
  {
    if |a| == 0 {
      assert a + b == b;
    } else {
      var ab := a + b;
      assert ab[0] == a[0] && ab[1..] == a[1..] + b;
      CountAppend(a[1..], b, c);
      assert Count(ab, c) == (if a[0] == c then 1 else 0) + Count(ab[1..], c);
    }
  }

  /** A prefix without `c` adds nothing to its count. */
  lemma CountPrefixFree(a: string, b: string, c: char)
    requires c !in a
    ensures Count(a + b, c) == Count(b, c)
  {
    CountAppend(a, b, c);
  }

  /** A suffix without `c` adds nothing to its count. */
  lemma CountSuffixFree(a: string, b: string, c: char)
    requires c !in b
    ensures Count(a + b, c) == Count(a, c)
  {
    CountAppend(a, b, c);
  }

  /**
   * `replace(oldValue = pat, newValue = rep)`: every non-overlapping
   * occurrence of `pat`, scanning left to right, becomes `rep`.
   */
  function ReplaceAll(s: string, pat: string, rep: string): string
    requires |pat| > 0
    decreases |s|
  {
    if |s| == 0 then ""
    else if pat <= s then rep + ReplaceAll(s[|pat|..], pat, rep)
    else [s[0]] + ReplaceAll(s[1..], pat, rep)
  }

  /** Replacing one character by a text without it leaves no occurrence of that character. */
  lemma {:induction false} ReplaceCharRemovesIt(s: string, c: char, rep: string)
    requires c !in rep
    ensures c !in ReplaceAll(s, [c], rep)
    decreases |s|
  {
    if |s| > 0 {
      if [c] <= s {
        ReplaceCharRemovesIt(s[1..], c, rep);
      } else {
        assert s[0] != c;
        ReplaceCharRemovesIt(s[1..], c, rep);
      }
    }
  }

  /** Removing a character keeps the other characters, in order. */
  lemma {:induction false} RemoveCharKeepsOthers(s: string, c: char)
    ensures ReplaceAll(s, [c], "") == Filter(s, c)
    decreases |s|
  {
    if |s| > 0 {
      RemoveCharKeepsOthers(s[1..], c);
    }
  }

  /** `s` without its occurrences of `c`. */
  function Filter(s: string, c: char): (t: string)
    ensures |t| == |s| - Count(s, c)
    ensures c !in t
    decreases |s|
  {
    if |s| == 0 then ""
    else if s[0] == c then Filter(s[1..], c) else [s[0]] + Filter(s[1..], c)
  }

  /** Case-insensitive equality of two characters, folding ASCII letters. */
  predicate EqualsIgnoreCase(a: char, b: char) {
    LowerAscii(a) == LowerAscii(b)
  }

  function LowerAscii(c: char): char {
    if 'A' <= c <= 'Z' then (c as int + 32) as char else c
  }

  /** `s.startsWith(prefix, ignoreCase = true)`. */
  predicate StartsWithIgnoreCase(s: string, prefix: string) {
    |prefix| <= |s| && forall i | 0 <= i < |prefix| :: EqualsIgnoreCase(s[i], prefix[i])
  }

  /**
   * The natural order of strings (`String.compareTo`): lexicographic on
   * characters, a proper prefix coming first.
   */
  predicate LexLe(a: string, b: string)
    decreases |a|
  {
    if |a| == 0 then true
    else if |b| == 0 then false
    else if a[0] != b[0] then a[0] < b[0]
    else LexLe(a[1..], b[1..])
  }

  lemma {:induction false} LexLeTotal(a: string, b: string)
    ensures LexLe(a, b) || LexLe(b, a)
    decreases |a|
  {
    if |a| > 0 && |b| > 0 && a[0] == b[0] {
      LexLeTotal(a[1..], b[1..]);
    }
  }

  lemma {:induction false} LexLeAntisymmetric(a: string, b: string)
    requires LexLe(a, b) && LexLe(b, a)
    ensures a == b
    decreases |a|
  {
    if |a| > 0 && |b| > 0 {
      LexLeAntisymmetric(a[1..], b[1..]);
      assert a == [a[0]] + a[1..] && b == [b[0]] + b[1..];
    }
  }

  lemma {:induction false} LexLeTransitive(a: string, b: string, c: string)
    requires LexLe(a, b) && LexLe(b, c)
    ensures LexLe(a, c)
    decreases |a|
  {
    if |a| > 0 && |b| > 0 && |c| > 0 && a[0] == b[0] && b[0] == c[0] {
      LexLeTransitive(a[1..], b[1..], c[1..]);
    }
  }
}
